=== FILE: README.md ===
# kalender — a Dafny model of the daily-progress tracker

The system is a personal progress journal. Users register and verify their
email before they can log in. They then record dated entries (*progress*):
a date `tanggal`, a note `catatan`, optional tags and optional images
`gambar`. The entries are shown on a month calendar, searched and filtered,
summarised into statistics (period counts, current and longest streak,
a twelve-month series), and exported as CSV, PDF and spreadsheet rows.

This project models the logic of that system as pure Dafny functions over
immutable data and proves properties of it:

- `Dates` and `Strings`: calendar dates, `YYYY-MM-DD` keys and the text
  helpers the code relies on (digits, string order, lower-casing, trimming).
- `Entries`: a progress row, and counting and filtering over lists of rows.
- `Statistics`: the statistics hook. It covers the period counts, the
  streak walk exactly as written, and the intended streaks beside it.
- `Search`: the search hook's filter chain, its newest-first sort, and the
  sorted tag list.
- `Calendar`: the per-date counts and what a day cell shows.
- `Export`: the CSV text with its quoting, the PDF and spreadsheet rows, and
  the summary counts.
- `ProgressRoutes`: the server's progress routes over an abstract table.
  Every route is scoped to the authenticated user.
- `AuthMiddleware` and `Auth`: the bearer-token middleware, and the account
  routes (register, login, verify-email, resend-verification, `/me`).
- `RegisterPage`, `ProgressForm`, `TagInput`, `FilterPanel`, `Gallery`:
  the state logic of the client components.
- `Storage`, `Notification`, `ImageSize`: the browser-storage cache and
  settings, the reminder helpers, and the image-resize rule.

Some things are not computed by the code itself: password hashing and
comparison, JWT signing and verification, random tokens, the clock, new row
ids, the email sender, and locale formatting. Each enters the model as a
parameter: a value, or a function passed in.

Dates are proleptic Gregorian with four-digit years (1000 to 9999). Day 0 is
0001-01-01. With four-digit years every date key has the same width, so
comparing two keys as strings is the same as comparing the dates
(`Dates.DateKeyOrder`). The code relies on this when it compares `tanggal`
strings and sorts them.

Four behaviours of the statistics hook may look unintended; the model
follows the code:

- For an empty input the hook returns an empty `monthlyData`, not twelve
  zero buckets.
- The current streak is not frozen at the first break. Every later 1-day
  gap still adds to it (first row of the Findings below).
- When the newest date is neither today nor yesterday, the walk never
  starts. Both streaks are then 0, even if an older run exists (second
  Findings row).
- Line 94 of the hook never changes the result, because line 93 has already
  taken the maximum. `Statistics.StreakWalk` keeps it as written.

## Model

| member | source | states |
|---|---|---|
| Dates.DaysInMonth | server/routes/progress.js:40-41 | the last day of a month is 28 to 31; February has 29 days exactly in leap years; a month other than February has 30 days exactly when it is April, June, September or November |
| Dates.DayOfWeek | client/src/hooks/useStatistics.js:34-35 | `getDay()` of a date is in 0..6 |
| Dates.WeekdayExamples | client/src/hooks/useStatistics.js:35 | 2024-01-07 is a Sunday (0) and 2024-01-01 a Monday (1), so the day count is anchored like `getDay()` |
| Dates.DayNumberOrder | client/src/hooks/useStatistics.js:67-79 | day numbers order dates as the calendar does, and two dates have the same day number exactly when they are the same date |
| Dates.NextDayNumber | client/src/hooks/useStatistics.js:67-79 | the next calendar day, across month and year ends, has the next day number, so the day differences the walk takes are calendar-day differences |
| Dates.DateKey | client/src/hooks/useStatistics.js:31 | the `YYYY-MM-DD` text of a date has ten characters with dashes at positions 4 and 7 |
| Dates.ParseDateKey | client/src/hooks/useStatistics.js:44 | reading a `YYYY-MM-DD` text gives only valid dates; with `ParseDateKeyOfDateKey` and `DateKeyOfParseDateKey` it is the inverse of `DateKey` |
| Dates.DateKeyParts | client/src/components/Calendar.js:16-19 | the key is the 4-digit year, the 2-digit zero-padded month and the 2-digit zero-padded day |
| Dates.ParseDateKeyOfDateKey | client/src/hooks/useStatistics.js:44-45 | splitting a date key at its dashes and reading the numbers gives back the date |
| Dates.DateKeyOfParseDateKey | client/src/hooks/useStatistics.js:44-45 | a text that reads as a date is that date's key: the key form is the only form |
| Dates.DateKeyInjective | client/src/components/Calendar.js:19-20 | two valid dates with the same key are the same date, so a key lookup finds exactly one date's entries |
| Dates.DateKeyOrder | client/src/hooks/useSearch.js:28-34 | one key is less than another as a string exactly when its date is earlier |
| Dates.MonthsBack | client/src/hooks/useStatistics.js:109-111 | stepping `i` months back from (year, month) gives a month in 1..12 exactly `i` months earlier, across year boundaries |
| Strings.NatText | server/routes/progress.js:41 | `String(n)` of a natural number is a digit string without a leading zero that reads back as `n` |
| Strings.DigitsRoundTrip | client/src/hooks/useStatistics.js:31 | a number below 10^w written with `padStart(w, '0')` reads back as itself |
| Strings.DigitsOrder | client/src/hooks/useSearch.js:29 | equal-width zero-padded numbers compare as strings as they do as numbers |
| Strings.ToLower | client/src/hooks/useSearch.js:20 | lower-casing keeps the length and maps each letter A-Z to its lower-case form, leaving other characters |
| Strings.Trim | client/src/hooks/useSearch.js:19-20 | the trimmed text is a slice of the input with only white space dropped before and after it, it neither starts nor ends with white space, and it is empty exactly when the input is all white space |
| Strings.TrimLower | client/src/hooks/useSearch.js:19-20 | lower-casing does not change whether a text is blank, and the trimmed lower-cased term has no capital letter |
| Strings.Split | client/src/utils/export.js:199-202 | splitting at a character gives at least one piece and no piece contains that character |
| Strings.SplitJoin | client/src/utils/export.js:199-202 | joining pieces free of a character with that character and splitting at it gives the pieces back |
| Strings.Utf16Length | client/src/utils/export.js:44 | `length` counts UTF-16 code units: at least as many as there are characters and at most twice as many |
| Strings.Utf16OfBmp | client/src/utils/export.js:44 | when every character is in the Basic Multilingual Plane, `length` is the number of characters |
| Strings.Utf16Concat | client/src/utils/export.js:44 | code-unit lengths add up over concatenation |
| Strings.Utf16Prefix | client/src/utils/export.js:44 | `substring(0, n)` keeps the longest prefix of whole characters within `n` code units: one more character would exceed `n` |
| Strings.Utf16PrefixOfBmp | client/src/utils/export.js:44 | without characters outside the Basic Multilingual Plane the prefix within `n` code units is the first `n` characters |
| Strings.Utf16Example | server/routes/auth.js:25 | "Aa1" and three emoji are six characters but nine code units, so `length < 8` is false for it |
| Entries.TotalImages | client/src/hooks/useStatistics.js:103 | the image total is at least each entry's image count, and 0 exactly when no entry has an image |
| Entries.TotalImagesAppend | client/src/hooks/useStatistics.js:103 | the image total of two lists together is the sum of their totals |
| Entries.CountComplement | client/src/hooks/useStatistics.js:42-46 | the entries a filter keeps and those it drops together make up the whole list |
| Entries.Filter | client/src/hooks/useSearch.js:21-24 | `filter` keeps each entry the predicate accepts with its full multiplicity, and drops the rest |
| Entries.FilterAppend | client/src/hooks/useSearch.js:21-24 | `filter` keeps the order: the kept entries of two lists in a row are the kept entries of the first followed by those of the second |
| Sorting.SortBy | client/src/hooks/useSearch.js:51 | the sort returns a permutation of its input in non-increasing key order |
| Sorting.SortByStable | client/src/hooks/useSearch.js:51 | the sort is stable: the elements with any one key come out in their input order |
| Statistics.WeekStart | client/src/hooks/useStatistics.js:34-36 | the start of the week is a Sunday, 0 to 6 days before today |
| Statistics.PeriodBounds | client/src/hooks/useStatistics.js:42-56 | today's count is at most this month's and this week's, and each is at most the total |
| Statistics.TodayCount | client/src/hooks/useStatistics.js:55 | the length of the filter that keeps the entries dated today, 0 exactly when no entry is |
| Statistics.MonthCount | client/src/hooks/useStatistics.js:42-46 | the length of the filter that keeps the entries whose `tanggal` names this year and month, 0 exactly when no entry does |
| Statistics.WeekCount | client/src/hooks/useStatistics.js:33-53 | the length of the filter that keeps the dated entries on or after the week's Sunday, 0 exactly when no entry is |
| Statistics.UndatedEntry | client/src/hooks/useStatistics.js:42-53 | an entry without a date adds to no period count but does add its images to the image total |
| Statistics.DistinctDays | client/src/hooks/useStatistics.js:59 | the deduplicated, reverse-sorted dates are strictly decreasing and hold exactly the days of the entries |
| Statistics.Walk | client/src/hooks/useStatistics.js:61-91 | the walk starts only when the newest date is at most one day before today; then `currentStreak` is one plus the number of 1-day gaps, `tempStreak` is the run ending at the oldest date, and the larger of `longestStreak` and `tempStreak` is the longest run |
| Statistics.Step | client/src/hooks/useStatistics.js:66-91 | the first date starts the walk exactly when it is at most one day before today, with both counters at 1; later, an idle walk stays idle, a started walk moves `lastDate` to the date, `tempStreak` grows by one on a 1-day gap and restarts at 1 otherwise, `currentStreak` grows by at most one and, once positive, exactly on a 1-day gap, and `longestStreak` never shrinks |
| Statistics.StreakWalk | client/src/hooks/useStatistics.js:61-94 | as written, both streaks are 0 unless the newest date is today or yesterday; otherwise the current streak counts every 1-day gap and the longest streak is the longest run, never above the current one |
| Statistics.OneRunStreaks | client/src/hooks/useStatistics.js:61-94 | on one gap-free run of `n` days that is live, both streaks are `n` |
| Statistics.LeadingRunAtMostLongest | client/src/hooks/useStatistics.js:93 | the run at the newest date is never longer than the longest run |
| Statistics.IntendedStreaks | client/src/hooks/useStatistics.js:61-94 | the corrected streaks: the current streak is the run containing the newest date when that date is today or yesterday (else 0), and the longest is the longest run whatever its age; current ≤ longest ≤ number of days |
| Statistics.WalkVersusIntended | client/src/hooks/useStatistics.js:61-94 | while the newest date is live, the written walk gives the intended longest streak and a current streak at least the intended one; on one gap-free run the two agree |
| Statistics.CurrentStreakNotFrozen | client/src/hooks/useStatistics.js:81-84 | dates 2024-01-05, 01-02 and 01-01 viewed on 01-05 give a current streak of 2 as written, against 1 intended |
| Statistics.LongestStreakLostWhenNotLive | client/src/hooks/useStatistics.js:69-94 | dates 2024-01-02 and 01-01 viewed on 01-10 give a longest streak of 0 as written, against 2 intended |
| Statistics.MonthlySeries | client/src/hooks/useStatistics.js:106-123 | twelve consecutive months oldest first, ending at the current month, each with the number of entries in that month |
| Statistics.ComputeStatistics | client/src/hooks/useStatistics.js:12-135 | the empty input gives the all-zero summary; otherwise total, image total and the period counts are the counts of their periods, both streaks are those of the streak walk over the distinct days (bounded by their number), and the monthly series is the twelve-month series ending at this month (`Statistics.MonthlySeries`), its last bucket being this month |
| Statistics.NotLiveMeansNoStreaks | client/src/hooks/useStatistics.js:69-94 | when the newest date is more than one day before today, both streaks are 0 |
| Statistics.SameDateKeepsStreaks | client/src/hooks/useStatistics.js:59 | one more entry on a date already present raises the total by one and changes neither streak |
| Statistics.EarliestDay | client/src/hooks/useStatistics.js:97 | the last of the distinct days is the earliest entry's day |
| Statistics.DaysSinceFirst | client/src/hooks/useStatistics.js:97-99 | the days since the first entry, both ends counted, are measured from the earliest entry: no entry lies further back |
| Statistics.SameDayEntriesExample | client/src/hooks/useStatistics.js:39-103 | two entries on 2024-02-01 and one on 02-02 viewed on 02-02 give total 3, both streaks 2, and the one image counted |
| Search.ApplyFilters | client/src/hooks/useSearch.js:16-48 | the filter chain keeps, with its multiplicity, exactly each entry that every active filter accepts |
| Search.SearchActive | client/src/hooks/useSearch.js:19 | the search filter is on exactly when the term has non-blank text (`NormalizedTerm` is then non-empty) |
| Search.MatchesTerm | client/src/hooks/useSearch.js:21-24 | an entry matches when its lower-cased note, or one of its lower-cased tags, contains the term; `ApplyFilters` keeps exactly the matching entries when the search is on |
| Search.SortNewestFirst | client/src/hooks/useSearch.js:51 | the sort rearranges any input, and puts dated entries in non-increasing date order |
| Search.NewestFirstStable | client/src/hooks/useSearch.js:51 | entries of the same day keep their input order |
| Search.UseSearch | client/src/hooks/useSearch.js:12-55 | for any input, each entry occurs as often as in the input if it is selected and not at all otherwise; the result is newest first when every entry is dated |
| Search.NormalizedTerm | client/src/hooks/useSearch.js:19-20 | the term used is non-empty exactly when the search is on (the term has non-blank text), and it has no capital letter |
| Search.SearchOnlyDrops | client/src/hooks/useSearch.js:16-48 | the result is a sub-multiset of the input and no longer than it |
| Search.NoFiltersKeepsAll | client/src/hooks/useSearch.js:19-48 | with a blank term and no filters, every entry is kept |
| Search.DateBoundsAreDates | client/src/hooks/useSearch.js:28-34 | for bounds that are date keys, the string tests are the inclusive date tests |
| Search.AvailableTags | client/src/hooks/useSearch.js:60-73 | the tag list is strictly ascending and holds exactly the tags of the entries |
| Search.AscendingHasNoDuplicates | client/src/hooks/useSearch.js:64-71 | the sorted tag list names no tag twice, as the set it comes from does not |
| Calendar.CountByDate | client/src/components/Calendar.js:8-13 | the map's keys are exactly the `tanggal` texts that occur, each mapped to the positive number of entries carrying it |
| Calendar.CountsSumToTotal | client/src/components/Calendar.js:8-13 | the counts add up to the number of entries |
| Calendar.DayCell | client/src/components/Calendar.js:15-30 | the cell looks up its own date key; it shows the indicator exactly when the count is positive, and the badge exactly when it is above 1, holding the count |
| Calendar.TanggalIsDate | client/src/components/Calendar.js:16-20 | an entry carries a cell's key exactly when it is on the cell's date |
| Calendar.CellShowsEntries | client/src/components/Calendar.js:15-30 | a cell shows the indicator exactly when an entry is on its date, and a badge with their number exactly when at least two are |
| Export.DoubleQuotes | client/src/utils/export.js:192 | doubling the quotes never shortens a text and leaves a text without quotes as it is; `UndoubleDouble` and `DoubleUndouble` make it a reversible escape |
| Export.Quote | client/src/utils/export.js:192-193 | a quoted field is the text between an opening and a closing quote, two characters longer |
| Export.UndoubleDouble | client/src/utils/export.js:192 | doubling every quote and un-doubling gives back the text |
| Export.DoubleUndouble | client/src/utils/export.js:192 | a field body that un-doubles is the doubling of its reading, so the escaped form is unique |
| Export.NoteField | client/src/utils/export.js:192 | the note field reads back as the note, quotes included |
| Export.TagsField | client/src/utils/export.js:193 | as written, the tags field reads back as the joined tags only when no tag holds a quote; missing tags give `""` |
| Export.EscapedTagsField | client/src/utils/export.js:193 | the corrected tags field always reads back as the joined tags |
| Export.TagsFieldQuoteBreaks | client/src/utils/export.js:193 | the tag `a"b` gives the written field `"a"b"`, which does not read back, while the escaped field does |
| Export.CsvRow | client/src/utils/export.js:189-197 | a row has the header's seven fields: the 1-based row number, the note field that reads back as the note, the tags field as written (`TagsField`), and the image count (0 without images) |
| Export.CsvLines | client/src/utils/export.js:199-202 | the header line comes first, then one line per entry in input order |
| Export.CsvContent | client/src/utils/export.js:199-202 | the text is the header alone for no entries and otherwise starts with the header and a newline; when no line holds a line break of its own, splitting the text at line breaks gives back exactly the header and the row lines |
| Export.CsvLineCount | client/src/utils/export.js:199-202 | when no field holds a line break the text has one line per entry after the header, and line `i + 1` is row `i` joined by commas |
| Export.NoteCell | client/src/utils/export.js:44 | a note of at most 60 UTF-16 code units is kept whole; a longer one keeps the longest prefix of whole characters within 60 code units followed by "...", at most 63 code units in all |
| Export.NoteCellOfBmp | client/src/utils/export.js:44 | for a note inside the Basic Multilingual Plane the cell is the note up to 60 characters, else its first 60 characters and "..." |
| Export.TagsCell | client/src/utils/export.js:45 | the tags cell is never empty: "-" without tags, else the joined tags |
| Export.PdfRow | client/src/utils/export.js:41-47 | five cells: the 1-based row number, the formatted date, the shortened note (`Export.NoteCell`), the tags cell (`Export.TagsCell`, never empty) and the image count |
| Export.SheetRow | client/src/utils/export.js:97-107 | the spreadsheet keeps the whole note and "" for missing tags, with the row number and image count as in the CSV |
| Export.ImagesBound | client/src/utils/export.js:126-127 | the entries with images are at most the total images, and there are none exactly when there are no images |
| Export.WithImages | client/src/utils/export.js:37 | the length of the filter that keeps the entries with at least one image: at most the number of entries, and 0 exactly when no entry has an image |
| Export.WithImagesAppend | client/src/utils/export.js:37 | the count adds up over concatenated lists, one for each entry that has images |
| Export.ExportSummary | client/src/utils/export.js:124-127 | total is the number of entries, "With Images" is `Export.WithImages` and "Total Images" is `Entries.TotalImages`, so "With Images" is at most both the total and "Total Images" |
| ProgressRoutes.SortOldestFirst | server/routes/progress.js:18 | `order('tanggal', ascending)` is a permutation with the dates in non-decreasing order |
| ProgressRoutes.ListAll | server/routes/progress.js:12-26 | `GET /all` returns exactly the caller's rows, oldest first |
| ProgressRoutes.MonthBounds | server/routes/progress.js:38-43 | for a month in 1..12 the bounds are the keys of the first and the last day of the month; for any month 0..99 they are the year, the padded month, and `01` or the day `new Date(year, month, 0)` gives |
| ProgressRoutes.LastDay | server/routes/progress.js:40-41 | `new Date(year, month, 0).getDate()` is 28 to 31 and, for a month in 1..12, the length of that month |
| ProgressRoutes.MonthBoundsOutside | server/routes/progress.js:38-45 | for month 0 or a month 13..99 no valid date key lies between the bounds |
| ProgressRoutes.MonthBoundsAdmit | server/routes/progress.js:38-43 | a date lies between the bounds exactly when it is in the requested month |
| ProgressRoutes.ListMonth | server/routes/progress.js:28-54 | `GET /` returns exactly the caller's rows within the month bounds when month and year are given (all of the caller's rows otherwise), oldest first |
| ProgressRoutes.ListMonthIsMonth | server/routes/progress.js:38-46 | a stored row is listed for a month exactly when it is the caller's and falls in that calendar month |
| ProgressRoutes.ListMonthOutside | server/routes/progress.js:38-48 | a month outside 1..12 (0 or 13..99) lists nothing |
| ProgressRoutes.Fetch | server/routes/progress.js:58-63 | the lookup by id and user finds a row of the caller with that id, or reports that there is none |
| ProgressRoutes.GetOne | server/routes/progress.js:56-75 | `GET /:id` answers 200 exactly when the caller owns a row with that id, otherwise 404, and never changes the table |
| ProgressRoutes.Single | server/routes/progress.js:58-63 | `.single()` yields a row exactly when the query selects one row, and that row is among them |
| ProgressRoutes.GetOneAsWritten | server/routes/progress.js:56-75 | as written, `GET /:id` never answers 404: it answers 200 exactly when one row matches, and 500 otherwise |
| ProgressRoutes.MissingRowIs500 | server/routes/progress.js:65-68 | a row the caller does not have gets 500 as written, where the intended reply (`GetOne`) is 404 |
| ProgressRoutes.ListByDate | server/routes/progress.js:77-92 | `GET /date/:date` returns exactly the caller's rows with that `tanggal`, newest `dibuat` first |
| ProgressRoutes.UploadPaths | server/routes/progress.js:102 | each uploaded file is stored as `/uploads/<name>`, in upload order |
| ProgressRoutes.Create | server/routes/progress.js:94-122 | more than five files are refused before the handler runs; a missing `tanggal` is 400; otherwise 201 appends one row of the caller with that date, the note or "", the upload paths, no tags and both stamps now |
| ProgressRoutes.CreateKeepsStored | server/routes/progress.js:104-114 | with a fresh id, creating keeps ids unique and every row dated |
| ProgressRoutes.Without | server/routes/progress.js:149 | the filter removes exactly the given path |
| ProgressRoutes.RemoveEachIsKeep | server/routes/progress.js:142-151 | removing the paths one after another keeps, in order, exactly the images not listed |
| ProgressRoutes.KeepMembers | server/routes/progress.js:142-151 | an image survives the removal exactly when it is not listed |
| ProgressRoutes.MergedImages | server/routes/progress.js:140-156 | the new image list is the old one without the removed paths, followed by the new uploads |
| ProgressRoutes.Replace | server/routes/progress.js:158-166 | the update replaces the rows with that id and keeps every other row |
| ProgressRoutes.Update | server/routes/progress.js:124-174 | `PUT /:id` succeeds exactly when the caller owns the row; the row gets the new note if one is sent, the merged images and a new update stamp; otherwise nothing changes |
| ProgressRoutes.Delete | server/routes/progress.js:176-210 | `DELETE /:id` succeeds exactly when the caller owns the row, and then removes exactly the rows with that id; otherwise 404 with nothing changed |
| ProgressRoutes.WritesStayWithOwner | server/routes/progress.js:124-210 | with unique ids, an update or delete leaves every row of another user in the table |
| AuthMiddleware.BearerToken | server/middleware/auth.js:7-16 | a token is taken exactly when the header starts with "Bearer ", and it is the rest of the header |
| AuthMiddleware.BearerRoundTrip | server/middleware/auth.js:9-16 | the token of `Bearer <t>` is `t` |
| AuthMiddleware.Authenticate | server/middleware/auth.js:5-46 | the request goes on exactly when a bearer token verifies, carrying the token's claims as the user; a missing token is 401; failures are 401 or 500, and 500 exactly for a failure that is neither malformed nor expired |
| AuthMiddleware.FailureStatuses | server/middleware/auth.js:27-44 | a malformed and an expired token each get 401 with their own message; any other failure gets 500 |
| Auth.FirstLine | server/routes/auth.js:32 | the text `.*` can scan is the longest prefix without a line terminator |
| Auth.TestComposed | server/routes/auth.js:32-38 | the scan accepts exactly the passwords whose first line has a lower-case letter, an upper-case letter and a digit |
| Auth.Composed | server/routes/auth.js:32-33 | the composition rule: a lower-case letter, a capital and a digit all occur before the first line terminator (the lookaheads' `.*` stops there); `TestComposed` computes it |
| Auth.ValidEmailIsPattern | server/routes/auth.js:40-46 | the direct email check accepts exactly the texts of the form `plain@plain.plain` |
| Auth.ValidEmail | server/routes/auth.js:40-46 | the email test as a direct check: plain text, the first '@', then a domain of plain characters with an inner '.'; `ValidEmailIsPattern` shows it is the pattern |
| Auth.First | server/routes/auth.js:144-148 | a single-row read returns a row of the table that matches, and reports none exactly when no row matches |
| Auth.ByUsername | server/routes/auth.js:144-148 | the lookup finds a user with that username, or none exists |
| Auth.ByEmail | server/routes/auth.js:293-297 | the lookup finds a user with that email, or none exists |
| Auth.ById | server/routes/auth.js:363-367 | the lookup finds a user with that id, or none exists |
| Auth.ByToken | server/routes/auth.js:226-230 | the lookup finds a token row with that token text, or none exists |
| Auth.MarkVerified | server/routes/auth.js:248-251 | exactly the users with that id become verified; no other user changes |
| Auth.DropToken | server/routes/auth.js:258-261 | exactly the token rows with that token text are deleted |
| Auth.DropUserTokens | server/routes/auth.js:316-319 | exactly the token rows of that user are deleted |
| Auth.RegisterError | server/routes/auth.js:17-46 | registration passes validation exactly when all fields are present, the password has at least 8 UTF-16 code units and passes the composition rule, and the email matches the pattern; otherwise 400 |
| Auth.Register | server/routes/auth.js:13-114 | 201 exactly when the input passes validation and no user has the username or the email, and exactly when the store changes; then an unverified user and a 24-hour token are appended; 409 exactly when valid input clashes; no login token is issued; existing accounts are kept |
| Auth.RegisterKeepsConsistent | server/routes/auth.js:48-72 | with a fresh id, registering keeps ids, usernames and emails unique |
| Auth.Login | server/routes/auth.js:131-207 | missing fields are 400; an unknown user and a wrong password both get the 401 reply with the shared message; 403 exactly for a right password on an unverified account; 200 with a token exactly for a right password on a verified account |
| Auth.LoginDoesNotRevealAccounts | server/routes/auth.js:153-171 | an unknown username and a known one with a wrong password get identical replies |
| Auth.VerifyEmail | server/routes/auth.js:221-270 | an unknown token is 400; an expired one is 400 with nothing changed; otherwise 200 marks the user verified and deletes the token |
| Auth.Resend | server/routes/auth.js:281-346 | a missing email is 400; unknown and already-verified emails get 200 with nothing changed; for an unverified account the user's tokens are replaced by one new 24-hour token, with 200 or 500 as the email goes out or not |
| Auth.ResendLeavesOneToken | server/routes/auth.js:315-331 | after a resend the user has exactly one token, the new one |
| Auth.NewAccountMustVerify | server/routes/auth.js:173-181 | a freshly registered account gets 403 when it logs in with the right password |
| Auth.RegisterVerifyLogin | server/routes/auth.js:62-207 | registering, verifying within 24 hours and logging in with the same password yields 200 and a token |
| Auth.Me | server/routes/auth.js:349-387 | `GET /me` answers 200 with the account when the token decodes and names an existing user, 404 when it decodes and the user is missing, and 401 when there is no bearer token or the token does not decode |
| Auth.MeAgreesWithMiddleware | server/routes/auth.js:349-387 | `/me` answers 200 exactly when the middleware would let the request through and the account exists, then with that account; 404 when it would pass but the account is gone; 401 whenever the middleware refuses, including its 500 case |
| RegisterPage.HandleSubmit | client/src/pages/Register.js:32-57 | the form is sent exactly when all four fields are filled, the passwords match, and the password has at least 8 UTF-16 code units and passes the composition rule; a missing field shows "All fields are required" |
| RegisterPage.MismatchFirst | client/src/pages/Register.js:38-48 | a password mismatch is reported before the length and composition checks |
| RegisterPage.SubmittedPasswordIsAccepted | client/src/pages/Register.js:44-57 | whatever the page sends passes the server's password rules; the server can refuse it only for the email's shape |
| Storage.CacheSet | client/src/utils/storage.js:17-25 | the item is stored under `cache_<key>` with expiry now + ttl (one hour by default); no other key changes |
| Storage.CacheGet | client/src/utils/storage.js:37-55 | data is served exactly while now is at most the expiry; strictly after the expiry the item is removed and nothing is served; a missing key changes nothing |
| Storage.CacheRemove | client/src/utils/storage.js:61-63 | exactly the cache key is removed |
| Storage.CacheClearAll | client/src/utils/storage.js:68-75 | exactly the keys with the `cache_` prefix are removed; the others keep their values |
| Storage.GetCacheInfo | client/src/utils/storage.js:82-100 | the info exists exactly for a stored cache item; age and remaining time are measured from now; the item counts as expired exactly from its expiry instant on |
| Storage.CacheSetThenGet | client/src/utils/storage.js:17-50 | a stored item is served until its expiry instant, inclusive |
| Storage.ExpiryInstantDisagrees | client/src/utils/storage.js:45-94 | at exactly the expiry instant, `getInfo` says expired while `get` still serves the data |
| Storage.CacheExpires | client/src/utils/storage.js:45-47 | strictly after the expiry the item is gone, and a second read finds nothing |
| Storage.SettingGet | client/src/utils/storage.js:114-121 | a stored setting reads as its value; a missing one reads as the default |
| Storage.SettingSet | client/src/utils/storage.js:128-136 | the value is stored under `setting_<key>`; no other key changes |
| Storage.SettingSetThenGet | client/src/utils/storage.js:114-136 | a setting reads back as the value last set, whatever the default |
| Storage.SettingRemove | client/src/utils/storage.js:142-144 | exactly the setting key is removed |
| Storage.SettingNames | client/src/utils/storage.js:152-158 | the names listed are exactly those whose prefixed key is stored |
| Storage.SettingsAll | client/src/utils/storage.js:150-162 | `getAll` lists exactly the stored setting names, each with its stored value |
| Storage.SettingsAllAgreesWithGet | client/src/utils/storage.js:150-162 | a listed value is what `get` reads, and a name listed as null reads as the default |
| Storage.CacheLeavesSettings | client/src/utils/storage.js:68-75 | cache writes and clearing the cache never change what a setting reads as |
| Storage.Import | client/src/utils/storage.js:211-219 | imported keys overwrite; other keys stay unless the storage is cleared first, and no other key appears |
| TagInput.Catalog | client/src/components/Tags/TagInput.js:18-27 | the known tags are the predefined ones if any are given, else the six defaults |
| TagInput.Suggest | client/src/components/Tags/TagInput.js:29-32 | a known tag is suggested exactly when its lower-cased name contains the lower-cased input and it is not chosen |
| TagInput.SuggestAppend | client/src/components/Tags/TagInput.js:29-32 | the suggestions keep the known tags' order: those of two lists in a row are the first list's followed by the second's |
| TagInput.BlankInputOffersAll | client/src/components/Tags/TagInput.js:29-32 | a blank input suggests every known tag that is not chosen |
| TagInput.AddTag | client/src/components/Tags/TagInput.js:34-45 | at the limit nothing changes; otherwise the input is cleared, a new name is appended, and a chosen one is not added again |
| TagInput.AddKeepsLimits | client/src/components/Tags/TagInput.js:34-45 | adding never exceeds the limit and never repeats a tag |
| TagInput.RemoveTag | client/src/components/Tags/TagInput.js:47-49 | removing drops exactly the named tag |
| TagInput.RemoveAt | client/src/components/Tags/TagInput.js:47-49 | removing a tag chosen once removes exactly its position and keeps the order of the rest |
| TagInput.AddThenRemove | client/src/components/Tags/TagInput.js:34-49 | adding a new tag and then removing it restores the chosen tags |
| TagInput.KeyDown | client/src/components/Tags/TagInput.js:51-56 | Enter with a non-blank input is `handleAddTag` of the trimmed input; any other key, or a blank input, changes nothing; a tag it adds is the trimmed input |
| TagInput.KeyDownChoosesTyped | client/src/components/Tags/TagInput.js:51-56 | Enter after typing a new name without surrounding blanks, below the limit, chooses exactly the typed name and clears the input |
| TagInput.TagColor | client/src/components/Tags/TagInput.js:58-61 | the colour is that of the first known tag with the name, or the fallback when there is none or it has no colour |
| FilterPanel.Start | client/src/components/Search/FilterPanel.js:14-20 | each given initial field is kept, and each missing one takes its own empty value (`''`, `[]`, `false`) |
| FilterPanel.StartCount | client/src/components/Search/FilterPanel.js:14-52 | the badge of a fresh panel counts exactly the given non-empty date bounds, the given tags and a given true images flag, and is 0 exactly when the panel starts cleared |
| FilterPanel.ApplyChange | client/src/components/Search/FilterPanel.js:24-28 | a change sets its own field and keeps the others |
| FilterPanel.ToggleTag | client/src/components/Search/FilterPanel.js:30-35 | a chosen tag is removed, every copy of it; another one is appended; the other fields stay |
| FilterPanel.ToggleTwice | client/src/components/Search/FilterPanel.js:30-35 | toggling a tag that is not chosen twice restores the filters |
| FilterPanel.Clear | client/src/components/Search/FilterPanel.js:37-46 | clearing empties every field |
| FilterPanel.ActiveCount | client/src/components/Search/FilterPanel.js:48-52 | the count is at least the number of chosen tags |
| FilterPanel.NoActiveFiltersIsClear | client/src/components/Search/FilterPanel.js:37-52 | the count is zero exactly for the cleared filters |
| FilterPanel.ToggleCount | client/src/components/Search/FilterPanel.js:30-52 | toggling a tag on adds one to the count, and toggling a tag chosen once off removes one |
| Gallery.Next | client/src/components/Gallery/ImageGallery.js:26-28 | next moves one image forward and wraps from the last to the first |
| Gallery.Prev | client/src/components/Gallery/ImageGallery.js:30-32 | previous moves one image back and wraps from the first to the last, never below zero |
| Gallery.StepsUndo | client/src/components/Gallery/ImageGallery.js:26-32 | next and previous undo each other |
| Gallery.ForwardIsRotation | client/src/components/Gallery/ImageGallery.js:26-28 | `k` presses of next move `k` places around the circle |
| Gallery.Counter | client/src/components/Gallery/ImageGallery.js:92 | the counter shows a position from 1 to the number of images |
| Gallery.Click | client/src/components/Gallery/ImageGallery.js:17-20 | clicking an image opens the lightbox on it |
| Gallery.Step | client/src/components/Gallery/ImageGallery.js:26-32 | the arrows keep an open lightbox on a valid image, and a closed one closed |
| ProgressForm.Init | client/src/components/ProgressForm.js:9-20 | a new entry opens blank; an edited one opens with its note and images; nothing is chosen or marked |
| ProgressForm.AddFiles | client/src/components/ProgressForm.js:22-25 | the chosen files go after those chosen before, which stay as they were, and nothing else changes |
| ProgressForm.RemoveExisting | client/src/components/ProgressForm.js:27-30 | the path is marked for removal and is no longer shown; nothing else changes |
| ProgressForm.RemoveNew | client/src/components/ProgressForm.js:32-34 | the chosen file at that position is dropped, the rest keep their order, and an index out of range changes nothing |
| ProgressForm.WithoutKeep | client/src/components/ProgressForm.js:27-30 | hiding one more image equals keeping the original images without one more path |
| ProgressForm.TracksPreserved | client/src/components/ProgressForm.js:15-34 | the images shown are always the original ones without those marked for removal, from the start and after every change |
| ProgressForm.NothingLost | client/src/components/ProgressForm.js:27-30 | every original image is either still shown or marked for removal |
| ProgressForm.Save | client/src/components/ProgressForm.js:36-55 | an edited entry is updated and a new one created; the removal list is sent exactly when something is marked |
| ProgressForm.SaveMatchesServer | client/src/components/ProgressForm.js:36-55 | after saving, the server's image list is what the form showed, followed by the new uploads in the order chosen |
| Notification.RequestPermission | client/src/utils/notification.js:10-26 | permission is reported exactly when notifications exist and it is already granted, or undecided and then granted |
| Notification.Send | client/src/utils/notification.js:33-52 | a notification is shown exactly when permission is granted, with the default icon and badge unless others are given |
| Notification.PermissionAfter | client/src/utils/notification.js:20-22 | after the request the permission is the user's answer when it was undecided, and unchanged otherwise |
| Notification.RequestThenSend | client/src/utils/notification.js:10-37 | the request reports success exactly when a notification sent afterwards is shown; a granted permission makes the request succeed whatever the answer, and without it nothing is shown |
| Notification.Offset | client/src/utils/notification.js:64-71 | the reminder's time of day in milliseconds is a whole number of minutes, `hours * 60 + minutes` of them, and lies within one day for an in-range time |
| Notification.NextFire | client/src/utils/notification.js:62-78 | the reminder fires today at its time if that is still ahead, otherwise at that time tomorrow |
| Notification.NextFireIsFirst | client/src/utils/notification.js:62-78 | the delay is positive and at most one day, and no later day's reminder time comes before it |
| Notification.StreakReminder | client/src/utils/notification.js:101-118 | streak 0 asks to start; 7 or more shows the streak in the title and urges not to break it; anything else says to keep going, with a body that opens "You're on a " and closes " day streak. Keep it up!" around the streak |
| Notification.LongStreakTitleReadsBack | client/src/utils/notification.js:107-108 | the number in a long streak's title reads back as the streak |
| Notification.ShortStreakBodyReadsBack | client/src/utils/notification.js:112-115 | the number in a short streak's body reads back as the streak |
| Notification.Cancel | client/src/utils/notification.js:124-128 | only a present, non-zero timer id is cleared |
| Notification.CancelOnce | client/src/utils/notification.js:124-128 | a cleared timer is no longer pending, every other timer stays pending, and cancelling again changes nothing |
| ImageSize.RoundDiv | client/src/utils/imageOptimization.js:34 | the rounded quotient is within half of the exact one, with halves rounded up |
| ImageSize.Fit | client/src/utils/imageOptimization.js:31-42 | a wide image over the width limit is drawn at that width with the height scaled and rounded; any other image over the height limit at that height with the width scaled; an image within its limit keeps its size |
| ImageSize.FitKeepsAspect | client/src/utils/imageOptimization.js:31-42 | the drawn size keeps the image's proportions to within half a pixel on the scaled side |
| ImageSize.FitShrinks | client/src/utils/imageOptimization.js:31-42 | the image never grows, and with one limit for both sides it ends within that limit |
| ImageSize.Thumbnail | client/src/utils/imageOptimization.js:159-165 | a thumbnail fits in the square of its size and never grows |

## Left out

- Floating point: `avgPerDay` (a `toFixed(1)` string) is left out. Its day count, `Statistics.DaysSinceFirst`, is modelled.
- Time zones and daylight saving: day differences are whole-day differences of day numbers. The hook's divisions by 86 400 000 ms are taken to be exact. `Notification.NextFire` also takes every day to be 24 hours long.
- Statistics.ComputeStatistics: the streak path requires every entry to carry a date. The source would put the missing value into its sorted date set; `null` and `undefined` sort to the front after the reverse, so the walk would not start. The period counts and `total` handle undated entries (`Statistics.UndatedEntry`).
- Statistics.ComputeStatistics: the month labels (`toLocaleString` month names) are left out. Each bucket carries its year and month instead.
- Locale formatting: `toLocaleDateString` and `toLocaleString` in the exports are given as functions (`Export.Locale`). A locale's text may contain commas, which the CSV does not quote.
- Unicode: lower-casing and `\s` are modelled on ASCII letters and ASCII white space, where JavaScript uses the Unicode tables. String order is by character, which is JavaScript's UTF-16 order for text in the Basic Multilingual Plane. Lengths that the code compares (`length` of the password and of the note) are counted in UTF-16 code units, as JavaScript counts them (`Strings.Utf16Length`).
- Export.NoteCell: when a character outside the Basic Multilingual Plane takes code units 60 and 61 of a note, `substring(0, 60)` keeps its first half alone. A Dafny string cannot hold half a character, so the model ends the cell before that character (59 code units, then "...").
- Dates: only years 1000 to 9999 are modelled. These are the years whose `YYYY-MM-DD` key has a fixed width. ProgressRoutes.MonthBounds requires such a year for this reason.
- ProgressRoutes.Create: requires a given `tanggal` to be a date key. The server stores any non-empty text; the model keeps every stored row dated.
- ProgressRoutes.ListMonth: the month is taken as a number from 0 to 99 written with two digits, and the year as four digits. Months 0 and 13 to 99 list nothing (`ProgressRoutes.ListMonthOutside`). The model takes the store to compare `tanggal` as text, as the `gte`/`lte` and `eq` filters on `YYYY-MM-DD` keys do for a text column; the column's type is not part of the source. If it were a SQL `date`, a bound such as `2024-13-01` would be an invalid literal, the query would fail, and the route would answer 500 instead of an empty list. A negative or three-digit month, a month text with extra leading zeros, and a text that is not a number build bounds the model does not build.
- ProgressRoutes.GetOne, ProgressRoutes.Update and ProgressRoutes.Delete: a missing row is modelled as the intended 404. As written, `.single()` reports zero rows as an error, which the route turns into 500 (fourth Findings row, shown on `GET /:id` by `ProgressRoutes.GetOneAsWritten`; the two write routes look the row up the same way).
- Search.SortNewestFirst and Search.UseSearch: the order of undated entries is not promised. For them the comparator yields NaN, and the engine's sort then has no specified order; the model orders them as day 0. Every entry, dated or not, is kept or dropped exactly as the filters say.
- Upload middleware: `multer` is not part of this model. More than five files ends as `UploadRejected`, and its HTTP status is not modelled. Deleting image files from disk (`fs.unlinkSync`) is not modelled either; the model tracks the stored paths only.
- Database failures: every `throw error` → 500 path of the routes is left out. So is the ignored token-insert error of registration. Rows and results are what the store returns.
- Auth.Register: the duplicate check is modelled as "some user has this username or this email". The source builds the `.or(...)` filter by pasting the raw values into the filter text, and that text is not modelled.
- Auth.Login: `jwt.sign`, and its 7-day expiry, is an oracle. So are bcrypt hashing and comparison, `jwt.verify`, and the random tokens. The email sender is a boolean outcome in `Auth.Resend`; in registration and verification it is not awaited, so it is left out there.
- Rate limiting: `rateLimiter.js` is not part of this model.
- The API client and the page components beyond the registration checks are not part of this model. This includes the page's 4-second redirect.
- Storage: `JSON.stringify` / `JSON.parse` are left out; stored items are taken as already parsed. A key that holds something other than a cache item reads as missing in the cache. In `settingsManager.get`, an empty stored text reads as the default. The byte size in `getInfo`, `getStorageUsage` and `exportStorage` are left out.
- TagInput.AddTag: the `alert` at the limit and the `showSuggestions` flag are left out.
- Notification.Send: the `vibrate` and `requireInteraction` options and the 5-second auto-close timer are left out.
- Notification.NextFire: the time of day is taken as already parsed. A malformed `HH:MM` (NaN) is left out.
- Gallery: an empty gallery draws no lightbox, so every index is within range.
- ImageSize: the canvas, the `quality` and `type` of the encoded image, and the file reading are left out. `Math.round` is modelled for non-negative values only, which are all that occur.
- FilterPanel.Start: a field explicitly present as `null` in `initialFilters` overrides the default through the object spread. The model takes such a field as missing.

## Findings

| source | as written | input that shows it | evidently intended | confidence | as-written member | corrected member |
|---|---|---|---|---|---|---|
| client/src/hooks/useStatistics.js:81-84 | every later 1-day gap increments `currentStreak` once it is positive, even after the live run has broken | dates 2024-01-05, 2024-01-02, 2024-01-01 viewed on 2024-01-05: current streak 2 | the current streak is the length of the run that contains today or yesterday (1 here) | not executed | Statistics.CurrentStreakNotFrozen | Statistics.IntendedStreaks |
| client/src/hooks/useStatistics.js:69-94 | when the newest date is more than a day old, `lastDate` stays null, the walk never runs, and `longestStreak` stays 0; line 94 cannot recover it | dates 2024-01-02, 2024-01-01 viewed on 2024-01-10: longest streak 0 | the longest streak is the longest run whatever its age (2 here) | not executed | Statistics.LongestStreakLostWhenNotLive | Statistics.IntendedStreaks |
| client/src/utils/export.js:193 | the tags field is put in quotes without doubling the quotes inside it, unlike the note field | a tag `a"b` gives the field `"a"b"`, which does not read back | the tags field escaped like the note field | not executed | Export.TagsFieldQuoteBreaks | Export.EscapedTagsField |
| server/routes/progress.js:58-68 | `.single()` reports a missing row as an error; line 65 throws it and the catch answers 500, so the `!data` test and its 404 are never reached (`PUT /:id` and `DELETE /:id` look the row up the same way) | `GET /:id` for an id the caller has no row with: 500 | 404 "Progress not found" | not executed | ProgressRoutes.MissingRowIs500 | ProgressRoutes.GetOne |

=== FILE: auth.dfy ===
/** The server's account routes over an abstract store of users and email
    verification tokens: registration with its validation ladder, login,
    email verification, resending the verification email, and `GET /me`.
    Password hashing and comparison, token signing and verification, random
    tokens, the clock and the email sender are parameters. */
module Auth {
  import opened Wrappers
  import Strings
  import AuthMiddleware

  // ---------------------------------------------------------------------------
  // Password and email rules
  // ---------------------------------------------------------------------------

  /** The characters `.` does not match in a JavaScript regular expression. */
  predicate IsLineTerminator(c: char) {
    c == '\n' || c == '\r' || c == '\U{2028}' || c == '\U{2029}'
  }

  /** The text before the first line terminator. */
  function FirstLine(s: string): (r: string)
    ensures r <= s
    ensures forall i :: 0 <= i < |r| ==> !IsLineTerminator(r[i])
    ensures |r| < |s| ==> IsLineTerminator(s[|r|])
  {
    if |s| == 0 || IsLineTerminator(s[0]) then "" else [s[0]] + FirstLine(s[1..])
  }

  predicate HasLower(s: string) {
    exists i :: 0 <= i < |s| && 'a' <= s[i] <= 'z'
  }

  predicate HasUpper(s: string) {
    exists i :: 0 <= i < |s| && 'A' <= s[i] <= 'Z'
  }

  predicate HasDigit(s: string) {
    exists i :: 0 <= i < |s| && Strings.IsDigit(s[i])
  }

  /** `/^(?=.*[a-z])(?=.*[A-Z])(?=.*\d)/.test(p)`: each lookahead starts at
      the beginning and `.*` stops at a line terminator, so the three kinds
      of character must all occur in the first line. */
  predicate Composed(p: string) {
    var l := FirstLine(p);
    HasLower(l) && HasUpper(l) && HasDigit(l)
  }

  /** The pattern test as a single left-to-right scan. */
  method TestComposed(p: string) returns (ok: bool)
    ensures ok == Composed(p)
  {
    var lower, upper, digit := false, false, false;
    var i := 0;
    while i < |p| && !IsLineTerminator(p[i])
      invariant 0 <= i <= |p|
      invariant forall k :: 0 <= k < i ==> !IsLineTerminator(p[k])
      invariant lower == HasLower(p[..i])
      invariant upper == HasUpper(p[..i])
      invariant digit == HasDigit(p[..i])
    {
      assert p[..i + 1] == p[..i] + [p[i]];
      lower := lower || 'a' <= p[i] <= 'z';
      upper := upper || 'A' <= p[i] <= 'Z';
      digit := digit || Strings.IsDigit(p[i]);
      i := i + 1;
    }
    FirstLineIsScanned(p, i);
    ok := lower && upper && digit;
  }

  lemma {:induction false} FirstLineIsScanned(p: string, i: int)
    requires 0 <= i <= |p|
    requires forall k :: 0 <= k < i ==> !IsLineTerminator(p[k])
    requires i == |p| || IsLineTerminator(p[i])
    ensures FirstLine(p) == p[..i]
  {
    if i > 0 {
      FirstLineIsScanned(p[1..], i - 1);
      assert p[..i] == [p[0]] + p[1..][..i - 1];
    }
  }

  /** A character `[^\s@]` matches. */
  predicate PlainChar(c: char) {
    !Strings.IsSpace(c) && c != '@'
  }

  /** `[^\s@]+`. */
  predicate Plain(s: string) {
    |s| > 0 && forall i :: 0 <= i < |s| ==> PlainChar(s[i])
  }

  /** `/^[^\s@]+@[^\s@]+\.[^\s@]+$/` read as a pattern: the text splits into
      three plain runs around an '@' and a '.'. */
  predicate EmailPattern(s: string) {
    exists i, j :: 0 < i && i + 1 < j && j + 1 < |s| && s[i] == '@' && s[j] == '.'
                   && Plain(s[..i]) && Plain(s[i + 1..j]) && Plain(s[j + 1..])
  }

  /** The position of the first `c`, or `|s|`. */
  function IndexOf(s: string, c: char): (k: nat)
    ensures k <= |s|
    ensures k < |s| ==> s[k] == c
    ensures forall i :: 0 <= i < k ==> s[i] != c
  {
    if |s| == 0 then 0 else if s[0] == c then 0 else 1 + IndexOf(s[1..], c)
  }

  /** The email test as a direct check: a plain text before the first '@',
      and after it a domain of plain characters with a '.' that is neither
      its first nor its last character. */
  predicate ValidEmail(s: string) {
    var a := IndexOf(s, '@');
    && a < |s|
    && Plain(s[..a])
    && var d := s[a + 1..];
    && (forall i :: 0 <= i < |d| ==> PlainChar(d[i]))
    && |d| >= 3 && '.' in d[1..|d| - 1]
  }

  /** The direct check accepts exactly the texts the pattern matches. */
  lemma ValidEmailIsPattern(s: string)
    ensures ValidEmail(s) <==> EmailPattern(s)
  {
    if ValidEmail(s) {
      ValidEmailMatches(s);
    }
    if EmailPattern(s) {
      var i, j :| 0 < i && i + 1 < j && j + 1 < |s| && s[i] == '@' && s[j] == '.'
                  && Plain(s[..i]) && Plain(s[i + 1..j]) && Plain(s[j + 1..]);
      PatternIsValidEmail(s, i, j);
    }
  }

  lemma ValidEmailMatches(s: string)
    requires ValidEmail(s)
    ensures EmailPattern(s)
  {
    var a := IndexOf(s, '@');
    var d := s[a + 1..];
    var inner := d[1..|d| - 1];
    var m :| 0 <= m < |inner| && inner[m] == '.';
    var j := a + 2 + m;
    assert s[j] == '.';
    var mid := s[a + 1..j];
    var tail := s[j + 1..];
    assert forall k :: 0 <= k < |mid| ==> mid[k] == d[k];
    assert forall k :: 0 <= k < |tail| ==> tail[k] == d[k + m + 2];
    assert Plain(mid) && Plain(tail);
  }

  lemma PatternIsValidEmail(s: string, i: int, j: int)
    requires 0 < i && i + 1 < j && j + 1 < |s| && s[i] == '@' && s[j] == '.'
    requires Plain(s[..i]) && Plain(s[i + 1..j]) && Plain(s[j + 1..])
    ensures ValidEmail(s)
  {
    var head := s[..i];
    assert forall k :: 0 <= k < i ==> s[k] == head[k];
    assert IndexOf(s, '@') == i;
    var d := s[i + 1..];
    var mid := s[i + 1..j];
    var tail := s[j + 1..];
    forall k | 0 <= k < |d|
      ensures PlainChar(d[k])
    {
      if i + 1 + k < j {
        assert d[k] == mid[k];
      } else if i + 1 + k > j {
        assert d[k] == tail[k - (j - i)];
      }
    }
    assert d[1..|d| - 1][j - i - 2] == '.';
  }

  // ---------------------------------------------------------------------------
  // The store
  // ---------------------------------------------------------------------------

  /** A row of `users`; `passwordHash` is the bcrypt hash. */
  datatype User = User(id: int, username: string, email: string, passwordHash: string, verified: bool)

  /** A row of `verification_tokens`; `expiresAt` in milliseconds. */
  datatype VToken = VToken(userId: int, token: string, expiresAt: int)

  datatype Store = Store(users: seq<User>, tokens: seq<VToken>)

  /** 24 hours in milliseconds. */
  const TokenLifetime := 24 * 60 * 60 * 1000

  /** No two users share an id, a username or an email. */
  predicate Consistent(s: Store) {
    forall i, j :: 0 <= i < j < |s.users| ==>
      s.users[i].id != s.users[j].id
      && s.users[i].username != s.users[j].username
      && s.users[i].email != s.users[j].email
  }

  /** The first element satisfying `p`: a `.select().eq(...).single()` read,
      or none when no row matches. */
  function First<T>(s: seq<T>, p: T -> bool): (r: Option<T>)
    ensures r.Some? ==> r.value in s && p(r.value)
    ensures r.None? <==> forall i :: 0 <= i < |s| ==> !p(s[i])
  {
    if |s| == 0 then None
    else if p(s[0]) then Some(s[0])
    else First(s[1..], p)
  }

  /** The user with this username (usernames are unique). */
  function ByUsername(users: seq<User>, name: string): (r: Option<User>)
    ensures r.Some? ==> r.value in users && r.value.username == name
    ensures r.None? <==> forall i :: 0 <= i < |users| ==> users[i].username != name
  {
    First(users, (u: User) => u.username == name)
  }

  function ByEmail(users: seq<User>, email: string): (r: Option<User>)
    ensures r.Some? ==> r.value in users && r.value.email == email
    ensures r.None? <==> forall i :: 0 <= i < |users| ==> users[i].email != email
  {
    First(users, (u: User) => u.email == email)
  }

  function ById(users: seq<User>, id: int): (r: Option<User>)
    ensures r.Some? ==> r.value in users && r.value.id == id
    ensures r.None? <==> forall i :: 0 <= i < |users| ==> users[i].id != id
  {
    First(users, (u: User) => u.id == id)
  }

  function ByToken(tokens: seq<VToken>, token: string): (r: Option<VToken>)
    ensures r.Some? ==> r.value in tokens && r.value.token == token
    ensures r.None? <==> forall i :: 0 <= i < |tokens| ==> tokens[i].token != token
  {
    First(tokens, (t: VToken) => t.token == token)
  }

  /** Sets `verified` on the users with this id. */
  function MarkVerified(users: seq<User>, id: int): (r: seq<User>)
    ensures |r| == |users|
    ensures forall i :: 0 <= i < |users| ==>
      r[i] == if users[i].id == id then users[i].(verified := true) else users[i]
  {
    seq(|users|, i requires 0 <= i < |users| => if users[i].id == id then users[i].(verified := true) else users[i])
  }

  /** The token rows of other users: `delete().eq('user_id', id)`. */
  function DropUserTokens(tokens: seq<VToken>, id: int): (r: seq<VToken>)
    ensures forall t :: t in r <==> t in tokens && t.userId != id
  {
    if |tokens| == 0 then []
    else (if tokens[0].userId != id then [tokens[0]] else []) + DropUserTokens(tokens[1..], id)
  }

  /** The token rows with another token text: `delete().eq('token', token)`. */
  function DropToken(tokens: seq<VToken>, token: string): (r: seq<VToken>)
    ensures forall t :: t in r <==> t in tokens && t.token != token
  {
    if |tokens| == 0 then []
    else (if tokens[0].token != token then [tokens[0]] else []) + DropToken(tokens[1..], token)
  }

  /** How many token rows belong to `id`. */
  function TokenCount(tokens: seq<VToken>, id: int): nat {
    if |tokens| == 0 then 0
    else (if tokens[0].userId == id then 1 else 0) + TokenCount(tokens[1..], id)
  }

  /** Accounts are only added, their other fields never change, and a
      verified account stays verified. */
  predicate AccountsKept(s: Store, s': Store) {
    && |s.users| <= |s'.users|
    && forall i :: 0 <= i < |s.users| ==>
         && s'.users[i].(verified := s.users[i].verified) == s.users[i]
         && (s.users[i].verified ==> s'.users[i].verified)
  }

  // ---------------------------------------------------------------------------
  // Replies
  // ---------------------------------------------------------------------------

  /** The JSON reply: status, message, the login token if one is issued, and
      the `requiresVerification` flag. */
  datatype Reply = Reply(status: int, message: string, token: Option<string>, requiresVerification: bool)

  /** A reply with a status and a message only. */
  function Say(status: int, message: string): Reply {
    Reply(status, message, None, false)
  }

  const MsgRequired := "Username, email, and password are required"
  const MsgShort := "Password must be at least 8 characters"
  const MsgWeak := "Password must contain at least one uppercase letter, one lowercase letter, and one number"
  const MsgBadEmail := "Invalid email format"
  const MsgTaken := "Username or email already exists"
  const MsgRegistered := "Registration successful! Please check your email to verify your account before logging in."
  const MsgLoginRequired := "Username and password are required"
  const MsgBadLogin := "Invalid username or password"
  const MsgUnverified := "Please verify your email before logging in. Check your inbox for the verification link."
  const MsgLoggedIn := "Login successful"
  const MsgBadToken := "Invalid verification token"
  const MsgExpired := "Verification token has expired. Please request a new one."
  const MsgVerified := "Email verified successfully! You can now use all features."
  const MsgEmailRequired := "Email is required"
  const MsgMaybeSent := "If the email exists, a verification link has been sent."
  const MsgAlreadyVerified := "Email is already verified."
  const MsgSent := "Verification email sent! Please check your inbox."
  const MsgSendFailed := "Failed to send verification email."

  // ---------------------------------------------------------------------------
  // POST /register
  // ---------------------------------------------------------------------------

  /** Why a registration is refused before the store is consulted, in the
      order the route checks. */
  function RegisterError(username: string, email: string, password: string): (r: Option<Reply>)
    ensures r.None? <==> username != "" && email != "" && password != ""
                         && Strings.Utf16Length(password) >= 8 && Composed(password) && EmailPattern(email)
    ensures r.Some? ==> r.value.status == 400 && r.value.token.None?
  {
    ValidEmailIsPattern(email);
    if username == "" || email == "" || password == "" then Some(Say(400, MsgRequired))
    else if Strings.Utf16Length(password) < 8 then Some(Say(400, MsgShort))
    else if !Composed(password) then Some(Say(400, MsgWeak))
    else if !ValidEmail(email) then Some(Say(400, MsgBadEmail))
    else None
  }

  /** `POST /register`. `newId` is the id the store assigns, `hash` the
      bcrypt hash of the password, `token` the random verification token and
      `now` the clock. */
  function Register(s: Store, username: string, email: string, password: string,
                    newId: int, hash: string, token: string, now: int): (r: (Reply, Store))
    ensures r.0.token.None?
    ensures RegisterError(username, email, password).Some? ==> r == (RegisterError(username, email, password).value, s)
    ensures r.0.status == 409 <==>
      RegisterError(username, email, password).None?
      && exists i :: 0 <= i < |s.users| && (s.users[i].username == username || s.users[i].email == email)
    ensures r.0.status == 201 <==>
      RegisterError(username, email, password).None?
      && !(exists i :: 0 <= i < |s.users| && (s.users[i].username == username || s.users[i].email == email))
    ensures r.0.status == 201 <==> r.1 != s
    ensures r.0.status == 201 ==>
      && r.1.users == s.users + [User(newId, username, email, hash, false)]
      && r.1.tokens == s.tokens + [VToken(newId, token, now + TokenLifetime)]
      && r.0.requiresVerification
    ensures AccountsKept(s, r.1)
  {
    match RegisterError(username, email, password)
    case Some(reply) => (reply, s)
    case None =>
      if exists i :: 0 <= i < |s.users| && (s.users[i].username == username || s.users[i].email == email) then
        (Say(409, MsgTaken), s)
      else
        var user := User(newId, username, email, hash, false);
        var s' := Store(s.users + [user], s.tokens + [VToken(newId, token, now + TokenLifetime)]);
        assert |s'.users| > |s.users|;
        (Reply(201, MsgRegistered, None, true), s')
  }

  /** A successful registration keeps usernames, emails and ids unique when
      the new id is fresh. */
  lemma RegisterKeepsConsistent(s: Store, username: string, email: string, password: string,
                                newId: int, hash: string, token: string, now: int)
    requires Consistent(s)
    requires forall i :: 0 <= i < |s.users| ==> s.users[i].id != newId
    ensures Consistent(Register(s, username, email, password, newId, hash, token, now).1)
  {
  }

  // ---------------------------------------------------------------------------
  // POST /login
  // ---------------------------------------------------------------------------

  /** `POST /login`. `matches(password, hash)` is `bcrypt.compare` and
      `sign(user)` is `jwt.sign` of the user's claims. */
  function Login(s: Store, username: string, password: string,
                 matches: (string, string) -> bool, sign: User -> string): (r: Reply)
    ensures username == "" || password == "" ==> r == Say(400, MsgLoginRequired)
    ensures r.status == 401 ==> r == Say(401, MsgBadLogin)
    ensures username != "" && password != ""
            && (ByUsername(s.users, username).None? || !matches(password, ByUsername(s.users, username).value.passwordHash))
            ==> r == Say(401, MsgBadLogin)
    ensures r.token.Some? <==> r.status == 200
    ensures r.status == 200 <==>
      && username != "" && password != ""
      && ByUsername(s.users, username).Some?
      && matches(password, ByUsername(s.users, username).value.passwordHash)
      && ByUsername(s.users, username).value.verified
    ensures r.status == 403 <==>
      && username != "" && password != ""
      && ByUsername(s.users, username).Some?
      && matches(password, ByUsername(s.users, username).value.passwordHash)
      && !ByUsername(s.users, username).value.verified
    ensures r.token.Some? ==> r.token.value == sign(ByUsername(s.users, username).value)
  {
    if username == "" || password == "" then Say(400, MsgLoginRequired)
    else match ByUsername(s.users, username)
      case None => Say(401, MsgBadLogin)
      case Some(user) =>
        if !matches(password, user.passwordHash) then Say(401, MsgBadLogin)
        else if !user.verified then Reply(403, MsgUnverified, None, true)
        else Reply(200, MsgLoggedIn, Some(sign(user)), false)
  }

  /** An unknown username and a wrong password get the same reply, so the
      reply does not tell whether the account exists. */
  lemma LoginDoesNotRevealAccounts(s: Store, unknown: string, known: string, password: string,
                                   matches: (string, string) -> bool, sign: User -> string)
    requires unknown != "" && known != "" && password != ""
    requires forall i :: 0 <= i < |s.users| ==> s.users[i].username != unknown
    requires ByUsername(s.users, known).Some?
    requires !matches(password, ByUsername(s.users, known).value.passwordHash)
    ensures Login(s, unknown, password, matches, sign) == Login(s, known, password, matches, sign)
  {
  }

  // ---------------------------------------------------------------------------
  // GET /verify-email/:token
  // ---------------------------------------------------------------------------

  /** `GET /verify-email/:token` at time `now`. A token is still good at the
      instant it expires. */
  function VerifyEmail(s: Store, token: string, now: int): (r: (Reply, Store))
    ensures ByToken(s.tokens, token).None? ==> r == (Say(400, MsgBadToken), s)
    ensures ByToken(s.tokens, token).Some? && now > ByToken(s.tokens, token).value.expiresAt ==>
      r == (Say(400, MsgExpired), s)
    ensures r.0.status == 200 <==> ByToken(s.tokens, token).Some? && now <= ByToken(s.tokens, token).value.expiresAt
    ensures r.0.status == 200 ==>
      var t := ByToken(s.tokens, token).value;
      && r.1.users == MarkVerified(s.users, t.userId)
      && (forall x :: x in r.1.tokens <==> x in s.tokens && x.token != token)
    ensures AccountsKept(s, r.1)
  {
    match ByToken(s.tokens, token)
    case None => (Say(400, MsgBadToken), s)
    case Some(t) =>
      if now > t.expiresAt then (Say(400, MsgExpired), s)
      else (Say(200, MsgVerified),
            Store(MarkVerified(s.users, t.userId), DropToken(s.tokens, token)))
  }

  // ---------------------------------------------------------------------------
  // POST /resend-verification
  // ---------------------------------------------------------------------------

  /** A resend changes the tokens: the email names an unverified account. */
  predicate Resends(s: Store, email: string) {
    email != "" && ByEmail(s.users, email).Some? && !ByEmail(s.users, email).value.verified
  }

  /** `POST /resend-verification`. `token` is the new random token, `now`
      the clock, and `sent` whether the email service accepted the message
      (its failure makes the route answer 500 after the tokens changed). */
  function Resend(s: Store, email: string, token: string, now: int, sent: bool): (r: (Reply, Store))
    ensures email == "" ==> r == (Say(400, MsgEmailRequired), s)
    ensures email != "" && ByEmail(s.users, email).None? ==> r.1 == s && r.0.status == 200 && r.0.message == MsgMaybeSent
    ensures email != "" && ByEmail(s.users, email).Some? && ByEmail(s.users, email).value.verified ==>
      r.1 == s && r.0.status == 200 && r.0.message == MsgAlreadyVerified
    ensures !Resends(s, email) ==> r.1 == s
    ensures Resends(s, email) ==>
      && var id := ByEmail(s.users, email).value.id;
      && r.1.users == s.users
      && r.1.tokens == DropUserTokens(s.tokens, id) + [VToken(id, token, now + TokenLifetime)]
      && r.0.status == (if sent then 200 else 500)
    ensures r.0.token.None?
  {
    if email == "" then (Say(400, MsgEmailRequired), s)
    else match ByEmail(s.users, email)
      case None => (Say(200, MsgMaybeSent), s)
      case Some(user) =>
        if user.verified then (Say(200, MsgAlreadyVerified), s)
        else
          var tokens := DropUserTokens(s.tokens, user.id) + [VToken(user.id, token, now + TokenLifetime)];
          (if sent then Say(200, MsgSent) else Say(500, MsgSendFailed), Store(s.users, tokens))
  }

  lemma {:induction false} TokenCountAppend(a: seq<VToken>, b: seq<VToken>, id: int)
    ensures TokenCount(a + b, id) == TokenCount(a, id) + TokenCount(b, id)
  {
    if |a| > 0 {
      assert (a + b)[1..] == a[1..] + b;
      TokenCountAppend(a[1..], b, id);
    } else {
      assert a + b == b;
    }
  }

  /** Dropping a user's tokens leaves none of theirs. */
  lemma {:induction false} TokenCountWhere(tokens: seq<VToken>, id: int)
    ensures TokenCount(DropUserTokens(tokens, id), id) == 0
  {
    if |tokens| > 0 {
      TokenCountWhere(tokens[1..], id);
      var head := if tokens[0].userId != id then [tokens[0]] else [];
      TokenCountAppend(head, DropUserTokens(tokens[1..], id), id);
    }
  }

  /** After a resend the user has exactly one token, the new one. */
  lemma ResendLeavesOneToken(s: Store, email: string, token: string, now: int, sent: bool)
    requires Resends(s, email)
    ensures var id := ByEmail(s.users, email).value.id;
            var s' := Resend(s, email, token, now, sent).1;
            && TokenCount(s'.tokens, id) == 1
            && (forall x :: x in s'.tokens && x.userId == id ==> x == VToken(id, token, now + TokenLifetime))
  {
    var id := ByEmail(s.users, email).value.id;
    var kept := DropUserTokens(s.tokens, id);
    TokenCountWhere(s.tokens, id);
    TokenCountAppend(kept, [VToken(id, token, now + TokenLifetime)], id);
  }

  // ---------------------------------------------------------------------------
  // The account lifecycle
  // ---------------------------------------------------------------------------

  /** A newly registered account cannot log in until it is verified: with
      the right password the reply is 403 and no token. */
  lemma NewAccountMustVerify(s: Store, username: string, email: string, password: string,
                             newId: int, hash: string, token: string, now: int,
                             matches: (string, string) -> bool, sign: User -> string)
    requires Register(s, username, email, password, newId, hash, token, now).0.status == 201
    requires matches(password, hash)
    ensures var s' := Register(s, username, email, password, newId, hash, token, now).1;
            Login(s', username, password, matches, sign).status == 403
  {
    var s' := Register(s, username, email, password, newId, hash, token, now).1;
    FindAppended(s.users, User(newId, username, email, hash, false));
  }

  /** A user appended with a username nobody has is the one found. */
  lemma FindAppended(users: seq<User>, u: User)
    requires forall i :: 0 <= i < |users| ==> users[i].username != u.username
    ensures ByUsername(users + [u], u.username) == Some(u)
  {
    var all := users + [u];
    assert all[|users|] == u;
    var r := ByUsername(all, u.username);
    var k :| 0 <= k < |all| && all[k] == r.value;
    assert k == |users|;
  }

  /** Registering, then following the emailed link within 24 hours, then
      logging in with the same password issues a login token. */
  lemma RegisterVerifyLogin(s: Store, username: string, email: string, password: string,
                            newId: int, hash: string, token: string, now: int, later: int,
                            matches: (string, string) -> bool, sign: User -> string)
    requires forall i :: 0 <= i < |s.users| ==> s.users[i].id != newId
    requires forall i :: 0 <= i < |s.tokens| ==> s.tokens[i].token != token
    requires Register(s, username, email, password, newId, hash, token, now).0.status == 201
    requires matches(password, hash)
    requires later <= now + TokenLifetime
    ensures var s1 := Register(s, username, email, password, newId, hash, token, now).1;
            var s2 := VerifyEmail(s1, token, later).1;
            var r := Login(s2, username, password, matches, sign);
            r.status == 200 && r.token.Some?
  {
    var u := User(newId, username, email, hash, false);
    var s1 := Register(s, username, email, password, newId, hash, token, now).1;
    var t := VToken(newId, token, now + TokenLifetime);
    TokenAppended(s.tokens, t);
    var s2 := VerifyEmail(s1, token, later).1;
    var v := u.(verified := true);
    MarkVerifiedAppended(s.users, u);
    assert s2.users == s.users + [v];
    FindAppended(s.users, v);
  }

  /** Verifying a user appended with a fresh id changes only that user. */
  lemma MarkVerifiedAppended(users: seq<User>, u: User)
    requires forall i :: 0 <= i < |users| ==> users[i].id != u.id
    ensures MarkVerified(users + [u], u.id) == users + [u.(verified := true)]
  {
    var r := MarkVerified(users + [u], u.id);
    assert forall i :: 0 <= i < |users| ==> r[i] == (users + [u])[i] == users[i];
  }

  /** A token appended with a text no other row has is the one found. */
  lemma TokenAppended(tokens: seq<VToken>, t: VToken)
    requires forall i :: 0 <= i < |tokens| ==> tokens[i].token != t.token
    ensures ByToken(tokens + [t], t.token) == Some(t)
  {
    var all := tokens + [t];
    assert all[|tokens|] == t;
    var r := ByToken(all, t.token);
    var k :| 0 <= k < |all| && all[k] == r.value;
    assert k == |tokens|;
  }

  // ---------------------------------------------------------------------------
  // GET /me
  // ---------------------------------------------------------------------------

  /** `GET /me`: the same header rule as the middleware, but every token
      failure is 401 and an unknown account is 404. */
  function Me(s: Store, header: Option<string>, verify: string -> AuthMiddleware.Verdict): (r: (int, Option<User>))
    ensures AuthMiddleware.BearerToken(header).None? ==> r == (401, None)
    ensures r.0 == 200 <==> r.1.Some?
    ensures r.1.Some? ==>
      && AuthMiddleware.BearerToken(header).Some?
      && var v := verify(AuthMiddleware.BearerToken(header).value);
      && v.Decoded? && r.1 == ById(s.users, v.claims.userId)
    ensures r.0 in {200, 401, 404}
    ensures AuthMiddleware.BearerToken(header).Some? ==>
      var v := verify(AuthMiddleware.BearerToken(header).value);
      && (!v.Decoded? ==> r == (401, None))
      && (v.Decoded? && ById(s.users, v.claims.userId).None? ==> r == (404, None))
      && (v.Decoded? && ById(s.users, v.claims.userId).Some? ==> r == (200, ById(s.users, v.claims.userId)))
  {
    match AuthMiddleware.BearerToken(header)
    case None => (401, None)
    case Some(t) =>
      match verify(t)
      case Decoded(c) =>
        (match ById(s.users, c.userId)
         case None => (404, None)
         case Some(u) => (200, Some(u)))
      case _ => (401, None)
  }

  /** `/me` and the middleware agree on who the caller is: `/me` answers 200
      exactly when the middleware lets the request through and the account
      still exists, and then with that account. */
  lemma MeAgreesWithMiddleware(s: Store, header: Option<string>, verify: string -> AuthMiddleware.Verdict)
    ensures var r := Me(s, header, verify);
            var a := AuthMiddleware.Authenticate(header, verify);
            && (r.0 == 200 <==> a.Next? && ById(s.users, a.user.id).Some?)
            && (r.0 == 200 ==> r.1 == ById(s.users, a.user.id))
            && (a.Next? && ById(s.users, a.user.id).None? ==> r == (404, None))
            && (a.Deny? ==> r == (401, None))
  {
  }
}

=== FILE: calendar.dfy ===
/** The month calendar: how many entries fall on each date, and what a day
    cell shows for its date. */
module Calendar {
  import opened Wrappers
  import opened Dates
  import opened Entries

  // ---------------------------------------------------------------------------
  // dateProgressCount
  // ---------------------------------------------------------------------------

  /** How many entries carry the `tanggal` text `k`. */
  function KeyCount(es: seq<Entry>, k: string): nat {
    Count(es, e => Tanggal(e) == k)
  }

  lemma KeyCountStep(es: seq<Entry>, k: string)
    requires |es| > 0
    ensures KeyCount(es, k) == KeyCount(es[..|es| - 1], k) + (if Tanggal(es[|es| - 1]) == k then 1 else 0)
  {
  }

  /** The `tanggal` texts that occur. */
  function Keys(es: seq<Entry>): set<string> {
    set i | 0 <= i < |es| :: Tanggal(es[i])
  }

  lemma KeysStep(es: seq<Entry>)
    requires |es| > 0
    ensures Keys(es) == Keys(es[..|es| - 1]) + {Tanggal(es[|es| - 1])}
  {
    var p := es[..|es| - 1];
    assert forall i :: 0 <= i < |p| ==> p[i] == es[i];
    assert Tanggal(es[|es| - 1]) in Keys(es);
  }

  /** `dateProgressCount`: a map from each `tanggal` text that occurs to the
      number of entries carrying it. An undated entry contributes to one key
      that is not a date key. */
  function CountByDate(es: seq<Entry>): (m: map<string, nat>)
    ensures m.Keys == Keys(es)
    ensures forall k :: k in m ==> m[k] == KeyCount(es, k) > 0
  {
    if |es| == 0 then map[]
    else
      var p := es[..|es| - 1];
      var x := es[|es| - 1];
      var m := CountByDate(p);
      var k := Tanggal(x);
      KeysStep(es);
      CountByDateStep(es, m);
      m[k := (if k in m then m[k] else 0) + 1]
  }

  /** One more entry adds one to its own key and leaves the other counts. */
  lemma CountByDateStep(es: seq<Entry>, m: map<string, nat>)
    requires |es| > 0
    requires var p := es[..|es| - 1];
             && (forall k :: k in m ==> m[k] == KeyCount(p, k) > 0)
             && m.Keys == Keys(p)
    ensures var k := Tanggal(es[|es| - 1]);
            var m' := m[k := (if k in m then m[k] else 0) + 1];
            forall j :: j in m' ==> m'[j] == KeyCount(es, j) > 0
  {
    var p := es[..|es| - 1];
    forall j
      ensures KeyCount(es, j) == KeyCount(p, j) + (if Tanggal(es[|es| - 1]) == j then 1 else 0)
      ensures j !in m ==> KeyCount(p, j) == 0
    {
      KeyCountStep(es, j);
      if j !in m {
        assert forall i :: 0 <= i < |p| ==> Tanggal(p[i]) != j;
        CountExtremes(p, e => Tanggal(e) == j);
      }
    }
  }

  /** Some key of a non-empty map. */
  ghost function AnyKey(m: map<string, nat>): (k: string)
    requires |m| > 0
    ensures k in m
  {
    var k :| k in m; k
  }

  /** The sum of the values of a map of counts. */
  ghost function SumValues(m: map<string, nat>): nat
    decreases |m|
  {
    if |m| == 0 then 0
    else
      var k := AnyKey(m);
      m[k] + SumValues(m - {k})
  }

  /** The sum does not depend on which key is taken out first. */
  lemma {:induction false} SumValuesRemove(m: map<string, nat>, k: string)
    requires k in m
    ensures SumValues(m) == m[k] + SumValues(m - {k})
    decreases |m|
  {
    var j := AnyKey(m);
    if j != k {
      assert k in m - {j};
      SumValuesRemove(m - {j}, k);
      assert j in m - {k};
      SumValuesRemove(m - {k}, j);
      assert m - {j} - {k} == m - {k} - {j};
    }
  }

  /** Adding one to a key's count, or giving a new key the count 1, adds one
      to the sum. */
  lemma SumValuesIncrement(m: map<string, nat>, k: string)
    ensures SumValues(m[k := (if k in m then m[k] else 0) + 1]) == SumValues(m) + 1
  {
    var m' := m[k := (if k in m then m[k] else 0) + 1];
    SumValuesRemove(m', k);
    assert m' - {k} == m - {k};
    if k in m {
      SumValuesRemove(m, k);
    } else {
      assert m - {k} == m;
    }
  }

  /** Every entry is counted under exactly one key: the counts add up to the
      number of entries. */
  lemma {:induction false} CountsSumToTotal(es: seq<Entry>)
    ensures SumValues(CountByDate(es)) == |es|
  {
    if |es| > 0 {
      CountsSumToTotal(es[..|es| - 1]);
      SumValuesIncrement(CountByDate(es[..|es| - 1]), Tanggal(es[|es| - 1]));
    }
  }

  // ---------------------------------------------------------------------------
  // dayCellContent
  // ---------------------------------------------------------------------------

  /** What a day cell shows: its lookup key, whether the "Nice Step :)"
      indicator is drawn, and the count badge if one is drawn. */
  datatype CellView = CellView(key: string, indicator: bool, badge: Option<nat>)

  /** `dayCellContent` for the cell of date `cell`. A missing key reads as
      `undefined`, which is not `> 0`. */
  function DayCell(counts: map<string, nat>, cell: Date): (v: CellView)
    requires Valid(cell)
    ensures v.key == DateKey(cell)
    ensures v.indicator <==> v.key in counts && counts[v.key] > 0
    ensures v.badge.Some? <==> v.key in counts && counts[v.key] > 1
    ensures v.badge.Some? ==> v.badge.value == counts[v.key] && v.indicator
  {
    var key := DateKey(cell);
    var n := if key in counts then counts[key] else 0;
    CellView(key, n > 0, if n > 1 then Some(n) else None)
  }

  /** Entries that fall on `d`. */
  function OnDate(es: seq<Entry>, d: Date): nat {
    Count(es, (e: Entry) => e.date == Some(d))
  }

  /** Filters that agree on every entry count the same. */
  lemma CountSame(es: seq<Entry>, p: Entry -> bool, q: Entry -> bool)
    requires forall i :: 0 <= i < |es| ==> (p(es[i]) <==> q(es[i]))
    ensures Count(es, p) == Count(es, q)
  {
    CountMonotone(es, p, q);
    CountMonotone(es, q, p);
  }

  /** An entry carries the key of a valid date exactly when it is on that
      date. */
  lemma TanggalIsDate(e: Entry, d: Date)
    requires Valid(d)
    ensures Tanggal(e) == DateKey(d) <==> e.date == Some(d)
  {
    if Tanggal(e) == DateKey(d) {
      DateKeyInjective(e.date.value, d);
    }
  }

  /** The cell of a date counts exactly the entries on that date: it has a
      key and the indicator iff there is at least one, and the badge with
      their number iff there are at least two. */
  lemma CellShowsEntries(es: seq<Entry>, cell: Date)
    requires Valid(cell)
    ensures var v := DayCell(CountByDate(es), cell);
            && (v.key in CountByDate(es) <==> OnDate(es, cell) > 0)
            && (v.indicator <==> OnDate(es, cell) > 0)
            && (v.badge.Some? <==> OnDate(es, cell) > 1)
            && (v.badge.Some? ==> v.badge.value == OnDate(es, cell))
  {
    var key := DateKey(cell);
    forall i | 0 <= i < |es|
      ensures Tanggal(es[i]) == key <==> es[i].date == Some(cell)
    {
      TanggalIsDate(es[i], cell);
    }
    CountSame(es, e => Tanggal(e) == key, (e: Entry) => e.date == Some(cell));
    if key !in CountByDate(es) {
      CountExtremes(es, e => Tanggal(e) == key);
    }
  }
}

=== FILE: dates.dfy ===
/** Calendar dates without time of day: the proleptic Gregorian calendar, day
    numbers, weekdays and the zero-padded `YYYY-MM-DD` text form that the
    application stores in `tanggal` and uses as a map key. */
module Dates {
  import opened Wrappers
  import Strings

  /** A calendar date. Only four-digit years are in range, so that the text
      form has a fixed width and string order is date order. */
  datatype Date = Date(year: int, month: int, day: int)

  predicate IsLeapYear(y: int) {
    (y % 4 == 0 && y % 100 != 0) || y % 400 == 0
  }

  /** Gregorian days in month `m` of year `y` (what JavaScript's
      `new Date(y, m, 0).getDate()` returns). */
  function DaysInMonth(y: int, m: int): (n: int)
    requires 1 <= m <= 12
    ensures 28 <= n <= 31
    ensures m == 2 ==> (n == 29 <==> IsLeapYear(y))
    ensures m != 2 ==> (n == 30 <==> m in {4, 6, 9, 11})
  {
    if m == 2 then (if IsLeapYear(y) then 29 else 28)
    else if m == 4 || m == 6 || m == 9 || m == 11 then 30
    else 31
  }

  predicate Valid(d: Date) {
    && 1000 <= d.year <= 9999
    && 1 <= d.month <= 12
    && 1 <= d.day <= DaysInMonth(d.year, d.month)
  }

  /** Lexicographic order on (year, month, day): strictly earlier. */
  predicate Before(a: Date, b: Date) {
    a.year < b.year
    || (a.year == b.year && a.month < b.month)
    || (a.year == b.year && a.month == b.month && a.day < b.day)
  }

  // ---------------------------------------------------------------------------
  // Day numbers: day 0 is 0001-01-01
  // ---------------------------------------------------------------------------

  function DaysInYear(y: int): int {
    if IsLeapYear(y) then 366 else 365
  }

  /** Days from 0001-01-01 to January 1 of year `y`. */
  function DaysBeforeYear(y: int): int
    requires y >= 1
  {
    var n := y - 1;
    365 * n + n / 4 - n / 100 + n / 400
  }

  /** Days from January 1 to the first of month `m` of year `y`. */
  function DaysBeforeMonth(y: int, m: int): int
    requires 1 <= m <= 12
  {
    var common :=
      if m == 1 then 0 else if m == 2 then 31 else if m == 3 then 59
      else if m == 4 then 90 else if m == 5 then 120 else if m == 6 then 151
      else if m == 7 then 181 else if m == 8 then 212 else if m == 9 then 243
      else if m == 10 then 273 else if m == 11 then 304 else 334;
    common + (if m > 2 && IsLeapYear(y) then 1 else 0)
  }

  function DayNumber(d: Date): int
    requires Valid(d)
  {
    DaysBeforeYear(d.year) + DaysBeforeMonth(d.year, d.month) + d.day - 1
  }

  /** Day of the week, Sunday = 0 (JavaScript's `getDay`). 0001-01-01 is a
      Monday in the proleptic Gregorian calendar. */
  function DayOfWeek(d: Date): (w: int)
    requires Valid(d)
    ensures 0 <= w < 7
  {
    (DayNumber(d) + 1) % 7
  }

  lemma YearStep(y: int)
    requires y >= 1
    ensures DaysBeforeYear(y + 1) == DaysBeforeYear(y) + DaysInYear(y)
  {
    var n := y - 1;
    assert (n + 1) / 4 == n / 4 + (if y % 4 == 0 then 1 else 0);
    assert (n + 1) / 100 == n / 100 + (if y % 100 == 0 then 1 else 0);
    assert (n + 1) / 400 == n / 400 + (if y % 400 == 0 then 1 else 0);
  }

  lemma {:induction false} YearsMonotone(y1: int, y2: int)
    requires 1 <= y1 < y2
    ensures DaysBeforeYear(y1) + DaysInYear(y1) <= DaysBeforeYear(y2)
    decreases y2 - y1
  {
    YearStep(y1);
    if y1 + 1 < y2 {
      YearsMonotone(y1 + 1, y2);
    }
  }

  lemma MonthsMonotone(y: int, m1: int, m2: int)
    requires 1 <= m1 < m2 <= 12
    ensures DaysBeforeMonth(y, m1) + DaysInMonth(y, m1) <= DaysBeforeMonth(y, m2)
  {
  }

  lemma LastMonth(y: int)
    ensures DaysBeforeMonth(y, 12) + DaysInMonth(y, 12) == DaysInYear(y)
  {
  }

  /** A valid date's day number lies inside its year. */
  lemma DayNumberInYear(d: Date)
    requires Valid(d)
    ensures DaysBeforeYear(d.year) <= DayNumber(d) < DaysBeforeYear(d.year) + DaysInYear(d.year)
  {
    if d.month < 12 {
      MonthsMonotone(d.year, d.month, 12);
    }
    LastMonth(d.year);
  }

  /** Day numbers follow the calendar order. */
  lemma BeforeIsEarlier(a: Date, b: Date)
    requires Valid(a) && Valid(b) && Before(a, b)
    ensures DayNumber(a) < DayNumber(b)
  {
    if a.year < b.year {
      DayNumberInYear(a);
      DayNumberInYear(b);
      YearsMonotone(a.year, b.year);
    } else if a.month < b.month {
      MonthsMonotone(a.year, a.month, b.month);
    }
  }

  /** The calendar day after `d`, as `setDate(getDate() + 1)` moves it. */
  function NextDay(d: Date): (n: Date)
    requires Valid(d)
    ensures Before(d, n)
  {
    if d.day < DaysInMonth(d.year, d.month) then Date(d.year, d.month, d.day + 1)
    else if d.month < 12 then Date(d.year, d.month + 1, 1)
    else Date(d.year + 1, 1, 1)
  }

  /** The next calendar day has the next day number, so day-number
      differences count calendar days. */
  lemma NextDayNumber(d: Date)
    requires Valid(d) && d != Date(9999, 12, 31)
    ensures Valid(NextDay(d)) && DayNumber(NextDay(d)) == DayNumber(d) + 1
  {
    if d.day == DaysInMonth(d.year, d.month) {
      if d.month < 12 {
        MonthStep(d.year, d.month);
      } else {
        YearStep(d.year);
        LastMonth(d.year);
      }
    }
  }

  /** Consecutive months: a month starts where the one before it ends. */
  lemma MonthStep(y: int, m: int)
    requires 1 <= m < 12
    ensures DaysBeforeMonth(y, m + 1) == DaysBeforeMonth(y, m) + DaysInMonth(y, m)
  {
  }

  /** Day numbers of valid dates are ordered exactly as the dates are, so
      different dates have different day numbers. */
  lemma DayNumberOrder(a: Date, b: Date)
    requires Valid(a) && Valid(b)
    ensures DayNumber(a) < DayNumber(b) <==> Before(a, b)
    ensures DayNumber(a) == DayNumber(b) <==> a == b
  {
    if Before(a, b) {
      BeforeIsEarlier(a, b);
    } else if Before(b, a) {
      BeforeIsEarlier(b, a);
    }
  }

  // ---------------------------------------------------------------------------
  // Text form `YYYY-MM-DD`
  // ---------------------------------------------------------------------------

  /** The date key: the year, then the zero-padded two-digit month and day,
      joined with '-'. For four-digit years `${year}` is the four-digit text. */
  function DateKey(d: Date): (s: string)
    requires Valid(d)
    ensures |s| == 10 && s[4] == '-' && s[7] == '-'
  {
    Strings.Digits(d.year, 4) + ("-" + (Strings.Digits(d.month, 2) + ("-" + Strings.Digits(d.day, 2))))
  }

  /** Parses a well-formed `YYYY-MM-DD` text of a valid date. */
  function ParseDateKey(s: string): (r: Option<Date>)
    ensures r.Some? ==> Valid(r.value)
  {
    if |s| == 10 && s[4] == '-' && s[7] == '-'
       && Strings.AllDigits(s[..4]) && Strings.AllDigits(s[5..7]) && Strings.AllDigits(s[8..])
    then
      var d := Date(Strings.ParseDigits(s[..4]), Strings.ParseDigits(s[5..7]), Strings.ParseDigits(s[8..]));
      if Valid(d) then Some(d) else None
    else None
  }

  lemma DateKeyParts(d: Date)
    requires Valid(d)
    ensures DateKey(d)[..4] == Strings.Digits(d.year, 4)
    ensures DateKey(d)[5..7] == Strings.Digits(d.month, 2)
    ensures DateKey(d)[8..] == Strings.Digits(d.day, 2)
  {
  }

  /** Formatting then parsing a valid date gives it back. */
  lemma ParseDateKeyOfDateKey(d: Date)
    requires Valid(d)
    ensures ParseDateKey(DateKey(d)) == Some(d)
  {
    DateKeyParts(d);
    Strings.DigitsRoundTrip(d.year, 4);
    Strings.DigitsRoundTrip(d.month, 2);
    Strings.DigitsRoundTrip(d.day, 2);
  }

  /** A text that parses is exactly the key of the date it parses to. */
  lemma DateKeyOfParseDateKey(s: string)
    requires ParseDateKey(s).Some?
    ensures DateKey(ParseDateKey(s).value) == s
  {
    var d := ParseDateKey(s).value;
    Strings.ParseRoundTrip(s[..4]);
    Strings.ParseRoundTrip(s[5..7]);
    Strings.ParseRoundTrip(s[8..]);
    DateKeyParts(d);
    SameKeyParts(DateKey(d), s);
  }

  /** Two ten-character texts that agree on the year, month and day parts
      and on both dashes are equal. */
  lemma SameKeyParts(a: string, b: string)
    requires |a| == 10 && |b| == 10 && a[4] == b[4] && a[7] == b[7]
    requires a[..4] == b[..4] && a[5..7] == b[5..7] && a[8..] == b[8..]
    ensures a == b
  {
    forall i | 0 <= i < 10
      ensures a[i] == b[i]
    {
      if i < 4 {
        assert a[i] == a[..4][i] && b[i] == b[..4][i];
      } else if 5 <= i < 7 {
        assert a[i] == a[5..7][i - 5] && b[i] == b[5..7][i - 5];
      } else if 8 <= i {
        assert a[i] == a[8..][i - 8] && b[i] == b[8..][i - 8];
      }
    }
  }

  lemma DateKeyInjective(a: Date, b: Date)
    requires Valid(a) && Valid(b) && DateKey(a) == DateKey(b)
    ensures a == b
  {
    ParseDateKeyOfDateKey(a);
    ParseDateKeyOfDateKey(b);
  }

  /** Comparing date keys as strings (as `tanggal >= dateFrom` does) is
      comparing the dates. */
  lemma DateKeyOrder(a: Date, b: Date)
    requires Valid(a) && Valid(b)
    ensures Strings.Less(DateKey(a), DateKey(b)) <==> Before(a, b)
  {
    var ya, yb := Strings.Digits(a.year, 4), Strings.Digits(b.year, 4);
    var ma, mb := Strings.Digits(a.month, 2), Strings.Digits(b.month, 2);
    var da, db := Strings.Digits(a.day, 2), Strings.Digits(b.day, 2);
    Strings.LessConcat(ya, "-" + (ma + ("-" + da)), yb, "-" + (mb + ("-" + db)));
    Strings.LessConcat("-", ma + ("-" + da), "-", mb + ("-" + db));
    Strings.LessConcat(ma, "-" + da, mb, "-" + db);
    Strings.LessConcat("-", da, "-", db);
    Strings.LessIrreflexive("-");
    Strings.DigitsOrder(a.year, b.year, 4);
    Strings.DigitsOrder(a.month, b.month, 2);
    Strings.DigitsOrder(a.day, b.day, 2);
    if ya == yb {
      Strings.DigitsInjective(a.year, b.year, 4);
    }
    if ma == mb {
      Strings.DigitsInjective(a.month, b.month, 2);
    }
  }

  // ---------------------------------------------------------------------------
  // Months relative to a given month
  // ---------------------------------------------------------------------------

  /** The (year, month) `i` months before (`y`, `m`) for `0 <= i <= 11`, as
      the statistics series computes it: when `m - i <= 0` the year is one
      less and the month wraps by 12. */
  function MonthsBack(y: int, m: int, i: int): (r: (int, int))
    requires 1 <= m <= 12 && 0 <= i <= 11
    ensures 1 <= r.1 <= 12
    ensures r.0 * 12 + r.1 == y * 12 + m - i
  {
    var t := m - i;
    if t <= 0 then (y - 1, t + 12) else (y, t)
  }

  /** 2024-01-07 was a Sunday and 2024-01-01 a Monday. */
  lemma WeekdayExamples()
    ensures DayOfWeek(Date(2024, 1, 7)) == 0
    ensures DayOfWeek(Date(2024, 1, 1)) == 1
  {
  }
}

=== FILE: entries.dfy ===
/** A progress entry as the server stores it and the client receives it, and
    the counting helpers shared by the statistics, calendar and export views. */
module Entries {
  import opened Wrappers
  import opened Dates

  /** One row of the `progress` table. `date` is `tanggal` (None when it is
      missing or empty; when present its text is `DateKey(date)`), `note` is
      `catatan` (the server always stores a string), `tags` and `images`
      (`gambar`) may be missing, `created` / `updated` are the `dibuat` /
      `update` instants in milliseconds. */
  datatype Entry = Entry(
    id: int,
    userId: int,
    date: Option<Date>,
    note: string,
    tags: Option<seq<string>>,
    images: Option<seq<string>>,
    created: int,
    updated: int)

  predicate HasValidDate(e: Entry) {
    e.date.Some? && Valid(e.date.value)
  }

  /** Every entry that has a date has a valid one. */
  predicate DatesValid(es: seq<Entry>) {
    forall i :: 0 <= i < |es| ==> (es[i].date.Some? ==> Valid(es[i].date.value))
  }

  /** Every entry has a valid date. */
  predicate AllDated(es: seq<Entry>) {
    forall i :: 0 <= i < |es| ==> HasValidDate(es[i])
  }

  /** The `tanggal` text: the date key, or "" when the entry has no date. */
  function Tanggal(e: Entry): (s: string)
    ensures HasValidDate(e) ==> |s| == 10
    ensures !HasValidDate(e) ==> s == ""
  {
    if HasValidDate(e) then DateKey(e.date.value) else ""
  }

  /** The entry's day number. */
  function Day(e: Entry): int
    requires HasValidDate(e)
  {
    DayNumber(e.date.value)
  }

  /** The entry's day number, 0 for an entry without a valid date (a sort
      key; the callers that sort require dated entries). */
  function DayOrZero(e: Entry): (n: int)
    ensures HasValidDate(e) ==> n == Day(e)
  {
    if HasValidDate(e) then Day(e) else 0
  }

  /** `tags || []`. */
  function TagList(e: Entry): seq<string> {
    e.tags.GetOr([])
  }

  /** `gambar || []`. */
  function ImageList(e: Entry): seq<string> {
    e.images.GetOr([])
  }

  /** `p.gambar?.length || 0`. */
  function ImageCount(e: Entry): (n: nat)
    ensures e.images.None? ==> n == 0
    ensures e.images.Some? ==> n == |e.images.value|
  {
    |ImageList(e)|
  }

  /** `reduce((sum, p) => sum + (p.gambar?.length || 0), 0)`. */
  function TotalImages(es: seq<Entry>): (n: nat)
    ensures forall i :: 0 <= i < |es| ==> ImageCount(es[i]) <= n
    ensures n == 0 <==> forall i :: 0 <= i < |es| ==> ImageCount(es[i]) == 0
  {
    if |es| == 0 then 0
    else
      var q := es[..|es| - 1];
      assert forall i :: 0 <= i < |q| ==> q[i] == es[i];
      TotalImages(q) + ImageCount(es[|es| - 1])
  }

  /** `filter(p).length`. */
  function Count(es: seq<Entry>, p: Entry -> bool): (n: nat)
    ensures n <= |es|
  {
    if |es| == 0 then 0 else Count(es[..|es| - 1], p) + (if p(es[|es| - 1]) then 1 else 0)
  }

  lemma {:induction false} TotalImagesAppend(a: seq<Entry>, b: seq<Entry>)
    ensures TotalImages(a + b) == TotalImages(a) + TotalImages(b)
    decreases |b|
  {
    if |b| > 0 {
      assert (a + b)[..|a + b| - 1] == a + b[..|b| - 1];
      TotalImagesAppend(a, b[..|b| - 1]);
    } else {
      assert a + b == a;
    }
  }

  lemma {:induction false} CountAppend(a: seq<Entry>, b: seq<Entry>, p: Entry -> bool)
    ensures Count(a + b, p) == Count(a, p) + Count(b, p)
    decreases |b|
  {
    if |b| > 0 {
      assert (a + b)[..|a + b| - 1] == a + b[..|b| - 1];
      CountAppend(a, b[..|b| - 1], p);
    } else {
      assert a + b == a;
    }
  }

  /** A weaker filter keeps at least as many entries. */
  lemma {:induction false} CountMonotone(es: seq<Entry>, p: Entry -> bool, q: Entry -> bool)
    requires forall i :: 0 <= i < |es| ==> (p(es[i]) ==> q(es[i]))
    ensures Count(es, p) <= Count(es, q)
  {
    if |es| > 0 {
      CountMonotone(es[..|es| - 1], p, q);
    }
  }

  /** Entries kept by a filter and entries dropped by it add up to all entries. */
  lemma {:induction false} CountComplement(es: seq<Entry>, p: Entry -> bool)
    ensures Count(es, p) + Count(es, e => !p(e)) == |es|
  {
    if |es| > 0 {
      CountComplement(es[..|es| - 1], p);
    }
  }

  /** A filter counts nothing exactly when it accepts no entry. */
  lemma {:induction false} CountZero(es: seq<Entry>, p: Entry -> bool)
    ensures Count(es, p) == 0 <==> forall i :: 0 <= i < |es| ==> !p(es[i])
  {
    if |es| > 0 {
      var q := es[..|es| - 1];
      CountZero(q, p);
      assert forall i :: 0 <= i < |q| ==> q[i] == es[i];
    }
  }

  /** A filter that keeps every entry counts them all; one that keeps none
      counts zero. */
  lemma {:induction false} CountExtremes(es: seq<Entry>, p: Entry -> bool)
    ensures (forall i :: 0 <= i < |es| ==> p(es[i])) ==> Count(es, p) == |es|
    ensures (forall i :: 0 <= i < |es| ==> !p(es[i])) ==> Count(es, p) == 0
  {
    if |es| > 0 {
      CountExtremes(es[..|es| - 1], p);
    }
  }

  /** `filter(p)`: keeps the entries `p` accepts, in order. */
  function Filter(es: seq<Entry>, p: Entry -> bool): (r: seq<Entry>)
    ensures |r| == Count(es, p)
    ensures forall e :: multiset(r)[e] == if p(e) then multiset(es)[e] else 0
    ensures forall i :: 0 <= i < |r| ==> p(r[i])
  {
    if |es| == 0 then []
    else
      var q := es[..|es| - 1];
      var x := es[|es| - 1];
      assert es == q + [x];
      var t := Filter(q, p);
      if p(x) then t + [x] else t
  }

  /** Filtering works piece by piece, keeping the order: the kept entries
      of `a + b` are those of `a` followed by those of `b`. */
  lemma {:induction false} FilterAppend(a: seq<Entry>, b: seq<Entry>, p: Entry -> bool)
    ensures Filter(a + b, p) == Filter(a, p) + Filter(b, p)
    decreases |b|
  {
    if |b| == 0 {
      assert a + b == a;
    } else {
      var q := b[..|b| - 1];
      assert (a + b)[..|a + b| - 1] == a + q;
      FilterAppend(a, q, p);
    }
  }
}

=== FILE: export.dfy ===
/** The export utilities: the CSV text, the rows of the PDF table and of the
    spreadsheet, and the summary counts printed with them. Locale-dependent
    date and time formatting is taken as given (`Locale`). */
module Export {
  import opened Wrappers
  import opened Dates
  import opened Entries
  import Strings

  /** `toLocaleDateString()` of `new Date(tanggal)` and `toLocaleString()` of
      a stored instant, as the browser formats them. */
  datatype Locale = Locale(dateText: Option<Date> -> string, stampText: int -> string)

  // ---------------------------------------------------------------------------
  // Quoting
  // ---------------------------------------------------------------------------

  /** `s.replace(/"/g, '""')`: every '"' doubled. */
  function DoubleQuotes(s: string): (r: string)
    ensures |r| >= |s|
    ensures (forall i :: 0 <= i < |s| ==> s[i] != '"') ==> r == s
  {
    if |s| == 0 then ""
    else (if s[0] == '"' then "\"\"" else [s[0]]) + DoubleQuotes(s[1..])
  }

  /** Reads a field body back: a doubled '"' stands for one quote, a lone '"'
      is malformed. */
  function UndoubleQuotes(s: string): (r: Option<string>)
  {
    if |s| == 0 then Some("")
    else if s[0] == '"' then
      if |s| >= 2 && s[1] == '"' then
        match UndoubleQuotes(s[2..])
        case Some(t) => Some("\"" + t)
        case None => None
      else None
    else
      match UndoubleQuotes(s[1..])
      case Some(t) => Some([s[0]] + t)
      case None => None
  }

  /** `"${s}"`. */
  function Quote(s: string): (r: string)
    ensures |r| == |s| + 2 && r[0] == '"' && r[|r| - 1] == '"' && r[1..|r| - 1] == s
  {
    "\"" + s + "\""
  }

  /** Reads a quoted CSV field: strips the outer quotes and un-doubles the
      inner ones; None for a field that is not a well-formed quoted field. */
  function UnquoteField(f: string): Option<string> {
    if |f| >= 2 && f[0] == '"' && f[|f| - 1] == '"' then UndoubleQuotes(f[1..|f| - 1])
    else None
  }

  /** Un-doubling recovers the text. */
  lemma {:induction false} UndoubleDouble(s: string)
    ensures UndoubleQuotes(DoubleQuotes(s)) == Some(s)
  {
    if |s| > 0 {
      UndoubleDouble(s[1..]);
      var d := DoubleQuotes(s);
      if s[0] == '"' {
        assert d[2..] == DoubleQuotes(s[1..]);
      } else {
        assert d[1..] == DoubleQuotes(s[1..]);
      }
      assert s == [s[0]] + s[1..];
    }
  }

  /** A field body that reads back is the doubling of what it reads as: the
      escaped form of a text is the only one. */
  lemma {:induction false} DoubleUndouble(s: string)
    requires UndoubleQuotes(s).Some?
    ensures DoubleQuotes(UndoubleQuotes(s).value) == s
  {
    if |s| > 0 {
      var t := UndoubleQuotes(s).value;
      if s[0] == '"' {
        DoubleUndouble(s[2..]);
        assert t == "\"" + UndoubleQuotes(s[2..]).value;
        assert t[1..] == UndoubleQuotes(s[2..]).value;
        assert s == "\"\"" + s[2..];
      } else {
        DoubleUndouble(s[1..]);
        assert t[1..] == UndoubleQuotes(s[1..]).value;
        assert s == [s[0]] + s[1..];
      }
    }
  }

  // ---------------------------------------------------------------------------
  // CSV
  // ---------------------------------------------------------------------------

  const CsvHeader: seq<string> := ["#", "Date", "Notes", "Tags", "Image Count", "Created", "Updated"]

  /** The first line: the column names above joined by ','. */
  const HeaderLine := "#,Date,Notes,Tags,Image Count,Created,Updated"

  /** The note field: the note with its quotes doubled, in quotes. */
  function NoteField(note: string): (f: string)
    ensures UnquoteField(f) == Some(note)
  {
    var f := Quote(DoubleQuotes(note));
    UndoubleDouble(note);
    f
  }

  /** `tags?.join(', ') || ''`: the tags joined by ", ", "" when missing. */
  function TagsText(e: Entry): (s: string)
    ensures |TagList(e)| == 0 ==> s == ""
  {
    Strings.Join(TagList(e), ", ")
  }

  /** The tags field as written: the joined tags in quotes, not escaped. */
  function TagsField(e: Entry): (f: string)
    ensures (forall i :: 0 <= i < |TagsText(e)| ==> TagsText(e)[i] != '"') ==> UnquoteField(f) == Some(TagsText(e))
    ensures e.tags.None? ==> f == "\"\""
  {
    var t := TagsText(e);
    UndoubleDouble(t);
    Quote(t)
  }

  /** The tags field escaped like the note field. */
  function EscapedTagsField(e: Entry): (f: string)
    ensures UnquoteField(f) == Some(TagsText(e))
    ensures e.tags.None? ==> f == "\"\""
  {
    NoteField(TagsText(e))
  }

  /** A tag holding a quote breaks the tags field as written: `a"b` gives the
      field `"a"b"`, which does not read back, while the escaped field does. */
  lemma TagsFieldQuoteBreaks()
    ensures var e := Entry(1, 1, None, "", Some(["a\"b"]), None, 0, 0);
            && TagsField(e) == "\"a\"b\""
            && UnquoteField(TagsField(e)) == None
            && UnquoteField(EscapedTagsField(e)) == Some("a\"b")
  {
    var e := Entry(1, 1, None, "", Some(["a\"b"]), None, 0, 0);
    assert TagsText(e) == "a\"b";
    var f := TagsField(e);
    assert f[1..|f| - 1] == "a\"b";
    assert UndoubleQuotes("a\"b") == None by {
      assert UndoubleQuotes("\"b") == None;
    }
  }

  /** The seven fields of CSV row `i` (0-based) for `e`. */
  function CsvRow(i: nat, e: Entry, loc: Locale): (row: seq<string>)
    ensures |row| == |CsvHeader|
    ensures Strings.AllDigits(row[0]) && Strings.ParseDigits(row[0]) == i + 1
    ensures UnquoteField(row[2]) == Some(e.note)
    ensures row[3] == TagsField(e)
    ensures Strings.AllDigits(row[4]) && Strings.ParseDigits(row[4]) == ImageCount(e)
    ensures e.images.None? ==> row[4] == "0"
  {
    [Strings.NatText(i + 1), loc.dateText(e.date), NoteField(e.note), TagsField(e),
     Strings.NatText(ImageCount(e)), loc.stampText(e.created), loc.stampText(e.updated)]
  }

  /** The lines of the CSV text: the header, then one row per entry in input
      order, fields joined by ','. */
  function CsvLines(es: seq<Entry>, loc: Locale): (lines: seq<string>)
    ensures |lines| == |es| + 1
    ensures lines[0] == HeaderLine
    ensures forall i :: 0 <= i < |es| ==> lines[i + 1] == Strings.Join(CsvRow(i, es[i], loc), ",")
  {
    var rows := seq(|es|, i requires 0 <= i < |es| => Strings.Join(CsvRow(i, es[i], loc), ","));
    var lines := [HeaderLine] + rows;
    assert lines[0] == HeaderLine;
    assert forall i :: 0 <= i < |es| ==> lines[i + 1] == rows[i];
    lines
  }

  /** `exportToCSV`'s text: the lines joined by '\n'. When no field holds a
      line break, splitting the text at line breaks gives back the header
      and one line per entry. */
  function CsvContent(es: seq<Entry>, loc: Locale): (s: string)
    ensures |es| == 0 ==> s == HeaderLine
    ensures |es| > 0 ==> Strings.StartsWith(s, HeaderLine + "\n")
    ensures SingleLines(CsvLines(es, loc)) ==> Strings.Split(s, '\n') == CsvLines(es, loc)
  {
    var lines := CsvLines(es, loc);
    var s := Strings.Join(lines, "\n");
    assert |es| > 0 ==> s == lines[0] + "\n" + Strings.Join(lines[1..], "\n");
    assert |es| > 0 ==> s[..|lines[0] + "\n"|] == lines[0] + "\n";
    if SingleLines(lines) then
      Strings.SplitJoin(lines, '\n');
      s
    else s
  }

  /** No line holds a line break of its own. */
  predicate SingleLines(lines: seq<string>) {
    forall i :: 0 <= i < |lines| ==> '\n' !in lines[i]
  }

  /** When the entries' fields are free of line breaks, the CSV text has one
      line per entry after the header, each the entry's row. */
  lemma CsvLineCount(es: seq<Entry>, loc: Locale)
    requires SingleLines(CsvLines(es, loc))
    ensures |Strings.Split(CsvContent(es, loc), '\n')| == |es| + 1
    ensures forall i :: 0 <= i < |es| ==>
              Strings.Split(CsvContent(es, loc), '\n')[i + 1] == Strings.Join(CsvRow(i, es[i], loc), ",")
  {
  }

  // ---------------------------------------------------------------------------
  // PDF table
  // ---------------------------------------------------------------------------

  const NoteCellLimit := 60

  /** `catatan.substring(0, 60) + (catatan.length > 60 ? '...' : '')`, with
      `length` and `substring` counting UTF-16 code units. A note longer
      than the limit keeps the characters that fit in it, then "...". */
  function NoteCell(note: string): (c: string)
    ensures Strings.Utf16Length(c) <= NoteCellLimit + 3
    ensures Strings.Utf16Length(note) <= NoteCellLimit ==> c == note
    ensures Strings.Utf16Length(note) > NoteCellLimit ==>
              exists k :: 0 <= k < |note| && c == note[..k] + "..."
                          && Strings.Utf16Length(note[..k]) <= NoteCellLimit < Strings.Utf16Length(note[..k + 1])
  {
    if Strings.Utf16Length(note) <= NoteCellLimit then note
    else
      var k := Strings.Utf16Prefix(note, NoteCellLimit);
      assert note[..|note|] == note;
      Strings.Utf16Concat(note[..k], "...");
      note[..k] + "..."
  }

  /** A note of characters inside the Basic Multilingual Plane is cut at
      the limit exactly, as with one code unit per character. */
  lemma NoteCellOfBmp(note: string)
    requires forall i :: 0 <= i < |note| ==> note[i] as int < 0x1_0000
    ensures |note| <= NoteCellLimit ==> NoteCell(note) == note
    ensures |note| > NoteCellLimit ==> NoteCell(note) == note[..NoteCellLimit] + "..."
  {
    Strings.Utf16PrefixOfBmp(note, NoteCellLimit);
  }

  /** `tags?.join(', ') || '-'`. */
  function TagsCell(e: Entry): (c: string)
    ensures c != ""
    ensures |TagList(e)| == 0 ==> c == "-"
    ensures TagsText(e) != "" ==> c == TagsText(e)
  {
    var t := TagsText(e);
    if t == "" then "-" else t
  }

  /** The five cells of PDF table row `i` (0-based). */
  function PdfRow(i: nat, e: Entry, loc: Locale): (row: seq<string>)
    ensures |row| == 5
    ensures Strings.AllDigits(row[0]) && Strings.ParseDigits(row[0]) == i + 1
    ensures row[1] == loc.dateText(e.date) && row[2] == NoteCell(e.note) && row[3] == TagsCell(e)
    ensures Strings.Utf16Length(row[2]) <= NoteCellLimit + 3 && row[3] != ""
    ensures Strings.AllDigits(row[4]) && Strings.ParseDigits(row[4]) == ImageCount(e)
  {
    [Strings.NatText(i + 1), loc.dateText(e.date), NoteCell(e.note), TagsCell(e), Strings.NatText(ImageCount(e))]
  }

  /** The spreadsheet's columns for row `i` (0-based): the note is not
      shortened, and missing tags give "". */
  function SheetRow(i: nat, e: Entry, loc: Locale): (row: seq<string>)
    ensures |row| == |CsvHeader|
    ensures row[2] == e.note && row[3] == TagsText(e)
    ensures Strings.AllDigits(row[0]) && Strings.ParseDigits(row[0]) == i + 1
    ensures Strings.AllDigits(row[4]) && Strings.ParseDigits(row[4]) == ImageCount(e)
  {
    [Strings.NatText(i + 1), loc.dateText(e.date), e.note, TagsText(e),
     Strings.NatText(ImageCount(e)), loc.stampText(e.created), loc.stampText(e.updated)]
  }

  // ---------------------------------------------------------------------------
  // Summary counts
  // ---------------------------------------------------------------------------

  /** `p.gambar?.length > 0`. */
  predicate WithImage(e: Entry) {
    ImageCount(e) > 0
  }

  /** `filter(p => p.gambar?.length > 0).length`. */
  function WithImages(es: seq<Entry>): (n: nat)
    ensures n == |Filter(es, WithImage)| && n == Count(es, WithImage)
    ensures n <= |es|
    ensures n == 0 <==> forall i :: 0 <= i < |es| ==> ImageCount(es[i]) == 0
  {
    NoneWithImages(es);
    Count(es, WithImage)
  }

  /** The count adds up over the entries, one for each entry with images. */
  lemma WithImagesAppend(a: seq<Entry>, b: seq<Entry>, e: Entry)
    ensures WithImages(a + b) == WithImages(a) + WithImages(b)
    ensures WithImages([e]) == if ImageCount(e) > 0 then 1 else 0
  {
    CountAppend(a, b, WithImage);
    assert [e][..0] == [];
  }

  lemma {:induction false} NoneWithImages(es: seq<Entry>)
    ensures Count(es, WithImage) == 0 <==> forall i :: 0 <= i < |es| ==> ImageCount(es[i]) == 0
  {
    if |es| > 0 {
      NoneWithImages(es[..|es| - 1]);
      assert forall i :: 0 <= i < |es| - 1 ==> es[..|es| - 1][i] == es[i];
    }
  }

  /** "Total Progress", "With Images" and "Total Images". */
  datatype SummaryCounts = SummaryCounts(total: nat, withImages: nat, totalImages: nat)

  function ExportSummary(es: seq<Entry>): (s: SummaryCounts)
    ensures s.total == |es|
    ensures s.withImages == WithImages(es) && s.totalImages == TotalImages(es)
    ensures s.withImages <= s.total && s.withImages <= s.totalImages
    ensures s.totalImages == 0 <==> s.withImages == 0
  {
    ImagesBound(es);
    SummaryCounts(|es|, WithImages(es), TotalImages(es))
  }

  /** Every entry with images has at least one, and the images all belong to
      entries with images. */
  lemma {:induction false} ImagesBound(es: seq<Entry>)
    ensures WithImages(es) <= TotalImages(es)
    ensures TotalImages(es) == 0 <==> WithImages(es) == 0
  {
    if |es| > 0 {
      ImagesBound(es[..|es| - 1]);
    }
  }
}

=== FILE: filter_panel.dfy ===
/** The filter panel: its state is the filter object the search uses, each
    change is passed on to the parent as the new state, and the toggle
    button shows how many filters are active. */
module FilterPanel {
  import opened Wrappers
  import opened Search
  import TagInput

  /** The `initialFilters` prop: each field may be missing. */
  datatype Initial = Initial(dateFrom: Option<string>, dateTo: Option<string>, tags: Option<seq<string>>, hasImages: Option<bool>)

  /** The state the panel starts in: each given field, else its empty
      value. */
  function Start(init: Initial): (f: Filters)
    ensures init == Initial(None, None, None, None) ==> f == NoFilters
    ensures init.dateFrom.Some? ==> f.dateFrom == init.dateFrom.value
    ensures init.dateTo.Some? ==> f.dateTo == init.dateTo.value
    ensures init.tags.Some? ==> f.tags == init.tags.value
    ensures init.hasImages.Some? ==> f.hasImages == init.hasImages.value
    ensures init.dateFrom.None? ==> f.dateFrom == ""
    ensures init.dateTo.None? ==> f.dateTo == ""
    ensures init.tags.None? ==> f.tags == []
    ensures init.hasImages.None? ==> !f.hasImages
  {
    Filters(init.dateFrom.GetOr(""), init.dateTo.GetOr(""), init.tags.GetOr([]), init.hasImages.GetOr(false))
  }

  /** `handleFilterChange(key, value)`, one constructor per key. */
  datatype Change =
    | SetDateFrom(dateFrom: string)
    | SetDateTo(dateTo: string)
    | SetTags(tags: seq<string>)
    | SetHasImages(hasImages: bool)

  /** The state after a change, which is also what `onFilterChange`
      receives: the named field takes the new value and the others keep
      theirs. */
  function ApplyChange(f: Filters, c: Change): (r: Filters)
    ensures c.SetDateFrom? ==> r == f.(dateFrom := c.dateFrom)
    ensures c.SetDateTo? ==> r == f.(dateTo := c.dateTo)
    ensures c.SetTags? ==> r == f.(tags := c.tags)
    ensures c.SetHasImages? ==> r == f.(hasImages := c.hasImages)
  {
    match c
    case SetDateFrom(v) => f.(dateFrom := v)
    case SetDateTo(v) => f.(dateTo := v)
    case SetTags(v) => f.(tags := v)
    case SetHasImages(v) => f.(hasImages := v)
  }

  /** `handleTagToggle(tag)`: a chosen tag is dropped (every copy of it),
      another one is appended. */
  function ToggleTag(f: Filters, tag: string): (r: Filters)
    ensures r == f.(tags := r.tags)
    ensures tag in f.tags ==> tag !in r.tags && forall t :: t in r.tags <==> t in f.tags && t != tag
    ensures tag !in f.tags ==> r.tags == f.tags + [tag]
  {
    ApplyChange(f, SetTags(if tag in f.tags then TagInput.RemoveTag(f.tags, tag) else f.tags + [tag]))
  }

  /** Toggling a tag that is not chosen twice gives back the same state. */
  lemma ToggleTwice(f: Filters, tag: string)
    requires tag !in f.tags
    ensures ToggleTag(ToggleTag(f, tag), tag) == f
  {
    var t := f.tags + [tag];
    TagInput.RemoveAt(t, tag, |f.tags|);
    assert t[..|f.tags|] == f.tags;
  }

  /** `handleClearFilters`. */
  function Clear(): (f: Filters)
    ensures f.dateFrom == "" && f.dateTo == "" && f.tags == [] && !f.hasImages
  {
    NoFilters
  }

  /** `activeFilterCount`: one for each date bound set, one per chosen tag,
      one for the images filter. */
  function ActiveCount(f: Filters): (n: nat)
    ensures n >= |f.tags|
  {
    (if f.dateFrom != "" then 1 else 0) + (if f.dateTo != "" then 1 else 0) + |f.tags| + (if f.hasImages then 1 else 0)
  }

  /** The count is zero exactly for the cleared state, which the search
      treats as no filter at all. */
  lemma NoActiveFiltersIsClear(f: Filters)
    ensures ActiveCount(f) == 0 <==> f == Clear()
  {
  }

  /** The badge of a freshly opened panel counts exactly the given fields
      that are set: a non-empty date bound, each given tag, a true images
      flag. With nothing set it is the cleared state. */
  lemma StartCount(init: Initial)
    ensures ActiveCount(Start(init)) == Given(init.dateFrom) + Given(init.dateTo)
                                        + (if init.tags.Some? then |init.tags.value| else 0)
                                        + (if init.hasImages == Some(true) then 1 else 0)
    ensures ActiveCount(Start(init)) == 0 <==> Start(init) == Clear()
  {
    NoActiveFiltersIsClear(Start(init));
  }

  /** One for a date bound that is given and non-empty. */
  function Given(bound: Option<string>): (n: nat)
    ensures n == 1 <==> bound.Some? && bound.value != ""
    ensures n <= 1
  {
    if bound.Some? && bound.value != "" then 1 else 0
  }

  /** A toggle moves the count by one. */
  lemma ToggleCount(f: Filters, tag: string)
    ensures tag !in f.tags ==> ActiveCount(ToggleTag(f, tag)) == ActiveCount(f) + 1
    ensures tag in f.tags && (forall i, j :: 0 <= i < j < |f.tags| ==> f.tags[i] != f.tags[j]) ==>
      ActiveCount(ToggleTag(f, tag)) == ActiveCount(f) - 1
  {
    if tag in f.tags && (forall i, j :: 0 <= i < j < |f.tags| ==> f.tags[i] != f.tags[j]) {
      var i :| 0 <= i < |f.tags| && f.tags[i] == tag;
      TagInput.RemoveAt(f.tags, tag, i);
    }
  }
}

=== FILE: gallery.dfy ===
/** The image gallery's lightbox: which image is open, and stepping to the
    next or previous one with wrap-around. */
module Gallery {

  /** `handleNext` with `n` images. */
  function Next(i: int, n: int): (j: int)
    requires 0 <= i < n
    ensures 0 <= j < n
    ensures i < n - 1 ==> j == i + 1
    ensures i == n - 1 ==> j == 0
  {
    (i + 1) % n
  }

  /** `handlePrev` with `n` images: `n` is added first, so the index never
      goes below zero. */
  function Prev(i: int, n: int): (j: int)
    requires 0 <= i < n
    ensures 0 <= j < n
    ensures i > 0 ==> j == i - 1
    ensures i == 0 ==> j == n - 1
  {
    (i - 1 + n) % n
  }

  /** Each step undoes the other. */
  lemma StepsUndo(i: int, n: int)
    requires 0 <= i < n
    ensures Prev(Next(i, n), n) == i
    ensures Next(Prev(i, n), n) == i
  {
  }

  /** `k` presses of next. */
  function Forward(i: int, n: int, k: nat): (j: int)
    requires 0 <= i < n
    ensures 0 <= j < n
  {
    if k == 0 then i else Next(Forward(i, n, k - 1), n)
  }

  /** Pressing next `k` times moves `k` places around the circle; after `n`
      presses the same image is open again. */
  lemma {:induction false} ForwardIsRotation(i: int, n: int, k: nat)
    requires 0 <= i < n
    ensures Forward(i, n, k) == (i + k) % n
  {
    if k > 0 {
      ForwardIsRotation(i, n, k - 1);
      NextOfRemainder(i + k - 1, n);
    }
  }

  /** Stepping from the remainder of `x` gives the remainder of `x + 1`. */
  lemma NextOfRemainder(x: int, n: int)
    requires 0 <= x && 0 < n
    ensures Next(x % n, n) == (x + 1) % n
  {
    var q, r := x / n, x % n;
    DivMod(x, n);
    if r < n - 1 {
      ModUnique(x + 1, n, q, r + 1);
    } else {
      ModUnique(x + 1, n, q + 1, 0);
    }
  }

  lemma DivMod(x: int, n: int)
    requires 0 < n
    ensures x == (x / n) * n + x % n && 0 <= x % n < n
  {
  }

  /** The remainder is the only one in range. */
  lemma ModUnique(x: int, n: int, q: int, r: int)
    requires 0 <= r < n && x == q * n + r
    ensures x % n == r
  {
    DivMod(x, n);
    var d := q - x / n;
    assert d * n == x % n - r;
    SmallMultiple(d, n);
  }

  lemma SmallMultiple(d: int, n: int)
    requires 0 < n && -n < d * n < n
    ensures d == 0
  {
    if d > 0 {
      MulAtLeast(d, n);
    } else if d < 0 {
      MulAtLeast(-d, n);
    }
  }

  lemma {:induction false} MulAtLeast(d: int, n: int)
    requires d >= 1 && n > 0
    ensures d * n >= n
    ensures (-d) * n <= -n
  {
    if d > 1 {
      MulAtLeast(d - 1, n);
      assert d * n == (d - 1) * n + n;
    }
  }

  /** The lightbox: closed, or open on one image. */
  datatype Lightbox = Closed | Open(index: int)

  /** The counter under the open image, "i+1 / n". */
  function Counter(i: int, n: int): (c: (int, int))
    requires 0 <= i < n
    ensures 1 <= c.0 <= c.1 && c.1 == n
  {
    (i + 1, n)
  }

  /** `handleImageClick(index)` on a shown image. The grid, and so every way
      to open the lightbox, is only drawn when there is at least one image. */
  function Click(n: int, index: int): (b: Lightbox)
    requires 0 <= index < n
    ensures b.Open? && 0 <= b.index < n
  {
    Open(index)
  }

  /** The arrows keep an open lightbox on a valid image. */
  function Step(b: Lightbox, n: int, forward: bool): (b': Lightbox)
    requires b.Open? ==> 0 <= b.index < n
    ensures b'.Open? <==> b.Open?
    ensures b'.Open? ==> 0 <= b'.index < n
  {
    match b
    case Closed => Closed
    case Open(i) => Open(if forward then Next(i, n) else Prev(i, n))
  }
}

=== FILE: image_size.dfy ===
/** The size rule of the image compressor: the longer side is brought down
    to its limit and the other side scaled in proportion, rounded to a
    whole pixel. */
module ImageSize {

  const DefaultMax := 1200
  const ThumbnailSize := 150

  /** `Math.round(p / q)` for `q > 0`: the nearest integer, halves rounded
      up. */
  function RoundDiv(p: int, q: int): (r: int)
    requires q > 0
    ensures 2 * (r * q) - q <= 2 * p < 2 * (r * q) + q
  {
    (2 * p + q) / (2 * q)
  }

  /** Rounding is monotone in the numerator. */
  lemma RoundDivMonotone(p1: int, p2: int, q: int)
    requires q > 0 && p1 <= p2
    ensures RoundDiv(p1, q) <= RoundDiv(p2, q)
  {
    var r1, r2 := RoundDiv(p1, q), RoundDiv(p2, q);
    if r1 > r2 {
      MulMonotone(r2 + 1, r1, q);
    }
  }

  lemma MulMonotone(a: int, b: int, q: int)
    requires a <= b && q >= 0
    ensures a * q <= b * q
  {
    assert b * q - a * q == (b - a) * q;
  }

  /** A side `x` scaled by `num / den` with `num <= den` stays within `x`,
      and within `num` when `x <= den`. */
  lemma ScaledWithin(x: int, num: int, den: int)
    requires 0 <= x && 0 < num <= den
    ensures RoundDiv(x * num, den) <= x
    ensures x <= den ==> RoundDiv(x * num, den) <= num
  {
    var r := RoundDiv(x * num, den);
    MulMonotone(num, den, x);
    assert x * num <= x * den;
    RoundedAtMost(r, x * num, x, den);
    if x <= den {
      MulMonotone(x, den, num);
      RoundedAtMost(r, x * num, num, den);
    }
  }

  /** A rounded quotient of `p <= y * den` by `den` is at most `y`. */
  lemma RoundedAtMost(r: int, p: int, y: int, den: int)
    requires den > 0 && 2 * (r * den) - den <= 2 * p && p <= y * den
    ensures r <= y
  {
    StepUp(r, y, den);
  }

  lemma StepUp(r: int, y: int, den: int)
    requires den > 0
    ensures r >= y + 1 ==> r * den >= y * den + den
  {
    if r >= y + 1 {
      MulMonotone(y + 1, r, den);
    }
  }

  /** The width and height `compressImage` draws at, for an image of `w` by
      `h` pixels and the limits `maxW` and `maxH`. A wide image is governed
      by its width, any other by its height. */
  function Fit(w: int, h: int, maxW: int, maxH: int): (d: (int, int))
    requires w > 0 && h > 0 && maxW > 0 && maxH > 0
    ensures w > h && w > maxW ==> d == (maxW, RoundDiv(h * maxW, w))
    ensures w <= h && h > maxH ==> d == (RoundDiv(w * maxH, h), maxH)
    ensures (w > h && w <= maxW) || (w <= h && h <= maxH) ==> d == (w, h)
  {
    if w > h then
      if w > maxW then (maxW, RoundDiv(h * maxW, w)) else (w, h)
    else
      if h > maxH then (RoundDiv(w * maxH, h), maxH) else (w, h)
  }

  /** The output never grows, and with one limit for both sides (the
      default and the thumbnail) both sides end within it. */
  lemma FitShrinks(w: int, h: int, maxW: int, maxH: int)
    requires w > 0 && h > 0 && maxW > 0 && maxH > 0
    ensures Fit(w, h, maxW, maxH).0 <= w && Fit(w, h, maxW, maxH).1 <= h
    ensures maxW == maxH ==> Fit(w, h, maxW, maxH).0 <= maxW && Fit(w, h, maxW, maxH).1 <= maxH
  {
    if w > h && w > maxW {
      ScaledWithin(h, maxW, w);
    } else if w <= h && h > maxH {
      ScaledWithin(w, maxH, h);
    }
  }

  /** The drawn size keeps the image's proportions to within half a pixel
      on the side that is scaled. */
  lemma FitKeepsAspect(w: int, h: int, maxW: int, maxH: int)
    requires w > 0 && h > 0 && maxW > 0 && maxH > 0
    ensures var d := Fit(w, h, maxW, maxH);
            w > h ==> -w < 2 * (d.1 * w - h * d.0) <= w
    ensures var d := Fit(w, h, maxW, maxH);
            w <= h ==> -h < 2 * (d.0 * h - w * d.1) <= h
  {
  }

  /** `generateThumbnail(file, size)`: the same rule with both limits
      `size`. */
  function Thumbnail(w: int, h: int, size: int): (d: (int, int))
    requires w > 0 && h > 0 && size > 0
    ensures d.0 <= size && d.1 <= size && d.0 <= w && d.1 <= h
  {
    FitShrinks(w, h, size, size);
    Fit(w, h, size, size)
  }
}

=== FILE: middleware.dfy ===
/** The server's authentication middleware: the `Authorization: Bearer …`
    header, token verification (an oracle standing for `jwt.verify`), and
    the status for each kind of failure. */
module AuthMiddleware {
  import opened Wrappers
  import Strings

  /** The claims the login route signs: `{ userId, username, email }`. */
  datatype Claims = Claims(userId: int, username: string, email: string)

  /** What `jwt.verify` does with a token: returns the claims, or throws an
      error of one of these classes. */
  datatype Verdict =
    | Decoded(claims: Claims)
    | JsonWebTokenError
    | TokenExpiredError
    | OtherError

  /** `req.user`: `{ id, username, email }`. */
  datatype RequestUser = RequestUser(id: int, username: string, email: string)

  /** The middleware's decision: call `next` with `req.user` set, or answer
      with a status and a message. */
  datatype Decision = Next(user: RequestUser) | Deny(status: int, message: string)

  const Prefix := "Bearer "

  /** `authHeader.startsWith('Bearer ') ? authHeader.substring(7) : none`.
      A missing header and an empty one are both refused. */
  function BearerToken(header: Option<string>): (t: Option<string>)
    ensures t.Some? <==> header.Some? && Strings.StartsWith(header.value, Prefix)
    ensures t.Some? ==> header.value == Prefix + t.value
  {
    if header.Some? && Strings.StartsWith(header.value, Prefix) then
      assert header.value == header.value[..7] + header.value[7..];
      Some(header.value[7..])
    else None
  }

  /** The token of a well-formed header is the text after the prefix. */
  lemma BearerRoundTrip(token: string)
    ensures BearerToken(Some(Prefix + token)) == Some(token)
  {
    assert (Prefix + token)[..7] == Prefix;
  }

  /** `authMiddleware`. */
  function Authenticate(header: Option<string>, verify: string -> Verdict): (d: Decision)
    ensures BearerToken(header).None? ==> d == Deny(401, "No token provided. Please login.")
    ensures d.Next? <==> BearerToken(header).Some? && verify(BearerToken(header).value).Decoded?
    ensures d.Next? ==>
      var c := verify(BearerToken(header).value).claims;
      d.user == RequestUser(c.userId, c.username, c.email)
    ensures d.Deny? ==> d.status in {401, 500}
    ensures d.Deny? && d.status == 500 <==> BearerToken(header).Some? && verify(BearerToken(header).value).OtherError?
  {
    match BearerToken(header)
    case None => Deny(401, "No token provided. Please login.")
    case Some(token) =>
      match verify(token)
      case Decoded(c) => Next(RequestUser(c.userId, c.username, c.email))
      case JsonWebTokenError => Deny(401, "Invalid token. Please login again.")
      case TokenExpiredError => Deny(401, "Token expired. Please login again.")
      case OtherError => Deny(500, "Authentication error")
  }

  /** A malformed token and an expired one are both 401, with different
      messages; any other failure is 500. */
  lemma FailureStatuses(token: string, verify: string -> Verdict)
    ensures verify(token).JsonWebTokenError? ==>
      Authenticate(Some(Prefix + token), verify) == Deny(401, "Invalid token. Please login again.")
    ensures verify(token).TokenExpiredError? ==>
      Authenticate(Some(Prefix + token), verify) == Deny(401, "Token expired. Please login again.")
    ensures verify(token).OtherError? ==>
      Authenticate(Some(Prefix + token), verify) == Deny(500, "Authentication error")
  {
    BearerRoundTrip(token);
  }
}

=== FILE: notification.dfy ===
/** The browser reminders: the permission guard, when the daily reminder
    fires next, which streak reminder is sent, and cancelling a timer. The
    Notification API, timers and the clock are parameters. */
module Notification {
  import opened Wrappers
  import Strings

  // ---------------------------------------------------------------------------
  // Permission
  // ---------------------------------------------------------------------------

  /** `Notification.permission`. */
  datatype Permission = Granted | Denied | Default

  /** `requestNotificationPermission`: `supported` is whether the browser has
      notifications and `answer` what the user picks if asked. The user is
      asked only when the permission is still undecided. */
  function RequestPermission(supported: bool, current: Permission, answer: Permission): (ok: bool)
    ensures ok <==> supported && (current == Granted || (current == Default && answer == Granted))
  {
    if !supported then false
    else if current == Granted then true
    else if current != Denied then answer == Granted
    else false
  }

  /** `Notification.permission` once the request has settled: the user's
      answer when they were asked, the old value otherwise. */
  function PermissionAfter(supported: bool, current: Permission, answer: Permission): (p: Permission)
    ensures supported && current == Default ==> p == answer
    ensures !supported || current != Default ==> p == current
  {
    if supported && current == Default then answer else current
  }

  /** A notification as shown. */
  datatype Shown = Shown(title: string, icon: string, badge: string, body: Option<string>, tag: Option<string>)

  /** The options a caller passes; a missing icon or badge takes the
      default. */
  datatype Options = Options(icon: Option<string>, badge: Option<string>, body: Option<string>, tag: Option<string>)

  const DefaultIcon := "/logo192.png"
  const DefaultBadge := "/badge-72x72.png"

  /** `sendNotification(title, options)`: nothing is shown unless permission
      is granted. */
  function Send(permission: Permission, title: string, o: Options): (n: Option<Shown>)
    ensures n.Some? <==> permission == Granted
    ensures n.Some? ==> n.value.title == title && n.value.body == o.body && n.value.tag == o.tag
    ensures n.Some? ==> n.value.icon == o.icon.GetOr(DefaultIcon) && n.value.badge == o.badge.GetOr(DefaultBadge)
  {
    if permission != Granted then None
    else Some(Shown(title, o.icon.GetOr(DefaultIcon), o.badge.GetOr(DefaultBadge), o.body, o.tag))
  }

  /** The request reports success exactly when a notification sent
      afterwards is shown; once permission is granted the request succeeds
      whatever the user would answer, and without it nothing is shown. */
  lemma RequestThenSend(supported: bool, current: Permission, answer: Permission, title: string, o: Options)
    ensures RequestPermission(supported, current, answer)
            <==> supported && Send(PermissionAfter(supported, current, answer), title, o).Some?
    ensures Send(current, title, o).Some? ==> forall a :: RequestPermission(true, current, a)
    ensures Send(current, title, o).None? ==> current != Granted
  {
  }

  // ---------------------------------------------------------------------------
  // The daily reminder
  // ---------------------------------------------------------------------------

  /** One day in milliseconds (days are taken to be 24 hours long). */
  const Day := 86400000

  /** The reminder's time of day, `hours:minutes:00`, in milliseconds after
      midnight. Out-of-range hours or minutes carry over as the `Date`
      constructor does. */
  function Offset(hours: int, minutes: int): (t: int)
    ensures 0 <= hours < 24 && 0 <= minutes < 60 ==> 0 <= t < Day
    ensures t % 60000 == 0 && t / 60000 == hours * 60 + minutes
  {
    hours * 3600000 + minutes * 60000
  }

  /** `scheduleNext` at `now`, where `midnight` is the start of the current
      day: the instant the reminder fires. */
  function NextFire(midnight: int, now: int, offset: int): (fire: int)
    ensures midnight + offset > now ==> fire == midnight + offset
    ensures midnight + offset <= now ==> fire == midnight + offset + Day
  {
    var today := midnight + offset;
    if today <= now then today + Day else today
  }

  /** For a time of day within the day, the delay is positive and at most a
      day, and the reminder fires at the first instant after `now` with that
      time of day. */
  lemma NextFireIsFirst(midnight: int, now: int, offset: int, k: int)
    requires midnight <= now < midnight + Day
    requires 0 <= offset < Day
    ensures 0 < NextFire(midnight, now, offset) - now <= Day
    ensures midnight + k * Day + offset > now ==> NextFire(midnight, now, offset) <= midnight + k * Day + offset
  {
  }

  // ---------------------------------------------------------------------------
  // The streak reminder
  // ---------------------------------------------------------------------------

  const Fire := "\U{1F525} "

  /** `sendStreakReminder(currentStreak)`: the title and body chosen. */
  function StreakReminder(streak: int): (m: (string, string))
    ensures streak == 0 ==> m.0 == Fire + "Start Your Streak!"
    ensures streak >= 7 ==> m.0 == Fire + Strings.NatText(streak) + " Day Streak!"
    ensures streak != 0 && streak < 7 ==> m.0 == Fire + "Keep It Going!"
    ensures streak == 0 ==> m.1 == "Begin tracking your progress today!"
    ensures streak >= 7 ==> m.1 == "Don't break your amazing streak! Log your progress."
    ensures streak != 0 && streak < 7 ==>
              |m.1| > |ShortPrefix| + |ShortSuffix|
              && m.1[..|ShortPrefix|] == ShortPrefix && m.1[|m.1| - |ShortSuffix|..] == ShortSuffix
  {
    if streak == 0 then (Fire + "Start Your Streak!", "Begin tracking your progress today!")
    else if streak >= 7 then (Fire + Strings.NatText(streak) + " Day Streak!", "Don't break your amazing streak! Log your progress.")
    else (Fire + "Keep It Going!", ShortPrefix + StreakText(streak) + ShortSuffix)
  }

  const ShortPrefix := "You're on a "
  const ShortSuffix := " day streak. Keep it up!"

  /** The streak as `${n}` prints it. */
  function StreakText(n: int): (s: string)
    ensures n >= 0 ==> s == Strings.NatText(n)
    ensures n < 0 ==> s == "-" + Strings.NatText(-n)
  {
    if n >= 0 then Strings.NatText(n) else "-" + Strings.NatText(-n)
  }

  /** A long streak's title carries the streak: the text between the prefix
      and " Day Streak!" reads back as the number. */
  lemma LongStreakTitleReadsBack(streak: int)
    requires streak >= 7
    ensures var t := StreakReminder(streak).0;
            var digits := t[|Fire|..|t| - |" Day Streak!"|];
            Strings.AllDigits(digits) && Strings.ParseDigits(digits) == streak
  {
    var t := StreakReminder(streak).0;
    assert t[|Fire|..|t| - |" Day Streak!"|] == Strings.NatText(streak);
  }

  /** A short streak's body carries the streak: the text between "You're on
      a " and " day streak. Keep it up!" reads back as the number (with a
      minus sign when it is negative). */
  lemma ShortStreakBodyReadsBack(streak: int)
    requires streak != 0 && streak < 7
    ensures var b := StreakReminder(streak).1;
            var mid := b[|ShortPrefix|..|b| - |ShortSuffix|];
            (streak > 0 ==> Strings.AllDigits(mid) && Strings.ParseDigits(mid) == streak)
            && (streak < 0 ==> |mid| > 1 && mid[0] == '-' && Strings.AllDigits(mid[1..]) && Strings.ParseDigits(mid[1..]) == -streak)
  {
    var b := StreakReminder(streak).1;
    assert b[|ShortPrefix|..|b| - |ShortSuffix|] == StreakText(streak);
  }

  // ---------------------------------------------------------------------------
  // Cancelling
  // ---------------------------------------------------------------------------

  /** `cancelReminder(timerId)` over the pending timers: only a truthy id
      (present and not 0) is cleared. */
  function Cancel(pending: set<int>, timerId: Option<int>): (r: set<int>)
    ensures timerId.None? || timerId == Some(0) ==> r == pending
    ensures timerId.Some? && timerId.value != 0 ==> r == pending - {timerId.value}
  {
    match timerId
    case Some(id) => if id != 0 then pending - {id} else pending
    case None => pending
  }

  /** Cancelling leaves no cleared timer pending, keeps every other timer,
      and a second cancel of the same id changes nothing. */
  lemma CancelOnce(pending: set<int>, timerId: Option<int>)
    ensures timerId.Some? && timerId.value != 0 ==> timerId.value !in Cancel(pending, timerId)
    ensures forall t :: t in pending && timerId != Some(t) ==> t in Cancel(pending, timerId)
    ensures Cancel(pending, timerId) <= pending
    ensures Cancel(Cancel(pending, timerId), timerId) == Cancel(pending, timerId)
  {
  }
}

=== FILE: progress.dfy ===
/** The server's progress routes over an abstract `progress` table: the
    per-user reads, the month range, creating an entry, the image-list merge
    of an update, and deletion. Every route runs behind the authentication
    middleware, so the caller's user id `uid` is given. */
module ProgressRoutes {
  import opened Wrappers
  import opened Dates
  import opened Entries
  import opened Sorting
  import Strings

  /** The `progress` table: its rows. */
  type Table = seq<Entry>

  /** The primary key: no two rows share an id. */
  predicate UniqueIds(t: Table) {
    forall i, j :: 0 <= i < j < |t| ==> t[i].id != t[j].id
  }

  /** Every stored row has a date: creating a row requires one. */
  predicate Stored(t: Table) {
    UniqueIds(t) && AllDated(t)
  }

  /** How a request ends. `UploadRejected` is the upload middleware refusing
      a request with more than five files before the handler runs;
      `ServerError` is the catch-all 500. */
  datatype Status = Ok | Created | BadRequest | NotFound | ServerError | UploadRejected

  function StatusCode(s: Status): (code: int)
    requires !s.UploadRejected?
  {
    match s
    case Ok => 200
    case Created => 201
    case BadRequest => 400
    case NotFound => 404
    case ServerError => 500
  }

  /** The status, the table afterwards, and the row sent back, if any. */
  datatype Outcome = Outcome(status: Status, table: Table, row: Option<Entry>)

  /** `upload.array('gambar', 5)`. */
  const MaxFiles := 5

  // ---------------------------------------------------------------------------
  // Reads
  // ---------------------------------------------------------------------------

  /** Oldest first: `.order('tanggal', { ascending: true })`. */
  function NegDay(e: Entry): int {
    -DayOrZero(e)
  }

  predicate OldestFirst(s: seq<Entry>) {
    AllDated(s) && forall i, j :: 0 <= i < j < |s| ==> Day(s[i]) <= Day(s[j])
  }

  /** Part of a dated list is dated. */
  lemma SubDated(r: seq<Entry>, t: seq<Entry>)
    requires AllDated(t) && multiset(r) <= multiset(t)
    ensures AllDated(r)
  {
    forall i | 0 <= i < |r|
      ensures HasValidDate(r[i])
    {
      assert r[i] in multiset(r);
      assert r[i] in multiset(t);
      var k :| 0 <= k < |t| && t[k] == r[i];
    }
  }

  function SortOldestFirst(s: seq<Entry>): (r: seq<Entry>)
    requires AllDated(s)
    ensures OldestFirst(r)
    ensures multiset(r) == multiset(s)
  {
    var r := SortBy(s, NegDay);
    SubDated(r, s);
    assert forall i, j :: 0 <= i < j < |r| ==> NegDay(r[i]) >= NegDay(r[j]);
    r
  }

  /** `GET /all`: the caller's rows, oldest first. */
  function ListAll(t: Table, uid: int): (r: seq<Entry>)
    requires Stored(t)
    ensures OldestFirst(r)
    ensures forall e :: multiset(r)[e] == if e.userId == uid then multiset(t)[e] else 0
  {
    var mine := Filter(t, (e: Entry) => e.userId == uid);
    SubDated(mine, t);
    SortOldestFirst(mine)
  }

  /** `new Date(year, month, 0).getDate()`: day 0 of the 0-based month
      `month` is the last day of the month before it, so for `1..12` this is
      the length of month `month`, for 0 the length of December, and for a
      larger month the length of the month that many months on. */
  function LastDay(year: int, month: int): (n: int)
    requires 0 <= month
    ensures 28 <= n <= 31
    ensures 1 <= month <= 12 ==> n == DaysInMonth(year, month)
  {
    if month == 0 then 31 else DaysInMonth(year + (month - 1) / 12, (month - 1) % 12 + 1)
  }

  /** The inclusive bounds of `GET /?month=&year=`: `YYYY-MM-01` and
      `YYYY-MM-<last day>`. The last day is 28 to 31, so it has two digits
      without padding. For a month in 1..12 they are the keys of the month's
      first and last days. */
  function MonthBounds(year: int, month: int): (b: (string, string))
    requires 1000 <= year <= 9999 && 0 <= month <= 99
    ensures 1 <= month <= 12 ==> b.0 == DateKey(Date(year, month, 1))
    ensures 1 <= month <= 12 ==> b.1 == DateKey(Date(year, month, DaysInMonth(year, month)))
    ensures b.0 == Strings.Digits(year, 4) + ("-" + (Strings.Digits(month, 2) + ("-" + "01")))
    ensures b.1 == Strings.Digits(year, 4) + ("-" + (Strings.Digits(month, 2) + ("-" + Strings.Digits(LastDay(year, month), 2))))
  {
    var last := LastDay(year, month);
    var lastText := Strings.NatText(last);
    Strings.TwoDigitText(last);
    Strings.FirstOfMonthText();
    (Strings.Digits(year, 4) + ("-" + (Strings.Digits(month, 2) + ("-" + "01"))),
     Strings.Digits(year, 4) + ("-" + (Strings.Digits(month, 2) + ("-" + lastText))))
  }

  /** String order on date keys: at most. */
  lemma KeyAtMost(a: Date, b: Date)
    requires Valid(a) && Valid(b)
    ensures Strings.LessEq(DateKey(a), DateKey(b)) <==> !Before(b, a)
  {
    DateKeyOrder(a, b);
    if DateKey(a) == DateKey(b) {
      DateKeyInjective(a, b);
    }
  }

  /** Keys of the shape `YYYY-MM-…` compare by year, then by month,
      whatever follows. */
  lemma PrefixDecides(y1: nat, m1: nat, r1: string, y2: nat, m2: nat, r2: string)
    requires y1 < 10000 && y2 < 10000 && m1 < 100 && m2 < 100
    requires y1 < y2 || (y1 == y2 && m1 < m2)
    ensures Strings.Less(Strings.Digits(y1, 4) + ("-" + (Strings.Digits(m1, 2) + ("-" + r1))),
                         Strings.Digits(y2, 4) + ("-" + (Strings.Digits(m2, 2) + ("-" + r2))))
  {
    assert Strings.Pow10(4) == 10000 && Strings.Pow10(2) == 100;
    var a1, a2 := Strings.Digits(m1, 2) + ("-" + r1), Strings.Digits(m2, 2) + ("-" + r2);
    Strings.LessConcat(Strings.Digits(y1, 4), "-" + a1, Strings.Digits(y2, 4), "-" + a2);
    Strings.DigitsOrder(y1, y2, 4);
    if y1 == y2 {
      Strings.LessConcat("-", a1, "-", a2);
      Strings.LessIrreflexive("-");
      Strings.LessConcat(Strings.Digits(m1, 2), "-" + r1, Strings.Digits(m2, 2), "-" + r2);
      Strings.DigitsOrder(m1, m2, 2);
    }
  }

  /** Month 0 and months 13 to 99 give bounds that no date key lies
      between: a key of the same year has a month in 1..12, above `00` and
      below `13`. */
  lemma MonthBoundsOutside(year: int, month: int, d: Date)
    requires 1000 <= year <= 9999 && (month == 0 || 13 <= month <= 99) && Valid(d)
    ensures var b := MonthBounds(year, month);
            !(Strings.LessEq(b.0, DateKey(d)) && Strings.LessEq(DateKey(d), b.1))
  {
    var b := MonthBounds(year, month);
    var rest := Strings.Digits(d.day, 2);
    if d.year < year || (d.year == year && month >= 13) {
      PrefixDecides(d.year, d.month, rest, year, month, "01");
      Strings.LessAsymmetric(DateKey(d), b.0);
    } else {
      PrefixDecides(year, month, Strings.Digits(LastDay(year, month), 2), d.year, d.month, rest);
      Strings.LessAsymmetric(b.1, DateKey(d));
    }
  }

  /** The bounds admit a date exactly when it is in the requested month. */
  lemma MonthBoundsAdmit(year: int, month: int, d: Date)
    requires 1000 <= year <= 9999 && 1 <= month <= 12 && Valid(d)
    ensures var b := MonthBounds(year, month);
            Strings.LessEq(b.0, DateKey(d)) && Strings.LessEq(DateKey(d), b.1)
            <==> d.year == year && d.month == month
  {
    KeyAtMost(Date(year, month, 1), d);
    KeyAtMost(d, Date(year, month, DaysInMonth(year, month)));
  }

  /** The row passes the month filter. */
  predicate InBounds(e: Entry, b: (string, string)) {
    Strings.LessEq(b.0, Tanggal(e)) && Strings.LessEq(Tanggal(e), b.1)
  }

  /** `GET /`: the caller's rows, restricted to one month when both `month`
      and `year` are given, oldest first. */
  function ListMonth(t: Table, uid: int, month: Option<int>, year: Option<int>): (r: seq<Entry>)
    requires Stored(t)
    requires month.Some? && year.Some? ==> 1000 <= year.value <= 9999 && 0 <= month.value <= 99
    ensures OldestFirst(r)
    ensures forall e :: multiset(r)[e] ==
              if e.userId == uid && (month.Some? && year.Some? ==> InBounds(e, MonthBounds(year.value, month.value)))
              then multiset(t)[e] else 0
  {
    var mine := Filter(t, (e: Entry) => e.userId == uid);
    FilterDated(t, (e: Entry) => e.userId == uid);
    if month.Some? && year.Some? then
      var b := MonthBounds(year.value, month.value);
      var rows := Filter(mine, (e: Entry) => InBounds(e, b));
      FilterDated(mine, (e: Entry) => InBounds(e, b));
      SortOldestFirst(rows)
    else
      SortOldestFirst(mine)
  }

  /** Filtering dated rows leaves dated rows. */
  lemma FilterDated(t: seq<Entry>, p: Entry -> bool)
    requires AllDated(t)
    ensures AllDated(Filter(t, p))
  {
    var r := Filter(t, p);
    assert forall e :: multiset(r)[e] <= multiset(t)[e];
    SubDated(r, t);
  }

  /** For a stored (dated) row the month filter is the calendar month. */
  lemma ListMonthIsMonth(t: Table, uid: int, month: int, year: int, e: Entry)
    requires Stored(t) && 1000 <= year <= 9999 && 1 <= month <= 12
    requires e in t
    ensures e in ListMonth(t, uid, Some(month), Some(year))
            <==> e.userId == uid && e.date.value.year == year && e.date.value.month == month
  {
    var k :| 0 <= k < |t| && t[k] == e;
    MonthBoundsAdmit(year, month, e.date.value);
    var r := ListMonth(t, uid, Some(month), Some(year));
    assert e in r <==> multiset(r)[e] > 0;
  }

  /** A month outside 1..12 lists nothing. */
  lemma ListMonthOutside(t: Table, uid: int, month: int, year: int)
    requires Stored(t) && 1000 <= year <= 9999 && (month == 0 || 13 <= month <= 99)
    ensures ListMonth(t, uid, Some(month), Some(year)) == []
  {
    var r := ListMonth(t, uid, Some(month), Some(year));
    if |r| > 0 {
      var e := r[0];
      assert multiset(r)[e] > 0;
      assert e in multiset(t);
      var k :| 0 <= k < |t| && t[k] == e;
      MonthBoundsOutside(year, month, e.date.value);
      assert false;
    }
  }

  /** The caller's row with this id: the row `.eq('id').eq('user_id')`
      selects. */
  function Fetch(t: Table, uid: int, id: int): (r: Option<Entry>)
    ensures r.Some? ==> r.value in t && r.value.id == id && r.value.userId == uid
    ensures r.None? ==> forall i :: 0 <= i < |t| ==> !(t[i].id == id && t[i].userId == uid)
  {
    if |t| == 0 then None
    else if t[0].id == id && t[0].userId == uid then Some(t[0])
    else Fetch(t[1..], uid, id)
  }

  /** `GET /:id`. */
  function GetOne(t: Table, uid: int, id: int): (o: Outcome)
    ensures o.table == t
    ensures o.status == Ok <==> exists i :: 0 <= i < |t| && t[i].id == id && t[i].userId == uid
    ensures o.status != Ok ==> o.status == NotFound && o.row.None?
    ensures o.row.Some? ==> o.row.value in t && o.row.value.id == id && o.row.value.userId == uid
  {
    match Fetch(t, uid, id)
    case Some(e) => Outcome(Ok, t, Some(e))
    case None => Outcome(NotFound, t, None)
  }

  /** What `.single()` hands back for the rows a query selects: the row when
      there is exactly one, otherwise an error (no row and several rows
      alike). */
  function Single(rows: seq<Entry>): (r: Option<Entry>)
    ensures r.Some? <==> |rows| == 1
    ensures r.Some? ==> r.value in rows
  {
    if |rows| == 1 then Some(rows[0]) else None
  }

  /** `GET /:id` as written: `.single()` turns a missing row into an error,
      which is thrown and answered with 500 before the `!data` test, so the
      404 branch is never taken. */
  function GetOneAsWritten(t: Table, uid: int, id: int): (o: Outcome)
    ensures o.table == t
    ensures o.status != NotFound
    ensures o.status == Ok <==> Count(t, (e: Entry) => e.id == id && e.userId == uid) == 1
    ensures o.row.Some? ==> o.row.value in t && o.row.value.id == id && o.row.value.userId == uid
  {
    var rows := Filter(t, (e: Entry) => e.id == id && e.userId == uid);
    match Single(rows)
    case None => Outcome(ServerError, t, None)
    case Some(e) =>
      assert e in multiset(rows);
      Outcome(Ok, t, Some(e))
  }

  /** A request for a row the caller does not have gets 500 as written,
      where the route means to answer 404 (and `GetOne` does). */
  lemma MissingRowIs500(t: Table, uid: int, id: int)
    requires forall i :: 0 <= i < |t| ==> !(t[i].id == id && t[i].userId == uid)
    ensures GetOneAsWritten(t, uid, id).status == ServerError
    ensures GetOne(t, uid, id).status == NotFound
  {
    CountExtremes(t, (e: Entry) => e.id == id && e.userId == uid);
  }

  /** `GET /date/:date`: the caller's rows on that date, newest `dibuat`
      first. */
  function ListByDate(t: Table, uid: int, date: string): (r: seq<Entry>)
    ensures forall i, j :: 0 <= i < j < |r| ==> r[i].created >= r[j].created
    ensures forall e :: multiset(r)[e] == if e.userId == uid && Tanggal(e) == date then multiset(t)[e] else 0
  {
    var rows := Filter(t, (e: Entry) => e.userId == uid && Tanggal(e) == date);
    var r := SortBy(rows, (e: Entry) => e.created);
    assert forall i, j :: 0 <= i < j < |r| ==> r[i].created >= r[j].created by {
      assert DescendingBy(r, (e: Entry) => e.created);
    }
    r
  }

  // ---------------------------------------------------------------------------
  // Writes
  // ---------------------------------------------------------------------------

  /** `/uploads/<filename>` for each uploaded file, in upload order. */
  function UploadPaths(files: seq<string>): (paths: seq<string>)
    ensures |paths| == |files|
    ensures forall i :: 0 <= i < |files| ==> paths[i] == "/uploads/" + files[i]
  {
    seq(|files|, i requires 0 <= i < |files| => "/uploads/" + files[i])
  }

  /** `POST /`. `tanggal` is "" when missing; a given `tanggal` is a date key.
      `newId` is the id the table assigns and `now` the clock. */
  function Create(t: Table, uid: int, tanggal: string, catatan: Option<string>,
                  files: seq<string>, newId: int, now: int): (o: Outcome)
    requires tanggal == "" || ParseDateKey(tanggal).Some?
    ensures |files| > MaxFiles ==> o.status == UploadRejected && o.table == t
    ensures |files| <= MaxFiles && tanggal == "" ==> o.status == BadRequest && o.table == t
    ensures o.status == Created <==> |files| <= MaxFiles && tanggal != ""
    ensures o.status == Created ==>
      && o.row.Some?
      && o.table == t + [o.row.value]
      && o.row.value.userId == uid
      && Tanggal(o.row.value) == tanggal
      && o.row.value.note == catatan.GetOr("")
      && o.row.value.images == Some(UploadPaths(files))
      && o.row.value.tags.None?
      && o.row.value.created == now == o.row.value.updated
  {
    if |files| > MaxFiles then Outcome(UploadRejected, t, None)
    else if tanggal == "" then Outcome(BadRequest, t, None)
    else
      var d := ParseDateKey(tanggal).value;
      DateKeyOfParseDateKey(tanggal);
      var e := Entry(newId, uid, Some(d), catatan.GetOr(""), None, Some(UploadPaths(files)), now, now);
      Outcome(Created, t + [e], Some(e))
  }

  /** `list.filter(img => img !== path)`. */
  function Without(list: seq<string>, path: string): (r: seq<string>)
    ensures forall x :: x in r <==> x in list && x != path
  {
    if |list| == 0 then []
    else (if list[0] == path then [] else [list[0]]) + Without(list[1..], path)
  }

  /** `removeImages.forEach(p => updated = updated.filter(img => img !== p))`. */
  function RemoveEach(list: seq<string>, paths: seq<string>): seq<string>
    decreases |paths|
  {
    if |paths| == 0 then list else RemoveEach(Without(list, paths[0]), paths[1..])
  }

  /** The declarative reading: the entries of `list` not among `paths`, in
      their order. */
  function Keep(list: seq<string>, paths: seq<string>): (r: seq<string>)
    ensures |r| <= |list|
  {
    if |list| == 0 then []
    else (if list[0] in paths then [] else [list[0]]) + Keep(list[1..], paths)
  }

  lemma {:induction false} KeepWithout(list: seq<string>, x: string, paths: seq<string>)
    ensures Keep(Without(list, x), paths) == Keep(list, [x] + paths)
  {
    if |list| > 0 {
      KeepWithout(list[1..], x, paths);
      var w := Without(list, x);
      if list[0] == x {
        assert w == Without(list[1..], x);
      } else {
        assert w == [list[0]] + Without(list[1..], x);
        assert w[1..] == Without(list[1..], x);
      }
    }
  }

  /** Removing the paths one after another removes exactly the listed paths
      and keeps the order of the rest. */
  lemma {:induction false} RemoveEachIsKeep(list: seq<string>, paths: seq<string>)
    ensures RemoveEach(list, paths) == Keep(list, paths)
    decreases |paths|
  {
    if |paths| == 0 {
      KeepNothing(list);
    } else {
      RemoveEachIsKeep(Without(list, paths[0]), paths[1..]);
      KeepWithout(list, paths[0], paths[1..]);
      assert [paths[0]] + paths[1..] == paths;
    }
  }

  lemma {:induction false} KeepNothing(list: seq<string>)
    ensures Keep(list, []) == list
  {
    if |list| > 0 {
      KeepNothing(list[1..]);
      assert list == [list[0]] + list[1..];
    }
  }

  lemma {:induction false} KeepMembers(list: seq<string>, paths: seq<string>)
    ensures forall x :: x in Keep(list, paths) <==> x in list && x !in paths
  {
    if |list| > 0 {
      KeepMembers(list[1..], paths);
      assert list == [list[0]] + list[1..];
    }
  }

  /** The image list after an update: the old list without the removed
      paths, then the new uploads. */
  function MergedImages(existing: seq<string>, removeImages: Option<seq<string>>, files: seq<string>): (r: seq<string>)
    ensures r == Keep(existing, removeImages.GetOr([])) + UploadPaths(files)
    ensures forall x :: x in r <==> (x in existing && x !in removeImages.GetOr([])) || x in UploadPaths(files)
  {
    var kept := if removeImages.Some? then RemoveEach(existing, removeImages.value) else existing;
    RemoveEachIsKeep(existing, removeImages.GetOr([]));
    KeepMembers(existing, removeImages.GetOr([]));
    KeepNothing(existing);
    if |files| > 0 then kept + UploadPaths(files) else kept
  }

  /** Puts `row` in place of every row with its id (`.update().eq('id', id)`). */
  function Replace(t: Table, row: Entry): (r: Table)
    ensures |r| == |t|
    ensures forall i :: 0 <= i < |t| ==> r[i] == if t[i].id == row.id then row else t[i]
  {
    seq(|t|, i requires 0 <= i < |t| => if t[i].id == row.id then row else t[i])
  }

  /** `PUT /:id`. `catatan` is None when not sent; `removeImages` is the
      parsed list, None when not sent. */
  function Update(t: Table, uid: int, id: int, catatan: Option<string>,
                  removeImages: Option<seq<string>>, files: seq<string>, now: int): (o: Outcome)
    ensures |files| > MaxFiles ==> o.status == UploadRejected && o.table == t
    ensures o.status == Ok <==> |files| <= MaxFiles && Fetch(t, uid, id).Some?
    ensures o.status != Ok ==> o.table == t
    ensures o.status == Ok ==>
      var prev := Fetch(t, uid, id).value;
      && o.row == Some(prev.(note := catatan.GetOr(prev.note),
                            images := Some(Keep(ImageList(prev), removeImages.GetOr([])) + UploadPaths(files)),
                            updated := now))
      && o.table == Replace(t, o.row.value)
  {
    if |files| > MaxFiles then Outcome(UploadRejected, t, None)
    else match Fetch(t, uid, id)
      case None => Outcome(NotFound, t, None)
      case Some(prev) =>
        var row := prev.(note := if catatan.Some? then catatan.value else prev.note,
                         images := Some(MergedImages(ImageList(prev), removeImages, files)),
                        updated := now);
        Outcome(Ok, Replace(t, row), Some(row))
  }

  /** `DELETE /:id`. */
  function Delete(t: Table, uid: int, id: int): (o: Outcome)
    ensures o.status == Ok <==> Fetch(t, uid, id).Some?
    ensures o.status != Ok ==> o.status == NotFound && o.table == t
    ensures o.status == Ok ==> forall e :: multiset(o.table)[e] == if e.id == id then 0 else multiset(t)[e]
  {
    match Fetch(t, uid, id)
    case None => Outcome(NotFound, t, None)
    case Some(_) => Outcome(Ok, Filter(t, (e: Entry) => e.id != id), None)
  }

  // ---------------------------------------------------------------------------
  // Ownership
  // ---------------------------------------------------------------------------

  /** With unique ids, an update or a delete by `uid` leaves every row of
      another user as it was. */
  lemma WritesStayWithOwner(t: Table, uid: int, id: int, catatan: Option<string>,
                            removeImages: Option<seq<string>>, files: seq<string>, now: int, e: Entry)
    requires UniqueIds(t) && e.userId != uid
    ensures multiset(Update(t, uid, id, catatan, removeImages, files, now).table)[e] == multiset(t)[e]
    ensures multiset(Delete(t, uid, id).table)[e] == multiset(t)[e]
  {
    UpdateKeepsOthers(t, uid, id, catatan, removeImages, files, now, e);
    DeleteKeepsOthers(t, uid, id, e);
  }

  lemma UpdateKeepsOthers(t: Table, uid: int, id: int, catatan: Option<string>,
                          removeImages: Option<seq<string>>, files: seq<string>, now: int, e: Entry)
    requires UniqueIds(t) && e.userId != uid
    ensures multiset(Update(t, uid, id, catatan, removeImages, files, now).table)[e] == multiset(t)[e]
  {
    var o := Update(t, uid, id, catatan, removeImages, files, now);
    if o.status == Ok {
      var prev := Fetch(t, uid, id).value;
      var k :| 0 <= k < |t| && t[k] == prev;
      assert forall i :: 0 <= i < |t| && t[i].id == id ==> i == k;
      assert o.table == t[k := o.row.value];
      UpdateAtKeeps(t, k, o.row.value, e);
    }
  }

  lemma DeleteKeepsOthers(t: Table, uid: int, id: int, e: Entry)
    requires UniqueIds(t) && e.userId != uid
    ensures multiset(Delete(t, uid, id).table)[e] == multiset(t)[e]
  {
    var f := Fetch(t, uid, id);
    if f.Some? && e.id == id {
      var k :| 0 <= k < |t| && t[k] == f.value;
      assert forall i :: 0 <= i < |t| && t[i].id == id ==> i == k;
      assert e !in t;
    }
  }

  /** Overwriting one position with another value leaves the count of a
      third value unchanged. */
  lemma UpdateAtKeeps(t: seq<Entry>, k: int, v: Entry, e: Entry)
    requires 0 <= k < |t| && t[k] != e && v != e
    ensures multiset(t[k := v])[e] == multiset(t)[e]
  {
  }

  /** Creating keeps the table's invariant when the new id is fresh. */
  lemma CreateKeepsStored(t: Table, uid: int, tanggal: string, catatan: Option<string>,
                          files: seq<string>, newId: int, now: int)
    requires Stored(t) && (tanggal == "" || ParseDateKey(tanggal).Some?)
    requires forall i :: 0 <= i < |t| ==> t[i].id != newId
    ensures Stored(Create(t, uid, tanggal, catatan, files, newId, now).table)
  {
  }
}

=== FILE: progress_form.dfy ===
/** The entry form's bookkeeping: the note, the images the entry already
    has, the files chosen for upload, the images marked for removal, and
    the request `handleSave` sends. */
module ProgressForm {
  import opened Wrappers
  import opened Entries
  import ProgressRoutes

  /** The form's state. `newImages` are the chosen files, by the name the
      server will store each under. */
  datatype FormState = FormState(catatan: string, existingImages: seq<string>,
                                 newImages: seq<string>, imagesToRemove: seq<string>)

  /** The state the form opens in: from the entry being edited, or blank. */
  function Init(existing: Option<Entry>): (st: FormState)
    ensures st.newImages == [] && st.imagesToRemove == []
    ensures existing.None? ==> st == FormState("", [], [], [])
    ensures existing.Some? ==> st.catatan == existing.value.note && st.existingImages == ImageList(existing.value)
  {
    match existing
    case None => FormState("", [], [], [])
    case Some(e) => FormState(e.note, ImageList(e), [], [])
  }

  /** `handleImageChange`: the chosen files go after those chosen before. */
  function AddFiles(st: FormState, files: seq<string>): (st': FormState)
    ensures st'.catatan == st.catatan && st'.existingImages == st.existingImages && st'.imagesToRemove == st.imagesToRemove
    ensures |st'.newImages| == |st.newImages| + |files|
    ensures st'.newImages[..|st.newImages|] == st.newImages && st'.newImages[|st.newImages|..] == files
  {
    st.(newImages := st.newImages + files)
  }

  /** `handleRemoveExistingImage(path)`: the path is marked for removal and
      no longer shown. */
  function RemoveExisting(st: FormState, path: string): (st': FormState)
    ensures st'.imagesToRemove == st.imagesToRemove + [path]
    ensures forall x :: x in st'.existingImages <==> x in st.existingImages && x != path
    ensures st'.catatan == st.catatan && st'.newImages == st.newImages
  {
    st.(imagesToRemove := st.imagesToRemove + [path],
        existingImages := ProgressRoutes.Without(st.existingImages, path))
  }

  /** `handleRemoveNewImage(index)`: the file at that position goes, the
      others keep their order; an index out of range removes nothing. */
  function RemoveNew(st: FormState, index: int): (st': FormState)
    ensures 0 <= index < |st.newImages| ==> st'.newImages == st.newImages[..index] + st.newImages[index + 1..]
    ensures !(0 <= index < |st.newImages|) ==> st' == st
    ensures st'.existingImages == st.existingImages && st'.imagesToRemove == st.imagesToRemove
  {
    if 0 <= index < |st.newImages| then
      st.(newImages := st.newImages[..index] + st.newImages[index + 1..])
    else st
  }

  // ---------------------------------------------------------------------------
  // The images of the entry being edited
  // ---------------------------------------------------------------------------

  /** What the form shows of the entry's original images is what remains
      after dropping the ones marked for removal. */
  predicate Tracks(original: seq<string>, st: FormState) {
    st.existingImages == ProgressRoutes.Keep(original, st.imagesToRemove)
  }

  /** Removing from the kept images is keeping without one more path. */
  lemma {:induction false} WithoutKeep(list: seq<string>, paths: seq<string>, x: string)
    ensures ProgressRoutes.Without(ProgressRoutes.Keep(list, paths), x) == ProgressRoutes.Keep(list, paths + [x])
  {
    if |list| > 0 {
      WithoutKeep(list[1..], paths, x);
      var k := ProgressRoutes.Keep(list, paths);
      if list[0] !in paths {
        assert k == [list[0]] + ProgressRoutes.Keep(list[1..], paths);
        assert k[1..] == ProgressRoutes.Keep(list[1..], paths);
        assert list[0] in paths + [x] <==> list[0] == x;
      } else {
        assert list[0] in paths + [x];
        assert k == ProgressRoutes.Keep(list[1..], paths);
        assert ProgressRoutes.Keep(list, paths + [x]) == ProgressRoutes.Keep(list[1..], paths + [x]);
        assert ProgressRoutes.Without(k, x) == ProgressRoutes.Keep(list[1..], paths + [x]);
      }
    }
  }

  /** The form starts tracking the entry's images and every change keeps it
      tracking them. */
  lemma TracksPreserved(original: seq<string>, st: FormState, files: seq<string>, path: string, index: int)
    ensures Tracks(original, FormState("", original, [], []))
    ensures Tracks(original, st) ==> Tracks(original, AddFiles(st, files))
    ensures Tracks(original, st) ==> Tracks(original, RemoveExisting(st, path))
    ensures Tracks(original, st) ==> Tracks(original, RemoveNew(st, index))
  {
    ProgressRoutes.KeepNothing(original);
    WithoutKeep(original, st.imagesToRemove, path);
  }

  /** Every original image is either still shown or marked for removal. */
  lemma NothingLost(original: seq<string>, st: FormState)
    requires Tracks(original, st)
    ensures forall x :: x in original ==> x in st.existingImages || x in st.imagesToRemove
  {
    ProgressRoutes.KeepMembers(original, st.imagesToRemove);
  }

  // ---------------------------------------------------------------------------
  // handleSave
  // ---------------------------------------------------------------------------

  /** Which route the form calls. */
  datatype Target = CreateEntry | UpdateEntry(id: int)

  /** The form fields sent: `removeImages` only when something is marked. */
  datatype Request = Request(target: Target, tanggal: string, catatan: string,
                             removeImages: Option<seq<string>>, files: seq<string>)

  function Save(st: FormState, date: string, existing: Option<Entry>): (r: Request)
    ensures r.target.UpdateEntry? <==> existing.Some?
    ensures existing.Some? ==> r.target == UpdateEntry(existing.value.id)
    ensures r.removeImages.Some? <==> |st.imagesToRemove| > 0
    ensures r.removeImages.GetOr([]) == st.imagesToRemove
    ensures r.tanggal == date && r.catatan == st.catatan && r.files == st.newImages
  {
    Request(if existing.Some? then UpdateEntry(existing.value.id) else CreateEntry,
            date, st.catatan,
            if |st.imagesToRemove| > 0 then Some(st.imagesToRemove) else None,
            st.newImages)
  }

  /** The server's image list after the update is what the form showed: the
      remaining images, then the new uploads, in the order chosen. */
  lemma SaveMatchesServer(original: seq<string>, st: FormState, date: string, existing: Option<Entry>)
    requires Tracks(original, st)
    ensures var r := Save(st, date, existing);
            ProgressRoutes.MergedImages(original, r.removeImages, r.files)
              == st.existingImages + ProgressRoutes.UploadPaths(st.newImages)
  {
  }
}

=== FILE: register_page.dfy ===
/** The registration page's own checks, run before the form is sent to the
    server. */
module RegisterPage {
  import Auth
  import Strings

  /** The four fields of the form. */
  datatype Form = Form(username: string, email: string, password: string, confirm: string)

  /** Either the message shown under the form, or the call to `register`. */
  datatype Outcome = ShowError(message: string) | Submit(username: string, email: string, password: string)

  const MsgAllRequired := "All fields are required"
  const MsgMismatch := "Passwords do not match"

  /** `handleSubmit`'s checks, in order: all four fields filled, the two
      passwords equal, at least 8 UTF-16 code units (`length`), and the server's composition
      rule. */
  function HandleSubmit(f: Form): (o: Outcome)
    ensures (f.username == "" || f.email == "" || f.password == "" || f.confirm == "") ==> o == ShowError(MsgAllRequired)
    ensures o.Submit? <==>
      && f.username != "" && f.email != "" && f.password != ""
      && f.password == f.confirm && Strings.Utf16Length(f.password) >= 8 && Auth.Composed(f.password)
    ensures o.Submit? ==> o == Submit(f.username, f.email, f.password)
  {
    if f.username == "" || f.email == "" || f.password == "" || f.confirm == "" then ShowError(MsgAllRequired)
    else if f.password != f.confirm then ShowError(MsgMismatch)
    else if Strings.Utf16Length(f.password) < 8 then ShowError(Auth.MsgShort)
    else if !Auth.Composed(f.password) then ShowError(Auth.MsgWeak)
    else Submit(f.username, f.email, f.password)
  }

  /** A mismatch is reported before the length and composition rules: a
      short mismatched pair gets the mismatch message. */
  lemma MismatchFirst(f: Form)
    requires f.username != "" && f.email != "" && f.password != "" && f.confirm != ""
    requires f.password != f.confirm
    ensures HandleSubmit(f) == ShowError(MsgMismatch)
  {
  }

  /** Whatever the page submits passes the server's password rules, so the
      server can refuse it only for the email's shape or an account that
      already exists. */
  lemma SubmittedPasswordIsAccepted(f: Form)
    requires HandleSubmit(f).Submit?
    ensures var o := HandleSubmit(f);
            Auth.RegisterError(o.username, o.email, o.password).Some? ==>
              Auth.RegisterError(o.username, o.email, o.password).value.message == Auth.MsgBadEmail
  {
    Auth.ValidEmailIsPattern(f.email);
  }
}

=== FILE: search.dfy ===
/** The search hook (`useSearch`): a chain of filters over the entries followed
    by a newest-first sort, and the tag list offered by the filter panel
    (`useAvailableTags`). */
module Search {
  import opened Wrappers
  import opened Dates
  import opened Entries
  import Strings
  import opened Sorting

  /** The filter object. A missing `dateFrom` / `dateTo` is "", missing
      `tags` is [] and missing `hasImages` is false: the hook treats each
      missing field like its falsy value. */
  datatype Filters = Filters(dateFrom: string, dateTo: string, tags: seq<string>, hasImages: bool)

  const NoFilters := Filters("", "", [], false)

  // ---------------------------------------------------------------------------
  // The conditions
  // ---------------------------------------------------------------------------

  /** The search term as used: lower-cased, then trimmed. */
  function NormalizedTerm(searchTerm: string): (r: string)
    ensures r != "" <==> SearchActive(searchTerm)
    ensures forall i :: 0 <= i < |r| ==> !('A' <= r[i] <= 'Z')
  {
    var low := Strings.ToLower(searchTerm);
    Strings.TrimLower(searchTerm);
    Strings.Trim(low)
  }

  /** `searchTerm && searchTerm.trim()`: the search filter is on. */
  predicate SearchActive(searchTerm: string) {
    Strings.Trim(searchTerm) != ""
  }

  /** The lower-cased note, or some lower-cased tag, contains `term`. */
  predicate MatchesTerm(e: Entry, term: string) {
    Strings.Contains(Strings.ToLower(e.note), term)
    || (e.tags.Some? && exists t :: t in e.tags.value && Strings.Contains(Strings.ToLower(t), term))
  }

  /** `item.tanggal >= filters.dateFrom`; false for an undated entry. */
  predicate OnOrAfter(e: Entry, dateFrom: string) {
    HasValidDate(e) && Strings.LessEq(dateFrom, DateKey(e.date.value))
  }

  /** `item.tanggal <= filters.dateTo`; false for an undated entry. */
  predicate OnOrBefore(e: Entry, dateTo: string) {
    HasValidDate(e) && Strings.LessEq(DateKey(e.date.value), dateTo)
  }

  /** The entry has a tag that is among `wanted` (exact, case-sensitive). */
  predicate SharesTag(e: Entry, wanted: seq<string>) {
    e.tags.Some? && exists t :: t in wanted && t in e.tags.value
  }

  /** `item.gambar && item.gambar.length > 0`. */
  predicate HasImages(e: Entry) {
    e.images.Some? && |e.images.value| > 0
  }

  /** Every active filter accepts the entry: the declarative reading of the
      filter chain. */
  predicate Selected(e: Entry, searchTerm: string, f: Filters) {
    && (SearchActive(searchTerm) ==> MatchesTerm(e, NormalizedTerm(searchTerm)))
    && (f.dateFrom != "" ==> OnOrAfter(e, f.dateFrom))
    && (f.dateTo != "" ==> OnOrBefore(e, f.dateTo))
    && (|f.tags| > 0 ==> SharesTag(e, f.tags))
    && (f.hasImages ==> HasImages(e))
  }

  // ---------------------------------------------------------------------------
  // Newest-first stable sort (`sort((a, b) => new Date(b.tanggal) - new Date(a.tanggal))`)
  // ---------------------------------------------------------------------------

  predicate NewestFirst(s: seq<Entry>) {
    AllDated(s) && forall i, j :: 0 <= i < j < |s| ==> Day(s[i]) >= Day(s[j])
  }

  /** The stable sort by date, newest first. It rearranges any list; the
      order is promised for dated entries only, since for an undated one the
      comparator yields NaN. */
  function SortNewestFirst(s: seq<Entry>): (r: seq<Entry>)
    ensures AllDated(s) ==> NewestFirst(r)
    ensures multiset(r) == multiset(s)
  {
    var r := SortBy(s, DayOrZero);
    if AllDated(s) then
      SubMultisetDated(r, s);
      assert forall i, j :: 0 <= i < j < |r| ==> DayOrZero(r[i]) >= DayOrZero(r[j]);
      r
    else r
  }

  /** The sort is stable: entries of the same day keep their input order. */
  lemma NewestFirstStable(s: seq<Entry>, day: int)
    ensures Sorting.WithKey(SortNewestFirst(s), DayOrZero, day) == Sorting.WithKey(s, DayOrZero, day)
  {
    Sorting.SortByStable(s, DayOrZero, day);
  }

  // ---------------------------------------------------------------------------
  // The hook
  // ---------------------------------------------------------------------------

  /** `if (cond) filtered = filtered.filter(p)`. */
  function FilterIf(cond: bool, s: seq<Entry>, p: Entry -> bool): (r: seq<Entry>)
    ensures forall e :: multiset(r)[e] == if !cond || p(e) then multiset(s)[e] else 0
  {
    if cond then Filter(s, p) else s
  }

  /** The filter chain of lines 16-48, before sorting. */
  function ApplyFilters(data: seq<Entry>, searchTerm: string, f: Filters): (r: seq<Entry>)
    ensures forall e :: multiset(r)[e] == if Selected(e, searchTerm, f) then multiset(data)[e] else 0
  {
    var term := NormalizedTerm(searchTerm);
    var s1 := FilterIf(SearchActive(searchTerm), data, e => MatchesTerm(e, term));
    var s2 := FilterIf(f.dateFrom != "", s1, e => OnOrAfter(e, f.dateFrom));
    var s3 := FilterIf(f.dateTo != "", s2, e => OnOrBefore(e, f.dateTo));
    var s4 := FilterIf(|f.tags| > 0, s3, e => SharesTag(e, f.tags));
    FilterIf(f.hasImages, s4, HasImages)
  }

  /** Part of a dated list is dated. */
  lemma SubMultisetDated(r: seq<Entry>, data: seq<Entry>)
    requires AllDated(data) && multiset(r) <= multiset(data)
    ensures AllDated(r)
  {
    forall i | 0 <= i < |r|
      ensures HasValidDate(r[i])
    {
      assert r[i] in multiset(r);
      assert r[i] in multiset(data);
      var k :| 0 <= k < |data| && data[k] == r[i];
    }
  }

  /** `useSearch(data, searchTerm, filters)`. The result is newest first when
      the entries are dated: the sort compares `new Date(tanggal)` values. */
  function UseSearch(data: seq<Entry>, searchTerm: string, f: Filters): (r: seq<Entry>)
    ensures |data| == 0 ==> r == []
    ensures AllDated(data) ==> NewestFirst(r)
    ensures forall e :: multiset(r)[e] == if Selected(e, searchTerm, f) then multiset(data)[e] else 0
  {
    if |data| == 0 then []
    else
      var s := ApplyFilters(data, searchTerm, f);
      if AllDated(data) then
        SubMultisetDated(s, data);
        SortNewestFirst(s)
      else SortNewestFirst(s)
  }

  /** The filters only drop entries: the result is a rearrangement of part of
      the input. */
  lemma SearchOnlyDrops(data: seq<Entry>, searchTerm: string, f: Filters)
    ensures multiset(UseSearch(data, searchTerm, f)) <= multiset(data)
    ensures |UseSearch(data, searchTerm, f)| <= |data|
  {
    var r := UseSearch(data, searchTerm, f);
    assert multiset(r) <= multiset(data);
    assert |multiset(r)| <= |multiset(data)| by {
      var extra := multiset(data) - multiset(r);
      assert multiset(data) == multiset(r) + extra;
    }
  }

  /** With a blank term and no filters the result is the whole input,
      newest first. */
  lemma NoFiltersKeepsAll(data: seq<Entry>, searchTerm: string)
    requires !SearchActive(searchTerm)
    ensures multiset(UseSearch(data, searchTerm, NoFilters)) == multiset(data)
  {
    var r := UseSearch(data, searchTerm, NoFilters);
    assert forall e :: multiset(r)[e] == multiset(data)[e];
  }

  /** For a `dateFrom` / `dateTo` that is a date key, the string bounds are
      inclusive date bounds. */
  lemma DateBoundsAreDates(e: Entry, from: Date, to: Date)
    requires HasValidDate(e) && Valid(from) && Valid(to)
    ensures OnOrAfter(e, DateKey(from)) <==> !Before(e.date.value, from)
    ensures OnOrBefore(e, DateKey(to)) <==> !Before(to, e.date.value)
  {
    var d := e.date.value;
    DateKeyOrder(from, d);
    DateKeyOrder(d, to);
    if DateKey(from) == DateKey(d) {
      DateKeyInjective(from, d);
    }
    if DateKey(d) == DateKey(to) {
      DateKeyInjective(d, to);
    }
  }

  // ---------------------------------------------------------------------------
  // useAvailableTags
  // ---------------------------------------------------------------------------

  predicate StrictlyAscending(s: seq<string>) {
    forall i, j :: 0 <= i < j < |s| ==> Strings.Less(s[i], s[j])
  }

  /** Adds `x` to an ascending list of distinct strings. */
  function InsertTag(x: string, s: seq<string>): (r: seq<string>)
    requires StrictlyAscending(s)
    ensures StrictlyAscending(r)
    ensures forall y :: y in r <==> y in s || y == x
  {
    if |s| == 0 then [x]
    else if Strings.Less(x, s[0]) then
      assert forall k :: 0 <= k < |s| ==> Strings.Less(x, s[k]) by {
        forall k | 0 < k < |s|
          ensures Strings.Less(x, s[k])
        {
          Strings.LessTransitive(x, s[0], s[k]);
        }
      }
      [x] + s
    else if x == s[0] then s
    else
      Strings.LessTotal(x, s[0]);
      var t := InsertTag(x, s[1..]);
      assert forall y :: y in t ==> Strings.Less(s[0], y) by {
        forall y | y in t
          ensures Strings.Less(s[0], y)
        {
          if y != x {
            var k :| 0 <= k < |s[1..]| && s[1..][k] == y;
            assert s[k + 1] == y;
          }
        }
      }
      [s[0]] + t
  }

  function InsertTags(ts: seq<string>, s: seq<string>): (r: seq<string>)
    requires StrictlyAscending(s)
    ensures StrictlyAscending(r)
    ensures forall y :: y in r <==> y in s || y in ts
  {
    if |ts| == 0 then s else InsertTags(ts[1..], InsertTag(ts[0], s))
  }

  /** `useAvailableTags(data)`: every tag of every entry, once each, in
      ascending string order. */
  function AvailableTags(data: seq<Entry>): (r: seq<string>)
    ensures StrictlyAscending(r)
    ensures forall t :: t in r <==> exists i :: 0 <= i < |data| && t in TagList(data[i])
  {
    if |data| == 0 then []
    else
      var p := data[..|data| - 1];
      assert forall i :: 0 <= i < |p| ==> p[i] == data[i];
      InsertTags(TagList(data[|data| - 1]), AvailableTags(p))
  }

  /** An ascending list of distinct strings lists no string twice. */
  lemma AscendingHasNoDuplicates(s: seq<string>)
    requires StrictlyAscending(s)
    ensures forall i, j :: 0 <= i < j < |s| ==> s[i] != s[j]
  {
    forall i, j | 0 <= i < j < |s|
      ensures s[i] != s[j]
    {
      Strings.LessIrreflexive(s[i]);
    }
  }
}

=== FILE: sorting.dfy ===
/** A stable insertion sort by an integer key, largest key first: the shape of
    `Array.prototype.sort` with a numeric comparator, which is stable. */
module Sorting {

  /** `s` is ordered by `key`, largest first. */
  predicate DescendingBy<T>(s: seq<T>, key: T -> int) {
    forall i, j :: 0 <= i < j < |s| ==> key(s[i]) >= key(s[j])
  }

  /** Inserts `x` after every element whose key is at least its own, so equal
      keys keep their input order (`Array.prototype.sort` is stable). */
  function InsertBy<T>(x: T, s: seq<T>, key: T -> int): (r: seq<T>)
    requires DescendingBy(s, key)
    ensures DescendingBy(r, key)
    ensures multiset(r) == multiset(s) + multiset{x}
    ensures |r| == |s| + 1 && (r[0] == x || (|s| > 0 && r[0] == s[0]))
  {
    if |s| == 0 then [x]
    else if key(s[0]) < key(x) then [x] + s
    else
      var t := InsertBy(x, s[1..], key);
      assert s == [s[0]] + s[1..];
      var r := [s[0]] + t;
      assert multiset(r) == multiset{s[0]} + multiset(t);
      ConsDescending(s[0], t, key);
      r
  }

  /** Putting an element with the largest key in front keeps the order. */
  lemma ConsDescending<T>(x: T, t: seq<T>, key: T -> int)
    requires DescendingBy(t, key) && (|t| > 0 ==> key(t[0]) <= key(x))
    ensures DescendingBy([x] + t, key)
  {
    var r := [x] + t;
    forall i, j | 0 <= i < j < |r|
      ensures key(r[i]) >= key(r[j])
    {
      if i > 0 {
        assert r[i] == t[i - 1] && r[j] == t[j - 1];
      } else {
        assert r[j] == t[j - 1] && key(t[0]) >= key(t[j - 1]);
      }
    }
  }

  // ---------------------------------------------------------------------------
  // Stability
  // ---------------------------------------------------------------------------

  /** The elements of `s` whose key is `k`, in their order in `s`. */
  function WithKey<T>(s: seq<T>, key: T -> int, k: int): (r: seq<T>)
    ensures |r| <= |s|
    ensures forall i :: 0 <= i < |r| ==> key(r[i]) == k
  {
    if |s| == 0 then [] else (if key(s[0]) == k then [s[0]] else []) + WithKey(s[1..], key, k)
  }

  lemma {:induction false} WithKeyAppend<T>(a: seq<T>, b: seq<T>, key: T -> int, k: int)
    ensures WithKey(a + b, key, k) == WithKey(a, key, k) + WithKey(b, key, k)
  {
    if |a| == 0 {
      assert a + b == b;
    } else {
      assert (a + b)[1..] == a[1..] + b;
      WithKeyAppend(a[1..], b, key, k);
    }
  }

  /** No element of `s` has a key as large as `x`'s, so none has `x`'s key. */
  lemma {:induction false} WithKeyAbove<T>(s: seq<T>, key: T -> int, k: int)
    requires forall i :: 0 <= i < |s| ==> key(s[i]) < k
    ensures WithKey(s, key, k) == []
  {
    if |s| > 0 {
      WithKeyAbove(s[1..], key, k);
    }
  }

  /** Inserting `x` puts it after every element with its key. */
  lemma {:induction false} InsertByWithKey<T>(x: T, s: seq<T>, key: T -> int, k: int)
    requires DescendingBy(s, key)
    ensures WithKey(InsertBy(x, s, key), key, k) == WithKey(s, key, k) + (if key(x) == k then [x] else [])
  {
    if |s| == 0 {
    } else if key(s[0]) < key(x) {
      InsertFront(x, s, key, k);
    } else {
      InsertByWithKey(x, s[1..], key, k);
      InsertByCons(x, s, key);
      ConsKeeps(s[0], s[1..], InsertBy(x, s[1..], key), key, k, if key(x) == k then [x] else []);
      assert [s[0]] + s[1..] == s;
    }
  }

  /** `x` goes in front of elements with smaller keys, so it comes last
      among those with its key. */
  lemma InsertFront<T>(x: T, s: seq<T>, key: T -> int, k: int)
    requires DescendingBy(s, key) && |s| > 0 && key(s[0]) < key(x)
    ensures WithKey(InsertBy(x, s, key), key, k) == WithKey(s, key, k) + (if key(x) == k then [x] else [])
  {
    assert InsertBy(x, s, key) == [x] + s;
    WithKeyAbove(s, key, key(x));
    WithKeyAppend([x], s, key, k);
    assert [x][1..] == [];
  }

  /** Unfolds the insertion behind the first element. */
  lemma InsertByCons<T>(x: T, s: seq<T>, key: T -> int)
    requires DescendingBy(s, key) && |s| > 0 && key(s[0]) >= key(x)
    ensures InsertBy(x, s, key) == [s[0]] + InsertBy(x, s[1..], key)
  {
  }

  /** Putting the same element in front of two lists keeps what follows the
      common part. */
  lemma ConsKeeps<T>(y: T, t: seq<T>, u: seq<T>, key: T -> int, k: int, tail: seq<T>)
    requires WithKey(u, key, k) == WithKey(t, key, k) + tail
    ensures WithKey([y] + u, key, k) == WithKey([y] + t, key, k) + tail
  {
    WithKeyCons(y, t, key, k);
    WithKeyCons(y, u, key, k);
    var h := if key(y) == k then [y] else [];
    assert h + (WithKey(t, key, k) + tail) == (h + WithKey(t, key, k)) + tail;
  }

  /** The first element goes first among its key's elements. */
  lemma WithKeyCons<T>(y: T, t: seq<T>, key: T -> int, k: int)
    ensures WithKey([y] + t, key, k) == (if key(y) == k then [y] else []) + WithKey(t, key, k)
  {
    assert ([y] + t)[1..] == t;
  }

  /** One step of the sort keeps every key's elements in input order. */
  lemma StableStep<T>(s: seq<T>, sp: seq<T>, key: T -> int, k: int)
    requires |s| > 0
    requires DescendingBy(sp, key) && WithKey(sp, key, k) == WithKey(s[..|s| - 1], key, k)
    ensures WithKey(InsertBy(s[|s| - 1], sp, key), key, k) == WithKey(s, key, k)
  {
    var p, x := s[..|s| - 1], s[|s| - 1];
    assert s == p + [x];
    InsertByWithKey(x, sp, key, k);
    WithKeyAppend(p, [x], key, k);
    assert [x][1..] == [];
  }

  /** The sort is stable: the elements with any one key come out in the
      order they went in. */
  lemma {:induction false} SortByStable<T>(s: seq<T>, key: T -> int, k: int)
    ensures WithKey(SortBy(s, key), key, k) == WithKey(s, key, k)
  {
    if |s| > 0 {
      SortByStable(s[..|s| - 1], key, k);
      StableStep(s, SortBy(s[..|s| - 1], key), key, k);
    }
  }

  function SortBy<T>(s: seq<T>, key: T -> int): (r: seq<T>)
    ensures DescendingBy(r, key)
    ensures multiset(r) == multiset(s)
  {
    if |s| == 0 then []
    else
      var p := s[..|s| - 1];
      assert s == p + [s[|s| - 1]];
      InsertBy(s[|s| - 1], SortBy(p, key), key)
  }
}

=== FILE: statistics.dfy ===
/** The statistics engine of the dashboard (`useStatistics`): period counts,
    the streak walk over distinct dates, the image total and the twelve-month
    series, computed from the entries and the current date. */
module Statistics {
  import opened Wrappers
  import opened Dates
  import opened Entries

  datatype MonthBucket = MonthBucket(year: int, month: int, count: nat)

  /** What the hook returns, without `avgPerDay` (a float rendered by
      `toFixed`) and without the locale-dependent month labels. */
  datatype Summary = Summary(
    total: nat,
    thisMonth: nat,
    thisWeek: nat,
    today: nat,
    currentStreak: nat,
    longestStreak: nat,
    totalImages: nat,
    monthlyData: seq<MonthBucket>)

  const EmptySummary := Summary(0, 0, 0, 0, 0, 0, 0, [])

  function Max(a: int, b: int): int {
    if a >= b then a else b
  }

  // ---------------------------------------------------------------------------
  // Period counts
  // ---------------------------------------------------------------------------

  /** `p.tanggal === todayStr`. */
  predicate IsOn(e: Entry, today: Date) {
    e.date == Some(today)
  }

  /** `tanggal` has year `y` and month `m`; false when it is missing. */
  predicate InMonth(e: Entry, y: int, m: int) {
    e.date.Some? && e.date.value.year == y && e.date.value.month == m
  }

  /** Day number of `startOfWeek`: today's date moved back by `getDay()` days. */
  function WeekStart(today: Date): (w: int)
    requires Valid(today)
    ensures DayNumber(today) - 6 <= w <= DayNumber(today)
    ensures (w + 1) % 7 == 0  // a Sunday
  {
    var n := DayNumber(today);
    SundayBefore(n);
    n - DayOfWeek(today)
  }

  /** Going back `(n + 1) % 7` days from day `n` lands on a Sunday. */
  lemma SundayBefore(n: int)
    ensures (n - (n + 1) % 7 + 1) % 7 == 0
  {
    var q := (n + 1) / 7;
    assert n - (n + 1) % 7 + 1 == 7 * q;
  }

  /** `new Date(tanggal + 'T00:00:00') >= startOfWeek`; false when missing. */
  predicate InWeek(e: Entry, weekStart: int) {
    HasValidDate(e) && Day(e) >= weekStart
  }

  /** `filter(p => p.tanggal === todayStr).length`. */
  function TodayCount(es: seq<Entry>, today: Date): (n: nat)
    ensures n == |Filter(es, e => IsOn(e, today))|
    ensures n == 0 <==> forall i :: 0 <= i < |es| ==> !IsOn(es[i], today)
  {
    CountZero(es, e => IsOn(e, today));
    Count(es, e => IsOn(e, today))
  }

  /** The `thisMonth` filter's length. */
  function MonthCount(es: seq<Entry>, y: int, m: int): (n: nat)
    ensures n == |Filter(es, e => InMonth(e, y, m))|
    ensures n == 0 <==> forall i :: 0 <= i < |es| ==> !InMonth(es[i], y, m)
  {
    CountZero(es, e => InMonth(e, y, m));
    Count(es, e => InMonth(e, y, m))
  }

  /** The `thisWeek` filter's length. */
  function WeekCount(es: seq<Entry>, today: Date): (n: nat)
    requires Valid(today)
    ensures n == |Filter(es, e => InWeek(e, WeekStart(today)))|
    ensures n == 0 <==> forall i :: 0 <= i < |es| ==> !InWeek(es[i], WeekStart(today))
  {
    var w := WeekStart(today);
    CountZero(es, e => InWeek(e, w));
    Count(es, e => InWeek(e, w))
  }

  /** Today's entries are in this month and in this week, which are among
      all entries. */
  lemma PeriodBounds(es: seq<Entry>, today: Date)
    requires Valid(today)
    ensures TodayCount(es, today) <= MonthCount(es, today.year, today.month) <= |es|
    ensures TodayCount(es, today) <= WeekCount(es, today) <= |es|
  {
    var w := WeekStart(today);
    CountMonotone(es, e => IsOn(e, today), e => InMonth(e, today.year, today.month));
    CountMonotone(es, e => IsOn(e, today), e => InWeek(e, w));
  }

  /** An entry without a date counts in `total` and `totalImages` but in no
      period. */
  lemma UndatedEntry(es: seq<Entry>, e: Entry, today: Date)
    requires Valid(today) && e.date.None?
    ensures TodayCount(es + [e], today) == TodayCount(es, today)
    ensures WeekCount(es + [e], today) == WeekCount(es, today)
    ensures forall y, m :: MonthCount(es + [e], y, m) == MonthCount(es, y, m)
    ensures TotalImages(es + [e]) == TotalImages(es) + ImageCount(e)
  {
    assert (es + [e])[..|es|] == es;
  }

  // ---------------------------------------------------------------------------
  // Distinct dates, newest first (`[...new Set(dates)].sort().reverse()`)
  // ---------------------------------------------------------------------------

  predicate StrictlyDesc(s: seq<int>) {
    forall i, j :: 0 <= i < j < |s| ==> s[i] > s[j]
  }

  function InsertDesc(x: int, s: seq<int>): (r: seq<int>)
    requires StrictlyDesc(s)
    ensures StrictlyDesc(r)
    ensures forall y :: y in r <==> y in s || y == x
  {
    if |s| == 0 then [x]
    else if x > s[0] then [x] + s
    else if x == s[0] then s
    else
      var t := InsertDesc(x, s[1..]);
      assert forall y :: y in t ==> y < s[0];
      var r := [s[0]] + t;
      assert forall j :: 0 < j < |r| ==> r[j] == t[j - 1] && r[j] in t;
      r
  }

  /** The distinct values of `xs`, largest first. */
  function Distinct(xs: seq<int>): (r: seq<int>)
    ensures StrictlyDesc(r)
    ensures forall d :: d in r <==> d in xs
  {
    if |xs| == 0 then []
    else
      var p := xs[..|xs| - 1];
      assert forall d :: d in xs <==> d in p || d == xs[|xs| - 1];
      InsertDesc(xs[|xs| - 1], Distinct(p))
  }

  /** The day number of each entry, in order. */
  function DaysOf(es: seq<Entry>): (r: seq<int>)
    requires AllDated(es)
    ensures |r| == |es| && forall i :: 0 <= i < |es| ==> r[i] == Day(es[i])
  {
    seq(|es|, i requires 0 <= i < |es| => Day(es[i]))
  }

  /** The distinct day numbers of the entries, newest first. Since the date
      keys are fixed-width and ordered like the dates (`DateKeyOrder`), this is
      the source's sorted set of `tanggal` strings read as day numbers. */
  function DistinctDays(es: seq<Entry>): (r: seq<int>)
    requires AllDated(es)
    ensures StrictlyDesc(r)
    ensures forall d :: d in r <==> exists i :: 0 <= i < |es| && Day(es[i]) == d
  {
    var xs := DaysOf(es);
    forall d | d in xs
      ensures exists i :: 0 <= i < |es| && Day(es[i]) == d
    {
      var i :| 0 <= i < |xs| && xs[i] == d;
    }
    Distinct(xs)
  }

  /** A strictly decreasing sequence is determined by its elements. */
  lemma {:induction false} StrictlyDescUnique(a: seq<int>, b: seq<int>)
    requires StrictlyDesc(a) && StrictlyDesc(b)
    requires forall x :: x in a <==> x in b
    ensures a == b
  {
    if |a| > 0 {
      assert a[0] in a;
    }
    if |b| > 0 {
      assert b[0] in b;
    }
    if |a| > 0 && |b| > 0 {
      assert a == [a[0]] + a[1..] && b == [b[0]] + b[1..];
      forall x | x in a
        ensures x <= a[0]
      {
        var i :| 0 <= i < |a| && a[i] == x;
      }
      forall x | x in b
        ensures x <= b[0]
      {
        var i :| 0 <= i < |b| && b[i] == x;
      }
      assert a[0] == b[0];
      forall x
        ensures x in a[1..] <==> x in b[1..]
      {
        if x in a[1..] {
          var i :| 0 <= i < |a[1..]| && a[1..][i] == x;
          assert a[i + 1] == x && x < a[0];
          assert x in a && x in b && x != b[0];
        }
        if x in b[1..] {
          var i :| 0 <= i < |b[1..]| && b[1..][i] == x;
          assert b[i + 1] == x && x < b[0];
          assert x in b && x in a && x != a[0];
        }
      }
      StrictlyDescUnique(a[1..], b[1..]);
    }
  }

  // ---------------------------------------------------------------------------
  // Reference definitions of runs of consecutive days
  // ---------------------------------------------------------------------------

  /** Adjacent pairs of `days` exactly one day apart. */
  function UnitGaps(days: seq<int>): nat {
    if |days| < 2 then 0
    else UnitGaps(days[..|days| - 1]) + (if days[|days| - 2] - days[|days| - 1] == 1 then 1 else 0)
  }

  /** Length of the run of consecutive days that ends at the last element. */
  function TrailingRun(days: seq<int>): nat {
    if |days| == 0 then 0
    else if |days| == 1 then 1
    else if days[|days| - 2] - days[|days| - 1] == 1 then TrailingRun(days[..|days| - 1]) + 1
    else 1
  }

  /** Length of the longest run of consecutive days. */
  function LongestRun(days: seq<int>): nat {
    if |days| == 0 then 0 else Max(LongestRun(days[..|days| - 1]), TrailingRun(days))
  }

  /** Length of the run of consecutive days that starts at the first (most
      recent) element. */
  function LeadingRun(days: seq<int>): nat {
    if |days| == 0 then 0
    else if |days| == 1 then 1
    else if days[0] - days[1] == 1 then 1 + LeadingRun(days[1..])
    else 1
  }

  /** The days form one gap-free run, newest first. */
  predicate OneRun(days: seq<int>) {
    forall i :: 0 <= i < |days| - 1 ==> days[i] - days[i + 1] == 1
  }

  // ---------------------------------------------------------------------------
  // The streak walk, as written (useStatistics.js lines 61-94)
  // ---------------------------------------------------------------------------

  datatype WalkState = WalkState(current: nat, longest: nat, temp: nat, last: Option<int>)

  const Start := WalkState(0, 0, 0, None)

  /** One iteration of the `forEach` over the sorted distinct dates. The first
      date starts the walk only when it is at most one day before today
      (`daysDiff <= 1`, so also when it lies in the future); otherwise
      `lastDate` stays null and every later iteration does nothing. */
  function Step(st: WalkState, index: nat, day: int, today: int): (r: WalkState)
    ensures index == 0 && st == Start ==> (r.last.Some? <==> today - day <= 1)
    ensures index == 0 && st == Start && r.last.Some? ==> r == WalkState(1, 0, 1, Some(day))
    ensures index > 0 && st.last.None? ==> r == st
    ensures index > 0 && st.last.Some? ==> r.last == Some(day)
    ensures index > 0 && st.last.Some? ==> r.temp == if st.last.value - day == 1 then st.temp + 1 else 1
    ensures index > 0 ==> st.current <= r.current <= st.current + 1 && st.longest <= r.longest
    ensures index > 0 && st.current > 0 ==> (r.current == st.current + 1 <==> st.last.Some? && st.last.value - day == 1)
  {
    if index == 0 then
      if today - day <= 1 then WalkState(1, st.longest, 1, Some(day)) else st
    else if st.last.Some? then
      if st.last.value - day == 1 then
        WalkState(if st.current > 0 then st.current + 1 else st.current, st.longest, st.temp + 1, Some(day))
      else
        WalkState(st.current, if st.temp > st.longest then st.temp else st.longest, 1, Some(day))
    else st
  }

  /** The state after walking all of `days`. */
  function Walk(days: seq<int>, today: int): (r: WalkState)
    ensures r.current <= |days| && r.longest <= |days| && r.temp <= |days|
    ensures r.last.None? ==> r == Start
    ensures |days| > 0 ==> (r.last.Some? <==> today - days[0] <= 1)
    ensures r.last.Some? ==> 1 <= r.temp <= r.current && r.longest <= r.current
    ensures r.last.Some? ==> r.current == 1 + UnitGaps(days)
    ensures r.last.Some? ==> r.temp == TrailingRun(days) && Max(r.longest, r.temp) == LongestRun(days)
  {
    if |days| == 0 then Start
    else
      var p := days[..|days| - 1];
      var st := Walk(p, today);
      assert |p| > 0 ==> p[0] == days[0] && p[|p| - 1] == days[|days| - 2];
      assert |p| > 0 && st.last.Some? ==> LongestRun(p) >= 1;
      Step(st, |days| - 1, days[|days| - 1], today)
  }

  datatype Streaks = Streaks(current: nat, longest: nat)

  /** The streaks after the walk: lines 93 and 94 fold the last run into
      `longestStreak` (line 94 never changes anything after line 93). */
  function StreakWalk(days: seq<int>, today: int): (r: Streaks)
    ensures r.current <= |days| && r.longest <= |days|
    ensures r.longest <= r.current
    ensures |days| == 0 || today - days[0] > 1 ==> r == Streaks(0, 0)
    ensures |days| > 0 && today - days[0] <= 1 ==>
              r.current == 1 + UnitGaps(days) && r.longest == LongestRun(days)
  {
    var st := Walk(days, today);
    var longest := if st.temp > st.longest then st.temp else st.longest;
    var longest' := if st.current == 0 && longest > 0 then Max(longest, st.temp) else longest;
    Streaks(st.current, longest')
  }

  lemma {:induction false} OneRunPrefix(days: seq<int>)
    requires OneRun(days) && |days| > 0
    ensures UnitGaps(days) == |days| - 1
    ensures TrailingRun(days) == |days|
    ensures LongestRun(days) == |days|
  {
    if |days| > 1 {
      var p := days[..|days| - 1];
      assert days[|days| - 2] - days[|days| - 1] == 1;
      OneRunPrefix(p);
    }
  }

  /** One gap-free run whose newest day is today or yesterday (or later):
      both streaks are its length. */
  lemma OneRunStreaks(days: seq<int>, today: int)
    requires |days| > 0 && OneRun(days) && today - days[0] <= 1
    ensures StreakWalk(days, today) == Streaks(|days|, |days|)
  {
    OneRunPrefix(days);
  }

  // ---------------------------------------------------------------------------
  // The evidently intended streaks: the run containing the newest date when
  // it is today or yesterday, and the longest run whatever its age
  // ---------------------------------------------------------------------------

  lemma {:induction false} LeadingRunIsRun(days: seq<int>)
    ensures LeadingRun(days) <= |days|
    ensures OneRun(days[..LeadingRun(days)])
    ensures |days| > 0 ==> LeadingRun(days) >= 1
  {
    if |days| > 1 && days[0] - days[1] == 1 {
      var t := days[1..];
      LeadingRunIsRun(t);
      var l := LeadingRun(days);
      assert days[..l] == [days[0]] + t[..l - 1];
    }
  }

  lemma {:induction false} LongestRunPrefix(days: seq<int>, k: nat)
    requires k <= |days|
    ensures LongestRun(days[..k]) <= LongestRun(days)
    decreases |days| - k
  {
    if k < |days| {
      var p := days[..|days| - 1];
      assert p[..k] == days[..k];
      LongestRunPrefix(p, k);
    } else {
      assert days[..k] == days;
    }
  }

  lemma {:induction false} LongestRunBound(days: seq<int>)
    ensures LongestRun(days) <= |days|
    ensures TrailingRun(days) <= |days|
  {
    if |days| > 0 {
      LongestRunBound(days[..|days| - 1]);
    }
  }

  lemma {:induction false} OneRunLeading(days: seq<int>)
    requires OneRun(days)
    ensures LeadingRun(days) == |days|
  {
    if |days| > 1 {
      assert days[0] - days[1] == 1;
      OneRunLeading(days[1..]);
    }
  }

  /** The run at the newest date is one of the runs, so it is no longer than
      the longest. */
  lemma LeadingRunAtMostLongest(days: seq<int>)
    ensures LeadingRun(days) <= LongestRun(days)
  {
    var l := LeadingRun(days);
    LeadingRunIsRun(days);
    if l > 0 {
      OneRunPrefix(days[..l]);
      LongestRunPrefix(days, l);
    }
  }

  function IntendedStreaks(days: seq<int>, today: int): (r: Streaks)
    ensures r.current <= r.longest <= |days|
    ensures |days| > 0 ==> r.longest >= 1
    ensures |days| > 0 && today - days[0] <= 1 ==> r.current >= 1
    ensures |days| == 0 || today - days[0] > 1 ==> r.current == 0
  {
    LeadingRunAtMostLongest(days);
    LongestRunBound(days);
    LeadingRunIsRun(days);
    var current := if |days| > 0 && today - days[0] <= 1 then LeadingRun(days) else 0;
    Streaks(current, LongestRun(days))
  }

  /** While the newest date is live, the written walk agrees with the intended
      longest streak and never reports a shorter current streak; on one
      gap-free run the two agree entirely. */
  lemma WalkVersusIntended(days: seq<int>, today: int)
    requires |days| > 0 && today - days[0] <= 1
    ensures StreakWalk(days, today).longest == IntendedStreaks(days, today).longest
    ensures StreakWalk(days, today).current >= IntendedStreaks(days, today).current
    ensures OneRun(days) ==> StreakWalk(days, today) == IntendedStreaks(days, today)
  {
    LeadingRunAtMostLongest(days);
    if OneRun(days) {
      OneRunPrefix(days);
      OneRunStreaks(days, today);
      OneRunLeading(days);
    }
  }

  /** Entries on 2024-01-05, 2024-01-02 and 2024-01-01 viewed on 2024-01-05:
      the written walk keeps counting the 1-day gap after the break and
      reports a current streak of 2, where the run ending today has length 1. */
  lemma CurrentStreakNotFrozen()
    ensures var days := [DayNumber(Date(2024, 1, 5)), DayNumber(Date(2024, 1, 2)), DayNumber(Date(2024, 1, 1))];
            StreakWalk(days, DayNumber(Date(2024, 1, 5))) == Streaks(2, 2)
            && IntendedStreaks(days, DayNumber(Date(2024, 1, 5))) == Streaks(1, 2)
  {
    var n := DayNumber(Date(2024, 1, 5));
    assert DayNumber(Date(2024, 1, 2)) == n - 3 && DayNumber(Date(2024, 1, 1)) == n - 4;
    BrokenRunStreaks(n);
  }

  /** The walk over a day, then a 1-day run three days earlier, viewed on
      that day. */
  lemma BrokenRunStreaks(n: int)
    ensures StreakWalk([n, n - 3, n - 4], n) == Streaks(2, 2)
    ensures IntendedStreaks([n, n - 3, n - 4], n) == Streaks(1, 2)
  {
    var days := [n, n - 3, n - 4];
    var d2 := days[..2];
    assert d2 == [n, n - 3] && d2[..1] == [n] && d2[..1][..0] == [];
    assert LongestRun(d2[..1]) == 1;
    assert UnitGaps(d2) == 0 && TrailingRun(d2) == 1 && LongestRun(d2) == 1;
    assert UnitGaps(days) == 1 && TrailingRun(days) == 2 && LongestRun(days) == 2;
    assert days[1..] == [n - 3, n - 4] && days[1..][1..] == [n - 4];
  }

  /** Entries on 2024-01-01 and 2024-01-02 viewed on 2024-01-10: the walk never
      starts, so the written longest streak is 0 although a 2-day run exists. */
  lemma LongestStreakLostWhenNotLive()
    ensures var days := [DayNumber(Date(2024, 1, 2)), DayNumber(Date(2024, 1, 1))];
            StreakWalk(days, DayNumber(Date(2024, 1, 10))) == Streaks(0, 0)
            && IntendedStreaks(days, DayNumber(Date(2024, 1, 10))) == Streaks(0, 2)
  {
    var days := [DayNumber(Date(2024, 1, 2)), DayNumber(Date(2024, 1, 1))];
    assert days[..1] == [days[0]];
  }

  // ---------------------------------------------------------------------------
  // The whole summary
  // ---------------------------------------------------------------------------

  function MonthlySeries(es: seq<Entry>, y: int, m: int): (r: seq<MonthBucket>)
    requires 1 <= m <= 12
    ensures |r| == 12
    ensures r[11].year == y && r[11].month == m
    ensures forall k :: 0 <= k < 11 ==> r[k + 1].year * 12 + r[k + 1].month == r[k].year * 12 + r[k].month + 1
    ensures forall k :: 0 <= k < 12 ==> 1 <= r[k].month <= 12 && r[k].count == MonthCount(es, r[k].year, r[k].month)
  {
    var r := seq(12, k requires 0 <= k < 12 => Bucket(es, y, m, 11 - k));
    assert forall k :: 0 <= k < 12 ==> r[k] == Bucket(es, y, m, 11 - k);
    r
  }

  /** The bucket of the month `back` months before (y, m). */
  function Bucket(es: seq<Entry>, y: int, m: int, back: int): (b: MonthBucket)
    requires 1 <= m <= 12 && 0 <= back <= 11
    ensures 1 <= b.month <= 12 && b.year * 12 + b.month == y * 12 + m - back
    ensures b.count == MonthCount(es, b.year, b.month)
  {
    var ym := MonthsBack(y, m, back);
    MonthBucket(ym.0, ym.1, MonthCount(es, ym.0, ym.1))
  }

  /** `useStatistics(progressData)` evaluated on `today`. The period counts
      accept undated entries; the streak path needs every date (the source
      would put `undefined` into its date set). */
  function ComputeStatistics(es: seq<Entry>, today: Date): (s: Summary)
    requires Valid(today) && AllDated(es)
    ensures |es| == 0 ==> s == EmptySummary
    ensures s.total == |es| && s.totalImages == TotalImages(es)
    ensures |es| > 0 ==> s.today == TodayCount(es, today)
    ensures |es| > 0 ==> s.thisMonth == MonthCount(es, today.year, today.month)
    ensures |es| > 0 ==> s.thisWeek == WeekCount(es, today)
    ensures s.today <= s.thisMonth <= s.total && s.today <= s.thisWeek <= s.total
    ensures s.currentStreak <= |DistinctDays(es)| && s.longestStreak <= s.currentStreak
    ensures |es| > 0 ==> |s.monthlyData| == 12 && s.monthlyData[11].count == s.thisMonth
    ensures |es| > 0 ==> s.monthlyData == MonthlySeries(es, today.year, today.month)
    ensures |es| > 0 ==> s.monthlyData[11].year == today.year && s.monthlyData[11].month == today.month
    ensures |es| > 0 ==> s.currentStreak == StreakWalk(DistinctDays(es), DayNumber(today)).current
    ensures |es| > 0 ==> s.longestStreak == StreakWalk(DistinctDays(es), DayNumber(today)).longest
  {
    if |es| == 0 then EmptySummary
    else
      var streaks := StreakWalk(DistinctDays(es), DayNumber(today));
      PeriodBounds(es, today);
      Summary(
        |es|,
        MonthCount(es, today.year, today.month),
        WeekCount(es, today),
        TodayCount(es, today),
        streaks.current,
        streaks.longest,
        TotalImages(es),
        MonthlySeries(es, today.year, today.month))
  }

  /** Both streaks are 0 unless the newest date is at most one day before
      today, even when an older run exists. */
  lemma NotLiveMeansNoStreaks(es: seq<Entry>, today: Date)
    requires Valid(today) && AllDated(es) && |es| > 0
    requires DayNumber(today) - DistinctDays(es)[0] > 1
    ensures ComputeStatistics(es, today).currentStreak == 0
    ensures ComputeStatistics(es, today).longestStreak == 0
  {
  }

  /** Another entry on a date already present changes `total` but neither
      streak. */
  lemma SameDateKeepsStreaks(es: seq<Entry>, e: Entry, today: Date)
    requires Valid(today) && AllDated(es) && HasValidDate(e)
    requires exists i :: 0 <= i < |es| && es[i].date == e.date
    ensures AllDated(es + [e])
    ensures ComputeStatistics(es + [e], today).total == ComputeStatistics(es, today).total + 1
    ensures ComputeStatistics(es + [e], today).currentStreak == ComputeStatistics(es, today).currentStreak
    ensures ComputeStatistics(es + [e], today).longestStreak == ComputeStatistics(es, today).longestStreak
  {
    var es' := es + [e];
    assert forall i :: 0 <= i < |es| ==> es'[i] == es[i];
    var a, b := DistinctDays(es'), DistinctDays(es);
    forall d
      ensures d in a <==> d in b
    {
      if d in a {
        var i :| 0 <= i < |es'| && Day(es'[i]) == d;
        if i == |es| {
          var j :| 0 <= j < |es| && es[j].date == e.date;
          assert Day(es[j]) == d;
        }
      }
    }
    StrictlyDescUnique(a, b);
  }

  /** `daysSinceFirst` (line 99): whole days from the earliest entry to today,
      both ends included. */
  function DaysSinceFirst(es: seq<Entry>, today: Date): (n: int)
    requires Valid(today) && AllDated(es) && |es| > 0
    ensures forall i :: 0 <= i < |es| ==> DayNumber(today) - Day(es[i]) + 1 <= n
    ensures exists i :: 0 <= i < |es| && n == DayNumber(today) - Day(es[i]) + 1
  {
    var ds := DistinctDays(es);
    EarliestDay(es);
    DayNumber(today) - ds[|ds| - 1] + 1
  }

  /** The last of the distinct days is the earliest entry's day. */
  lemma EarliestDay(es: seq<Entry>)
    requires AllDated(es) && |es| > 0
    ensures |DistinctDays(es)| > 0
    ensures forall i :: 0 <= i < |es| ==> DistinctDays(es)[|DistinctDays(es)| - 1] <= Day(es[i])
    ensures exists i :: 0 <= i < |es| && Day(es[i]) == DistinctDays(es)[|DistinctDays(es)| - 1]
  {
    var xs := DaysOf(es);
    assert DistinctDays(es) == Distinct(xs);
    var k := DistinctLast(xs);
    assert Day(es[k]) == xs[k];
  }

  /** The last distinct value is the least value, and it occurs at `k`. */
  lemma DistinctLast(xs: seq<int>) returns (k: int)
    requires |xs| > 0
    ensures |Distinct(xs)| > 0
    ensures forall i :: 0 <= i < |xs| ==> Distinct(xs)[|Distinct(xs)| - 1] <= xs[i]
    ensures 0 <= k < |xs| && xs[k] == Distinct(xs)[|Distinct(xs)| - 1]
  {
    var ds := Distinct(xs);
    assert xs[0] in ds;
    LastIsLeast(ds);
    assert ds[|ds| - 1] in xs;
    k :| 0 <= k < |xs| && xs[k] == ds[|ds| - 1];
    forall i | 0 <= i < |xs|
      ensures ds[|ds| - 1] <= xs[i]
    {
      assert xs[i] in ds;
    }
  }

  /** The last element of a strictly decreasing sequence is its least. */
  lemma LastIsLeast(ds: seq<int>)
    requires StrictlyDesc(ds) && |ds| > 0
    ensures forall x :: x in ds ==> ds[|ds| - 1] <= x
  {
    forall x | x in ds
      ensures ds[|ds| - 1] <= x
    {
      var k :| 0 <= k < |ds| && ds[k] == x;
      assert k == |ds| - 1 || ds[k] > ds[|ds| - 1];
    }
  }

  /** Two entries on 2024-02-01 and one on 2024-02-02, viewed on 2024-02-02:
      three entries, a two-day streak, all in this month and this week. */
  lemma SameDayEntriesExample()
    ensures var e1 := Entry(1, 7, Some(Date(2024, 2, 1)), "a", None, None, 0, 0);
            var e2 := Entry(2, 7, Some(Date(2024, 2, 1)), "b", None, Some(["/uploads/x.png"]), 0, 0);
            var e3 := Entry(3, 7, Some(Date(2024, 2, 2)), "c", None, None, 0, 0);
            var s := ComputeStatistics([e1, e2, e3], Date(2024, 2, 2));
            s.total == 3 && s.currentStreak == 2 && s.longestStreak == 2 && s.totalImages == 1
  {
    var e1 := Entry(1, 7, Some(Date(2024, 2, 1)), "a", None, None, 0, 0);
    var e2 := Entry(2, 7, Some(Date(2024, 2, 1)), "b", None, Some(["/uploads/x.png"]), 0, 0);
    var e3 := Entry(3, 7, Some(Date(2024, 2, 2)), "c", None, None, 0, 0);
    var es := [e1, e2, e3];
    var today := Date(2024, 2, 2);
    assert es[..2] == [e1, e2] && es[..2][..1] == [e1];
    var ds := DistinctDays(es);
    var d1, d2 := DayNumber(Date(2024, 2, 1)), DayNumber(today);
    assert d2 == d1 + 1;
    var xs := [d1, d1, d2];
    assert DaysOf(es) == xs;
    assert xs[..2] == [d1, d1] && xs[..2][..1] == [d1];
    assert Distinct([d1]) == [d1];
    assert Distinct([d1, d1]) == [d1];
    assert ds == [d2, d1];
    OneRunStreaks(ds, d2);
    assert TotalImages([e1]) == 0 && TotalImages([e1, e2]) == 1;
    assert TotalImages(es) == 1;
  }
}

=== FILE: storage.dfy ===
/** The browser-storage helpers: a cache whose items expire, a namespace of
    settings, and importing a whole set of keys. Browser storage is a map
    from key to stored item; a stored item is what `JSON.parse` gives back
    for what the helpers wrote. */
module Storage {
  import opened Wrappers
  import Strings

  /** What a key holds: a cache item (the data, its expiry and when it was
      written, in milliseconds), a setting's value, or text written by
      something else. */
  datatype Item<D> =
    | CacheItem(data: D, expiry: int, timestamp: int)
    | Setting(value: D)
    | Text(text: string)

  type Store<D> = map<string, Item<D>>

  const CachePrefix := "cache_"
  const SettingPrefix := "setting_"

  /** One hour in milliseconds. */
  const DefaultTtl := 3600000

  function CacheKey(key: string): string { CachePrefix + key }

  function SettingKey(key: string): string { SettingPrefix + key }

  /** A cache key is never a setting key. */
  lemma NamespacesDisjoint(a: string, b: string)
    ensures CacheKey(a) != SettingKey(b)
  {
    assert CacheKey(a)[0] != SettingKey(b)[0];
  }

  // ---------------------------------------------------------------------------
  // cacheManager
  // ---------------------------------------------------------------------------

  /** `cacheManager.set(key, data, ttl)` at time `now`; a missing `ttl` is
      one hour. */
  function CacheSet<D>(s: Store<D>, key: string, data: D, ttl: Option<int>, now: int): (s': Store<D>)
    ensures s'.Keys == s.Keys + {CacheKey(key)}
    ensures s'[CacheKey(key)] == CacheItem(data, now + ttl.GetOr(DefaultTtl), now)
    ensures forall k :: k in s && k != CacheKey(key) ==> s'[k] == s[k]
  {
    s[CacheKey(key) := CacheItem(data, now + ttl.GetOr(DefaultTtl), now)]
  }

  /** `cacheManager.get(key)` at time `now`: the data and the storage after
      the call. An item is still served at its expiry instant; strictly after
      it, the item is removed. A key holding something other than a cache
      item reads as missing. */
  function CacheGet<D>(s: Store<D>, key: string, now: int): (r: (Option<D>, Store<D>))
    ensures CacheKey(key) !in s ==> r == (None, s)
    ensures r.0.Some? <==> CacheKey(key) in s && s[CacheKey(key)].CacheItem? && now <= s[CacheKey(key)].expiry
    ensures r.0.Some? ==> r.0.value == s[CacheKey(key)].data
    ensures r.1 == s || (r.1 == s - {CacheKey(key)} && r.0.None?)
    ensures r.1 != s <==> CacheKey(key) in s && s[CacheKey(key)].CacheItem? && now > s[CacheKey(key)].expiry
  {
    var k := CacheKey(key);
    if k !in s then (None, s)
    else match s[k]
      case CacheItem(data, expiry, _) =>
        if now > expiry then
          assert k !in s - {k};
          (None, s - {k})
        else (Some(data), s)
      case _ => (None, s)
  }

  /** `cacheManager.remove(key)`. */
  function CacheRemove<D>(s: Store<D>, key: string): (s': Store<D>)
    ensures s'.Keys == s.Keys - {CacheKey(key)}
    ensures forall k :: k in s' ==> s'[k] == s[k]
  {
    s - {CacheKey(key)}
  }

  /** `cacheManager.clearAll()`: drops every key that starts with the cache
      prefix. */
  function CacheClearAll<D>(s: Store<D>): (s': Store<D>)
    ensures forall k :: k in s' <==> k in s && !Strings.StartsWith(k, CachePrefix)
    ensures forall k :: k in s' ==> s'[k] == s[k]
  {
    map k | k in s && !Strings.StartsWith(k, CachePrefix) :: s[k]
  }

  /** What `cacheManager.getInfo` reports (the byte size is left out). */
  datatype CacheInfo = CacheInfo(age: int, remaining: int, expired: bool)

  function GetCacheInfo<D>(s: Store<D>, key: string, now: int): (r: Option<CacheInfo>)
    ensures r.Some? <==> CacheKey(key) in s && s[CacheKey(key)].CacheItem?
    ensures r.Some? ==>
      var it := s[CacheKey(key)];
      && r.value.age == now - it.timestamp
      && r.value.remaining == it.expiry - now
      && (r.value.expired <==> now >= it.expiry)
  {
    var k := CacheKey(key);
    if k in s && s[k].CacheItem? then
      var remaining := s[k].expiry - now;
      Some(CacheInfo(now - s[k].timestamp, remaining, remaining <= 0))
    else None
  }

  /** A stored item is served until its expiry instant, inclusive. */
  lemma CacheSetThenGet<D>(s: Store<D>, key: string, data: D, ttl: Option<int>, now: int, later: int)
    requires later <= now + ttl.GetOr(DefaultTtl)
    ensures CacheGet(CacheSet(s, key, data, ttl, now), key, later) == (Some(data), CacheSet(s, key, data, ttl, now))
  {
  }

  /** At exactly the expiry instant `getInfo` already says expired while
      `get` still serves the data. */
  lemma ExpiryInstantDisagrees<D>(s: Store<D>, key: string, data: D, ttl: Option<int>, now: int)
    ensures var s' := CacheSet(s, key, data, ttl, now);
            var at := now + ttl.GetOr(DefaultTtl);
            && GetCacheInfo(s', key, at).value.expired
            && CacheGet(s', key, at).0 == Some(data)
  {
  }

  /** Strictly after the expiry the item is gone, and a second read finds
      nothing either. */
  lemma CacheExpires<D>(s: Store<D>, key: string, data: D, ttl: Option<int>, now: int, later: int)
    requires later > now + ttl.GetOr(DefaultTtl)
    ensures var r := CacheGet(CacheSet(s, key, data, ttl, now), key, later);
            && r.0.None?
            && CacheKey(key) !in r.1
            && CacheGet(r.1, key, later) == (None, r.1)
  {
  }

  // ---------------------------------------------------------------------------
  // settingsManager
  // ---------------------------------------------------------------------------

  /** `settingsManager.get(key, default)`: the stored value, or the default
      when the key is missing or holds something that is not a setting. */
  function SettingGet<D>(s: Store<D>, key: string, default: D): (v: D)
    ensures SettingKey(key) !in s ==> v == default
    ensures SettingKey(key) in s && s[SettingKey(key)].Setting? ==> v == s[SettingKey(key)].value
  {
    var k := SettingKey(key);
    if k in s && s[k].Setting? then s[k].value else default
  }

  /** `settingsManager.set(key, value)`. */
  function SettingSet<D>(s: Store<D>, key: string, value: D): (s': Store<D>)
    ensures s'.Keys == s.Keys + {SettingKey(key)}
    ensures forall k :: k in s && k != SettingKey(key) ==> s'[k] == s[k]
    ensures s'[SettingKey(key)] == Setting(value)
  {
    s[SettingKey(key) := Setting(value)]
  }

  /** A setting reads back as the value last set, whatever the default. */
  lemma SettingSetThenGet<D>(s: Store<D>, key: string, value: D, default: D)
    ensures SettingGet(SettingSet(s, key, value), key, default) == value
  {
  }

  /** `settingsManager.remove(key)`. */
  function SettingRemove<D>(s: Store<D>, key: string): (s': Store<D>)
    ensures SettingKey(key) !in s'
    ensures forall k :: k in s' <==> k in s && k != SettingKey(key)
  {
    s - {SettingKey(key)}
  }

  /** The setting names present: the keys with the setting prefix, without
      it. */
  function SettingNames<D>(s: Store<D>): (names: set<string>)
    ensures forall key :: key in names <==> SettingKey(key) in s
  {
    var names := set k | k in s && Strings.StartsWith(k, SettingPrefix) :: k[|SettingPrefix|..];
    forall key
      ensures key in names <==> SettingKey(key) in s
    {
      if SettingKey(key) in s {
        assert SettingKey(key)[|SettingPrefix|..] == key;
      }
      if key in names {
        var k :| k in s && Strings.StartsWith(k, SettingPrefix) && k[|SettingPrefix|..] == key;
        assert k == k[..|SettingPrefix|] + k[|SettingPrefix|..];
      }
    }
    names
  }

  /** `settingsManager.getAll()`: every setting name mapped to its value
      (`null`, here None, for a key that holds something else). */
  function SettingsAll<D>(s: Store<D>): (m: map<string, Option<D>>)
    ensures forall key :: key in m <==> SettingKey(key) in s
    ensures forall key :: key in m ==> m[key] == (if s[SettingKey(key)].Setting? then Some(s[SettingKey(key)].value) else None)
  {
    map key | key in SettingNames(s) ::
      if s[SettingKey(key)].Setting? then Some(s[SettingKey(key)].value) else None
  }

  /** `getAll` agrees with `get`: a listed value is what `get` reads, and
      a name listed as `null` reads as the default. */
  lemma SettingsAllAgreesWithGet<D>(s: Store<D>, key: string, default: D)
    requires key in SettingsAll(s)
    ensures SettingsAll(s)[key].Some? ==> SettingsAll(s)[key].value == SettingGet(s, key, default)
    ensures SettingsAll(s)[key].None? ==> SettingGet(s, key, default) == default
  {
  }

  /** Cache writes never change what a setting reads as. */
  lemma CacheLeavesSettings<D>(s: Store<D>, key: string, data: D, ttl: Option<int>, now: int, name: string, default: D)
    ensures SettingGet(CacheSet(s, key, data, ttl, now), name, default) == SettingGet(s, name, default)
    ensures SettingGet(CacheClearAll(s), name, default) == SettingGet(s, name, default)
  {
    NamespacesDisjoint(key, name);
    assert !Strings.StartsWith(SettingKey(name), CachePrefix) by {
      assert SettingKey(name)[0] != CachePrefix[0];
    }
  }

  // ---------------------------------------------------------------------------
  // importStorage
  // ---------------------------------------------------------------------------

  /** `importStorage(data, clearFirst)`: the imported keys overwrite; the
      other keys stay unless the storage is cleared first. */
  function Import<D>(s: Store<D>, data: Store<D>, clearFirst: bool): (s': Store<D>)
    ensures clearFirst ==> s' == data
    ensures forall k :: k in data ==> k in s' && s'[k] == data[k]
    ensures !clearFirst ==> forall k :: k in s && k !in data ==> k in s' && s'[k] == s[k]
    ensures forall k :: k in s' ==> k in data || (!clearFirst && k in s)
  {
    if clearFirst then data else s + data
  }
}

=== FILE: strings.dfy ===
/** String helpers shared by the model: decimal digits, JavaScript's string
    ordering, ASCII case folding, trimming, substring search and joining. */
module Strings {

  // ---------------------------------------------------------------------------
  // Decimal digits
  // ---------------------------------------------------------------------------

  predicate IsDigit(c: char) {
    '0' <= c <= '9'
  }

  function DigitChar(n: int): (c: char)
    requires 0 <= n < 10
    ensures IsDigit(c)
  {
    ['0', '1', '2', '3', '4', '5', '6', '7', '8', '9'][n]
  }

  function DigitValue(c: char): (n: int)
    requires IsDigit(c)
    ensures 0 <= n < 10
    ensures DigitChar(n) == c
  {
    if c == '0' then 0 else if c == '1' then 1 else if c == '2' then 2
    else if c == '3' then 3 else if c == '4' then 4 else if c == '5' then 5
    else if c == '6' then 6 else if c == '7' then 7 else if c == '8' then 8 else 9
  }

  lemma DigitRoundTrip(n: int)
    requires 0 <= n < 10
    ensures DigitValue(DigitChar(n)) == n
  {
  }

  function Pow10(w: nat): (p: nat)
    ensures p >= 1
  {
    if w == 0 then 1 else 10 * Pow10(w - 1)
  }

  predicate AllDigits(s: string) {
    forall i :: 0 <= i < |s| ==> IsDigit(s[i])
  }

  /** The `w` low-order decimal digits of `n`, most significant first, padded
      with '0' on the left (JavaScript's `String(n).padStart(w, '0')` for
      `n < 10^w`). */
  function Digits(n: nat, w: nat): (s: string)
    ensures |s| == w
    ensures AllDigits(s)
  {
    if w == 0 then [] else Digits(n / 10, w - 1) + [DigitChar(n % 10)]
  }

  /** The number a string of decimal digits denotes. */
  function ParseDigits(s: string): (n: nat)
    requires AllDigits(s)
    ensures n < Pow10(|s|)
  {
    if |s| == 0 then 0 else 10 * ParseDigits(s[..|s| - 1]) + DigitValue(s[|s| - 1])
  }

  /** Formatting then parsing a number that fits in `w` digits gives it back. */
  lemma {:induction false} DigitsRoundTrip(n: nat, w: nat)
    requires n < Pow10(w)
    ensures ParseDigits(Digits(n, w)) == n
  {
    if w > 0 {
      var s := Digits(n, w);
      assert s[..|s| - 1] == Digits(n / 10, w - 1);
      DigitsRoundTrip(n / 10, w - 1);
      DigitRoundTrip(n % 10);
    }
  }

  /** Parsing then formatting a digit string gives it back. */
  lemma {:induction false} ParseRoundTrip(s: string)
    requires AllDigits(s)
    ensures Digits(ParseDigits(s), |s|) == s
  {
    if |s| > 0 {
      var p := s[..|s| - 1];
      var n := ParseDigits(s);
      assert n / 10 == ParseDigits(p) && n % 10 == DigitValue(s[|s| - 1]);
      ParseRoundTrip(p);
      assert s == p + [s[|s| - 1]];
    }
  }

  lemma DigitsInjective(a: nat, b: nat, w: nat)
    requires a < Pow10(w) && b < Pow10(w)
    requires Digits(a, w) == Digits(b, w)
    ensures a == b
  {
    DigitsRoundTrip(a, w);
    DigitsRoundTrip(b, w);
  }

  /** `String(n)` for a natural number: its decimal digits without padding. */
  function NatText(n: nat): (s: string)
    ensures 1 <= |s| && AllDigits(s)
    ensures |s| > 1 ==> s[0] != '0'
    ensures ParseDigits(s) == n
  {
    if n < 10 then [DigitChar(n)]
    else
      var h := NatText(n / 10);
      var s := h + [DigitChar(n % 10)];
      assert s[..|s| - 1] == h;
      DigitRoundTrip(n % 10);
      s
  }

  /** A two-digit number needs no padding. */
  lemma TwoDigitText(n: nat)
    requires 10 <= n < 100
    ensures NatText(n) == Digits(n, 2)
  {
    assert NatText(n / 10) == [DigitChar(n / 10)];
    assert Digits(n / 10, 1) == Digits(n / 100, 0) + [DigitChar(n / 10 % 10)];
  }

  /** `String(1).padStart(2, '0')`. */
  lemma FirstOfMonthText()
    ensures Digits(1, 2) == "01"
  {
    assert Digits(0, 1) == [DigitChar(0)];
  }

  // ---------------------------------------------------------------------------
  // JavaScript string ordering (`<`, `<=`, `Array.prototype.sort`): lexicographic
  // by code unit
  // ---------------------------------------------------------------------------

  predicate Less(a: string, b: string) {
    |b| > 0 && (|a| == 0 || a[0] < b[0] || (a[0] == b[0] && Less(a[1..], b[1..])))
  }

  predicate LessEq(a: string, b: string) {
    a == b || Less(a, b)
  }

  lemma {:induction false} LessIrreflexive(a: string)
    ensures !Less(a, a)
  {
    if |a| > 0 {
      LessIrreflexive(a[1..]);
    }
  }

  lemma {:induction false} LessTransitive(a: string, b: string, c: string)
    requires Less(a, b) && Less(b, c)
    ensures Less(a, c)
  {
    if |a| > 0 && a[0] == b[0] && b[0] == c[0] {
      LessTransitive(a[1..], b[1..], c[1..]);
    }
  }

  lemma {:induction false} LessTotal(a: string, b: string)
    ensures Less(a, b) || a == b || Less(b, a)
  {
    if |a| > 0 && |b| > 0 && a[0] == b[0] {
      LessTotal(a[1..], b[1..]);
      if a[1..] == b[1..] {
        assert a == [a[0]] + a[1..] && b == [b[0]] + b[1..];
      }
    }
  }

  lemma LessAsymmetric(a: string, b: string)
    requires Less(a, b)
    ensures !Less(b, a) && a != b
  {
    LessIrreflexive(a);
    if Less(b, a) {
      LessTransitive(a, b, a);
    }
  }

  /** Comparing two strings that share the length of their first parts: the
      first parts decide unless they are equal. */
  lemma {:induction false} LessConcat(x1: string, y1: string, x2: string, y2: string)
    requires |x1| == |x2|
    ensures Less(x1 + y1, x2 + y2) <==> Less(x1, x2) || (x1 == x2 && Less(y1, y2))
  {
    if |x1| > 0 {
      assert (x1 + y1)[1..] == x1[1..] + y1;
      assert (x2 + y2)[1..] == x2[1..] + y2;
      LessConcat(x1[1..], y1, x2[1..], y2);
      if x1[0] == x2[0] && x1[1..] == x2[1..] {
        assert x1 == [x1[0]] + x1[1..] && x2 == [x2[0]] + x2[1..];
      }
      if x1 == x2 {
        LessIrreflexive(x1);
      }
    } else {
      assert x1 + y1 == y1 && x2 + y2 == y2;
    }
  }

  /** For fixed-width digit strings, the string order is the numeric order. */
  lemma {:induction false} DigitsOrder(a: nat, b: nat, w: nat)
    requires a < Pow10(w) && b < Pow10(w)
    ensures Less(Digits(a, w), Digits(b, w)) <==> a < b
  {
    if w == 0 {
    } else {
      var ha, hb := Digits(a / 10, w - 1), Digits(b / 10, w - 1);
      LessConcat(ha, [DigitChar(a % 10)], hb, [DigitChar(b % 10)]);
      DigitsOrder(a / 10, b / 10, w - 1);
      if ha == hb {
        DigitsInjective(a / 10, b / 10, w - 1);
      }
      assert DigitChar(a % 10) < DigitChar(b % 10) <==> a % 10 < b % 10;
    }
  }

  // ---------------------------------------------------------------------------
  // Case folding, trimming, searching, joining
  // ---------------------------------------------------------------------------

  function LowerChar(c: char): (r: char)
    ensures 'A' <= c <= 'Z' ==> 'a' <= r <= 'z'
    ensures !('A' <= c <= 'Z') ==> r == c
  {
    if 'A' <= c <= 'Z' then (c as int + 32) as char else c
  }

  /** `String.prototype.toLowerCase`, on the ASCII letters. */
  function ToLower(s: string): (r: string)
    ensures |r| == |s|
    ensures forall i :: 0 <= i < |s| ==> r[i] == LowerChar(s[i])
  {
    seq(|s|, i requires 0 <= i < |s| => LowerChar(s[i]))
  }

  lemma ToLowerIdempotent(s: string)
    ensures ToLower(ToLower(s)) == ToLower(s)
  {
  }

  /** The white-space characters `String.prototype.trim` removes (ASCII part). */
  predicate IsSpace(c: char) {
    c == ' ' || c == '\t' || c == '\n' || c == '\r' || c == '\U{000B}' || c == '\U{000C}'
  }

  function TrimStart(s: string): (r: string)
    ensures |r| <= |s| && r == s[|s| - |r|..]
    ensures |r| > 0 ==> !IsSpace(r[0])
    ensures forall i :: 0 <= i < |s| - |r| ==> IsSpace(s[i])
  {
    if |s| > 0 && IsSpace(s[0]) then TrimStart(s[1..]) else s
  }

  function TrimEnd(s: string): (r: string)
    ensures |r| <= |s| && r == s[..|r|]
    ensures |r| > 0 ==> !IsSpace(r[|r| - 1])
    ensures forall i :: |r| <= i < |s| ==> IsSpace(s[i])
  {
    if |s| > 0 && IsSpace(s[|s| - 1]) then TrimEnd(s[..|s| - 1]) else s
  }

  /** `String.prototype.trim`: the longest slice of `s` without leading or
      trailing white space. */
  function Trim(s: string): (r: string)
    ensures |r| > 0 ==> !IsSpace(r[0]) && !IsSpace(r[|r| - 1])
    ensures exists i, j :: 0 <= i <= j <= |s| && r == s[i..j] && SpaceOutside(s, i, j)
    ensures r == "" <==> forall i :: 0 <= i < |s| ==> IsSpace(s[i])
  {
    var t := TrimStart(s);
    var r := TrimEnd(t);
    TrimSlice(s, t, r);
    r
  }

  /** Lower-casing keeps white space where it was, so it does not change
      whether a text is blank, and what trimming leaves of a lower-cased text
      has no capital letter. */
  lemma TrimLower(s: string)
    ensures Trim(ToLower(s)) != "" <==> Trim(s) != ""
    ensures forall k :: 0 <= k < |Trim(ToLower(s))| ==> !('A' <= Trim(ToLower(s))[k] <= 'Z')
  {
    var low := ToLower(s);
    assert forall i :: 0 <= i < |low| ==> (IsSpace(low[i]) <==> IsSpace(s[i]));
    var r := Trim(low);
    SliceNoUpper(low, r);
  }

  lemma SliceNoUpper(low: string, r: string)
    requires forall i :: 0 <= i < |low| ==> !('A' <= low[i] <= 'Z')
    requires exists i, j :: 0 <= i <= j <= |low| && r == low[i..j]
    ensures forall k :: 0 <= k < |r| ==> !('A' <= r[k] <= 'Z')
  {
    var i, j :| 0 <= i <= j <= |low| && r == low[i..j];
    assert forall k :: 0 <= k < |r| ==> r[k] == low[i + k];
  }

  /** A text that neither starts nor ends with white space trims to itself. */
  lemma TrimOfUnpadded(s: string)
    requires s != "" && !IsSpace(s[0]) && !IsSpace(s[|s| - 1])
    ensures Trim(s) == s
  {
    var i, j :| 0 <= i <= j <= |s| && Trim(s) == s[i..j] && SpaceOutside(s, i, j);
    assert s[..|s|] == s;
  }

  /** Everything of `s` before `i` and from `j` on is white space. */
  predicate SpaceOutside(s: string, i: int, j: int)
    requires 0 <= i <= j <= |s|
  {
    (forall k :: 0 <= k < i ==> IsSpace(s[k])) && (forall k :: j <= k < |s| ==> IsSpace(s[k]))
  }

  /** Dropping white space from the front, then from the back, leaves a
      slice with only white space around it. */
  lemma TrimSlice(s: string, t: string, r: string)
    requires |t| <= |s| && t == s[|s| - |t|..] && forall i :: 0 <= i < |s| - |t| ==> IsSpace(s[i])
    requires |r| <= |t| && r == t[..|r|] && forall i :: |r| <= i < |t| ==> IsSpace(t[i])
    ensures 0 <= |s| - |t| <= |s| - |t| + |r| <= |s|
    ensures r == s[|s| - |t|..|s| - |t| + |r|] && SpaceOutside(s, |s| - |t|, |s| - |t| + |r|)
  {
    var i, j := |s| - |t|, |s| - |t| + |r|;
    assert t == s[i..];
    assert r == t[..|r|];
    assert t[..|r|] == s[i..j];
    assert forall k :: 0 <= k < i ==> IsSpace(s[k]);
    forall k | j <= k < |s|
      ensures IsSpace(s[k])
    {
      assert s[k] == t[k - i];
    }
  }

  /** `s.includes(sub)`. */
  predicate Contains(s: string, sub: string) {
    exists i :: 0 <= i <= |s| && sub <= s[i..]
  }

  /** `s.startsWith(p)`. */
  predicate StartsWith(s: string, p: string) {
    |p| <= |s| && s[..|p|] == p
  }

  /** `s.split(c)` for a one-character separator: the pieces between the
      occurrences of `c`, so there is always at least one. */
  function Split(s: string, c: char): (parts: seq<string>)
    ensures |parts| >= 1
    ensures forall i :: 0 <= i < |parts| ==> c !in parts[i]
  {
    if |s| == 0 then [""]
    else
      var rest := Split(s[1..], c);
      if s[0] == c then [""] + rest
      else [[s[0]] + rest[0]] + rest[1..]
  }

  /** `parts.join(sep)`. */
  function Join(parts: seq<string>, sep: string): (r: string)
    ensures |parts| == 0 ==> r == ""
    ensures |parts| == 1 ==> r == parts[0]
  {
    if |parts| == 0 then ""
    else if |parts| == 1 then parts[0]
    else parts[0] + sep + Join(parts[1..], sep)
  }

  /** Splitting text free of `c` that is followed by more text starts the
      first piece with that text. */
  lemma {:induction false} SplitPrefix(a: string, b: string, c: char)
    requires c !in a
    ensures Split(a + b, c) == [a + Split(b, c)[0]] + Split(b, c)[1..]
  {
    if |a| > 0 {
      assert (a + b)[0] == a[0] && (a + b)[1..] == a[1..] + b;
      SplitPrefix(a[1..], b, c);
      assert [a[0]] + (a[1..] + Split(b, c)[0]) == a + Split(b, c)[0];
    } else {
      assert a + b == b && a + Split(b, c)[0] == Split(b, c)[0];
      assert Split(b, c) == [Split(b, c)[0]] + Split(b, c)[1..];
    }
  }

  /** Joining pieces free of `c` with `c` and splitting on `c` gives the
      pieces back. */
  lemma {:induction false} SplitJoin(parts: seq<string>, c: char)
    requires |parts| >= 1
    requires forall i :: 0 <= i < |parts| ==> c !in parts[i]
    ensures Split(Join(parts, [c]), c) == parts
  {
    if |parts| == 1 {
      SplitPrefix(parts[0], "", c);
      assert parts[0] + "" == parts[0];
    } else {
      var rest := Join(parts[1..], [c]);
      SplitJoin(parts[1..], c);
      assert Join(parts, [c]) == parts[0] + ([c] + rest);
      SplitPrefix(parts[0], [c] + rest, c);
      assert ([c] + rest)[1..] == rest;
      assert Split([c] + rest, c) == [""] + parts[1..];
      assert parts[0] + "" == parts[0];
      assert parts == [parts[0]] + parts[1..];
    }
  }

  // ---------------------------------------------------------------------------
  // UTF-16 lengths: JavaScript's `length` and `substring` count code units,
  // and a character outside the Basic Multilingual Plane takes two
  // ---------------------------------------------------------------------------

  function CodeUnits(c: char): (n: nat)
    ensures n == 1 || n == 2
  {
    if c as int >= 0x1_0000 then 2 else 1
  }

  /** `s.length`. */
  function Utf16Length(s: string): (n: nat)
    ensures |s| <= n <= 2 * |s|
  {
    if |s| == 0 then 0 else Utf16Length(s[..|s| - 1]) + CodeUnits(s[|s| - 1])
  }

  /** Inside the Basic Multilingual Plane `length` counts characters. */
  lemma {:induction false} Utf16OfBmp(s: string)
    requires forall i :: 0 <= i < |s| ==> s[i] as int < 0x1_0000
    ensures Utf16Length(s) == |s|
  {
    if |s| > 0 {
      var p := s[..|s| - 1];
      assert forall i :: 0 <= i < |p| ==> p[i] == s[i];
      Utf16OfBmp(p);
    }
  }

  /** Code units add up over concatenation. */
  lemma {:induction false} Utf16Concat(a: string, b: string)
    ensures Utf16Length(a + b) == Utf16Length(a) + Utf16Length(b)
    decreases |b|
  {
    if |b| > 0 {
      assert (a + b)[..|a + b| - 1] == a + b[..|b| - 1];
      Utf16Concat(a, b[..|b| - 1]);
    } else {
      assert a + b == a;
    }
  }

  /** The number of characters of the longest prefix of `s` that fits in
      `n` code units, searching from `k` on. */
  function Utf16PrefixFrom(s: string, n: nat, k: nat): (m: nat)
    requires k <= |s| && Utf16Length(s[..k]) <= n
    ensures k <= m <= |s| && Utf16Length(s[..m]) <= n
    ensures m < |s| ==> Utf16Length(s[..m + 1]) > n
    decreases |s| - k
  {
    if k == |s| then k
    else
      Utf16Snoc(s, k);
      if Utf16Length(s[..k]) + CodeUnits(s[k]) > n then k
      else Utf16PrefixFrom(s, n, k + 1)
  }

  /** One more character adds its code units. */
  lemma Utf16Snoc(s: string, k: nat)
    requires k < |s|
    ensures Utf16Length(s[..k + 1]) == Utf16Length(s[..k]) + CodeUnits(s[k])
  {
    assert s[..k + 1][..k] == s[..k];
  }

  /** The characters `s.substring(0, n)` keeps whole: the longest prefix of
      at most `n` code units. */
  function Utf16Prefix(s: string, n: nat): (m: nat)
    ensures m <= |s| && Utf16Length(s[..m]) <= n
    ensures m < |s| ==> Utf16Length(s[..m + 1]) > n
  {
    assert s[..0] == "";
    Utf16PrefixFrom(s, n, 0)
  }

  /** Without characters outside the Basic Multilingual Plane every
      character is one code unit, so prefixes are cut where `n` says. */
  lemma Utf16PrefixOfBmp(s: string, n: nat)
    requires forall i :: 0 <= i < |s| ==> s[i] as int < 0x1_0000
    ensures Utf16Length(s) == |s|
    ensures Utf16Prefix(s, n) == if |s| <= n then |s| else n
  {
    Utf16OfBmp(s);
    var m := Utf16Prefix(s, n);
    Utf16OfBmpPrefix(s, m);
    if m < |s| {
      Utf16OfBmpPrefix(s, m + 1);
    }
  }

  /** Prefixes of a text inside the Basic Multilingual Plane stay inside it. */
  lemma Utf16OfBmpPrefix(s: string, k: nat)
    requires k <= |s|
    requires forall i :: 0 <= i < |s| ==> s[i] as int < 0x1_0000
    ensures Utf16Length(s[..k]) == k
  {
    var p := s[..k];
    assert forall i :: 0 <= i < |p| ==> p[i] == s[i];
    Utf16OfBmp(p);
  }

  /** Three characters outside the Basic Multilingual Plane after "Aa1" make
      six characters but nine code units. */
  lemma Utf16Example()
    ensures |"Aa1\U{1F600}\U{1F600}\U{1F600}"| == 6
    ensures Utf16Length("Aa1\U{1F600}\U{1F600}\U{1F600}") == 9
  {
    var e: string := ['\U{1F600}'];
    assert e[..0] == [];
    assert Utf16Length(e) == 2;
    Utf16Concat(e, e);
    Utf16Concat(e + e, e);
    Utf16Concat("Aa1", e + e + e);
    assert "Aa1\U{1F600}\U{1F600}\U{1F600}" == "Aa1" + (e + e + e);
    Utf16OfBmp("Aa1");
  }
}

=== FILE: tag_input.dfy ===
/** The tag picker of the entry form: the tags chosen so far (held by the
    parent, updated through `onChange`), the text being typed, the
    suggestion list and the colour of each chosen tag. */
module TagInput {
  import Strings

  /** A tag the picker knows, with its badge colour. */
  datatype TagDef = TagDef(name: string, color: string)

  const DefaultTags: seq<TagDef> := [
    TagDef("Work", "#3B82F6"), TagDef("Personal", "#10B981"), TagDef("Study", "#F59E0B"),
    TagDef("Health", "#EF4444"), TagDef("Project", "#8B5CF6"), TagDef("Hobby", "#EC4899")]

  const DefaultMaxTags := 5
  const FallbackColor := "#A8E6CF"

  /** The known tags: the predefined ones if there are any, else the six
      defaults. */
  function Catalog(predefined: seq<TagDef>): (c: seq<TagDef>)
    ensures |c| > 0
    ensures |predefined| > 0 ==> c == predefined
  {
    if |predefined| > 0 then predefined else DefaultTags
  }

  /** The picker's state: the chosen tags and the typed text. */
  datatype Picker = Picker(selected: seq<string>, input: string)

  /** No tag is chosen twice. */
  predicate NoRepeats(s: seq<string>) {
    forall i, j :: 0 <= i < j < |s| ==> s[i] != s[j]
  }

  // ---------------------------------------------------------------------------
  // Suggestions
  // ---------------------------------------------------------------------------

  /** A known tag is offered: its lower-cased name contains the lower-cased
      input, and it is not chosen yet. */
  predicate Offered(t: TagDef, selected: seq<string>, input: string) {
    Strings.Contains(Strings.ToLower(t.name), Strings.ToLower(input)) && t.name !in selected
  }

  /** `filteredSuggestions` over the known tags `tags`, in their order. */
  function Suggest(tags: seq<TagDef>, selected: seq<string>, input: string): (r: seq<TagDef>)
    ensures |r| <= |tags|
    ensures forall t :: t in r <==> t in tags && Offered(t, selected, input)
  {
    if |tags| == 0 then []
    else
      var rest := Suggest(tags[1..], selected, input);
      assert forall t :: t in tags <==> t == tags[0] || t in tags[1..];
      if Offered(tags[0], selected, input) then [tags[0]] + rest else rest
  }

  /** Suggesting works piece by piece, keeping the known tags' order. */
  lemma {:induction false} SuggestAppend(a: seq<TagDef>, b: seq<TagDef>, selected: seq<string>, input: string)
    ensures Suggest(a + b, selected, input) == Suggest(a, selected, input) + Suggest(b, selected, input)
  {
    if |a| > 0 {
      assert (a + b)[1..] == a[1..] + b;
      SuggestAppend(a[1..], b, selected, input);
    } else {
      assert a + b == b;
    }
  }

  /** A blank input offers every known tag that is not chosen. */
  lemma BlankInputOffersAll(tags: seq<TagDef>, selected: seq<string>)
    ensures forall t :: t in Suggest(tags, selected, "") <==> t in tags && t.name !in selected
  {
    forall t: TagDef
      ensures Strings.Contains(Strings.ToLower(t.name), Strings.ToLower(""))
    {
      assert Strings.ToLower("") <= Strings.ToLower(t.name)[0..];
    }
  }

  // ---------------------------------------------------------------------------
  // Adding and removing
  // ---------------------------------------------------------------------------

  /** `handleAddTag(name)`: nothing happens when `maxTags` tags are already
      chosen (not even clearing the input); otherwise a new name is appended,
      a chosen one is not added again, and the input is cleared. */
  function AddTag(p: Picker, maxTags: int, name: string): (r: Picker)
    ensures |p.selected| >= maxTags ==> r == p
    ensures |p.selected| < maxTags ==> r.input == ""
    ensures |p.selected| < maxTags && name !in p.selected ==> r.selected == p.selected + [name]
    ensures name in p.selected ==> r.selected == p.selected
  {
    if |p.selected| >= maxTags then p
    else if name in p.selected then Picker(p.selected, "")
    else Picker(p.selected + [name], "")
  }

  /** Adding never takes the list past the limit it started within, and never
      repeats a tag. */
  lemma AddKeepsLimits(p: Picker, maxTags: int, name: string)
    requires |p.selected| <= maxTags && NoRepeats(p.selected)
    ensures |AddTag(p, maxTags, name).selected| <= maxTags
    ensures NoRepeats(AddTag(p, maxTags, name).selected)
  {
  }

  /** `handleRemoveTag(name)`: every occurrence of `name` goes; the other
      tags stay in order. */
  function RemoveTag(selected: seq<string>, name: string): (r: seq<string>)
    ensures |r| <= |selected|
    ensures forall t :: t in r <==> t in selected && t != name
  {
    if |selected| == 0 then []
    else
      var rest := RemoveTag(selected[1..], name);
      assert forall t :: t in selected <==> t == selected[0] || t in selected[1..];
      if selected[0] == name then rest else [selected[0]] + rest
  }

  /** Removing a tag that occurs once, at position `i`, removes exactly that
      position. */
  lemma {:induction false} RemoveAt(selected: seq<string>, name: string, i: int)
    requires 0 <= i < |selected| && selected[i] == name
    requires forall j :: 0 <= j < |selected| && j != i ==> selected[j] != name
    ensures RemoveTag(selected, name) == selected[..i] + selected[i + 1..]
  {
    if i == 0 {
      RemoveAbsent(selected[1..], name);
    } else {
      RemoveAt(selected[1..], name, i - 1);
      assert selected[1..][..i - 1] + selected[1..][i..] == (selected[..i] + selected[i + 1..])[1..];
    }
  }

  /** Removing a tag that is not chosen changes nothing. */
  lemma {:induction false} RemoveAbsent(selected: seq<string>, name: string)
    requires name !in selected
    ensures RemoveTag(selected, name) == selected
  {
    if |selected| > 0 {
      RemoveAbsent(selected[1..], name);
      assert selected == [selected[0]] + selected[1..];
    }
  }

  /** Adding a tag and then removing it restores the chosen tags. */
  lemma AddThenRemove(p: Picker, maxTags: int, name: string)
    requires name !in p.selected
    ensures RemoveTag(AddTag(p, maxTags, name).selected, name) == p.selected
  {
    var s := AddTag(p, maxTags, name).selected;
    if s == p.selected {
      RemoveAbsent(p.selected, name);
    } else {
      RemoveAt(s, name, |p.selected|);
      assert s[..|p.selected|] == p.selected;
    }
  }

  /** `handleKeyDown`: Enter with a non-blank input adds the trimmed input;
      any other key, or a blank input, changes nothing. */
  function KeyDown(p: Picker, maxTags: int, enter: bool): (r: Picker)
    ensures !enter || Strings.Trim(p.input) == "" ==> r == p
    ensures r.selected == p.selected || r.selected == p.selected + [Strings.Trim(p.input)]
    ensures r.selected != p.selected ==> enter && r.input == "" && Strings.Trim(p.input) != ""
    ensures enter && Strings.Trim(p.input) != "" ==> r == AddTag(p, maxTags, Strings.Trim(p.input))
  {
    var t := Strings.Trim(p.input);
    if enter && t != "" then AddTag(p, maxTags, t) else p
  }

  /** Enter after typing a new name without surrounding blanks, below the
      limit, chooses exactly what was typed and clears the input. */
  lemma KeyDownChoosesTyped(p: Picker, maxTags: int)
    requires p.input != "" && !Strings.IsSpace(p.input[0]) && !Strings.IsSpace(p.input[|p.input| - 1])
    requires |p.selected| < maxTags && p.input !in p.selected
    ensures KeyDown(p, maxTags, true) == Picker(p.selected + [p.input], "")
  {
    Strings.TrimOfUnpadded(p.input);
  }

  // ---------------------------------------------------------------------------
  // Colours
  // ---------------------------------------------------------------------------

  /** `getTagColor(name)`: the colour of the first known tag with that name,
      or the fallback when there is none or its colour is empty. */
  function TagColor(tags: seq<TagDef>, name: string): (c: string)
    ensures c != ""
    ensures (forall i :: 0 <= i < |tags| ==> tags[i].name != name) ==> c == FallbackColor
    ensures forall i ::
      (0 <= i < |tags| && tags[i].name == name && tags[i].color != ""
       && forall j :: 0 <= j < i ==> tags[j].name != name) ==> c == tags[i].color
  {
    if |tags| == 0 then FallbackColor
    else if tags[0].name == name then (if tags[0].color != "" then tags[0].color else FallbackColor)
    else
      var c := TagColor(tags[1..], name);
      assert forall i :: 1 <= i < |tags| ==> tags[i] == tags[1..][i - 1];
      c
  }
}

=== FILE: wrappers.dfy ===
/** Optional values: the model's stand-in for JavaScript's `undefined` / `null`. */
module Wrappers {

  datatype Option<+T> = None | Some(value: T) {

    /** The value when present, `default` otherwise (JavaScript's `x || default`
        for values that are never falsy). */
    function GetOr(default: T): T {
      match this
      case Some(v) => v
      case None => default
    }
  }
}
